=== FILE: README.md ===
# MPFR core: addition, exp_3, cosh, sign, raw printing and `%R` formatting

A Dafny model of the core of an early MPFR (multiple-precision binary
floating point with correct rounding). A number is NaN, a signed infinity,
a signed zero, or a regular value `mant * 2^(exp - prec)` whose `prec`-bit
significand has its top bit set. Significands are stored in 64-bit limbs,
with the padding bits at the bottom of the lowest limb.

The model covers these parts of the library:

- **Rounding** (`floats.dfy`). The library's rounding rule takes a round bit, a sticky bit and the parity of the last kept bit. It is defined once (`RoundUp`, `RoundedQuotient`) and proved to be correct rounding (`IsRounding`) in each direction a mode and sign select. `mpfr_set` and its ternary value are defined in terms of it.
- **mpfr_add and mpfr_add1** (`add.c`).
  - `Add.Add1` is the kernel with the evident intent of every branch: the correctly rounded sum of two same-signed numbers.
  - `Add.Add1AsWritten` follows the code's own bit tests and truncations: the no-overlap branch with b no wider than a, the branches that only truncate, and cases 0 and 3 of the overlap switch through the `to_nearest` label (`Add.RoundedAsWritten`). The two carry chains over limbs are taken at their corrected value (see "Left out").
  - The two agree on one-limb operands outside the defect cases (`Add.Add1AsWrittenAgrees`; its conditions are under "Left out"). Five defects are exhibited with concrete operands in `add_findings.dfy`.
  - `Add.AddValues` is the dispatcher: NaN, zeros, same-sign addition, cancellation. `mpfr_sub1` is a parameter. `Add.AddValuesAsWritten` is the same dispatcher over the kernel as written.
- **mpfr_exp_3** (`exp3.c`).
  - `exp3.dfy` covers `mpfr_exp_rational`. It is binary splitting of the series of `exp(p / 2^r)` on a stack of blocks. It is proved to compute the exact partial sum `S(0, N)` over `N!` (closed forms in `binsplit.dfy`) before the final truncation to `precy` bits.
  - `exp3_control.dfy` covers `mpfr_exp_3` itself: decomposition into chunks, the chunk loop, the squarings, the Ziv retry loop and its three exits.
- **mpfr_cosh** (`cosh.c`). The singular cases, and a Ziv loop whose working precision grows by ten bits per pass until the rounding test accepts.
- **mpfr_sgn** (`src/sgn.c`), with the erange flag as explicit state.
- **mpfr_get_str_raw / mpfr_print_raw** (`print_raw.c`). The raw binary form `[-]0.<bits>[<padding>]E<exp>`, with a reader that proves the form is lossless.
- **mpfr_vasprintf for `%R` conversions** (`vasprintf.c`).
  - Parsing a conversion specification: flags, `READ_INT` with its overflow assertions, width, precision, type modifier, rounding letter.
  - The search for the next `%`.
  - The one-digit hexadecimal case of `regular_ab` and its exponent.
  - The parts built by `partition_number` for NaN, infinities and zeros, and its checked total and padding.
  - The layout written by `sprnt_fp`.

Global state (the flags, the previous sign of the destination, the exponent range) becomes explicit parameters and results. Routines outside the core are function parameters: `mpfr_sub1`, `mpfr_exp`, `mpfr_ui_div`, `mpfr_mul`, `mpfr_sqr`, `mpfr_div_2ui`, `mpfr_extract`, `mpfr_can_round` and `mpfr_get_str`. The model assumes only that they return well-formed numbers. Retry loops that the source leaves unbounded take a `fuel` bound on the number of passes.

## Model

| member | source | states |
|---|---|---|
| Add.Limbs | add.c:69-73 | the limb count of a p-bit significand is the least n with p <= 64 n |
| Add.Padding | add.c:71 | the unused low bits number less than 64 and, with the p significant bits, fill the limbs exactly |
| Add.Add1 | add.c:38-380 | the sum has b's sign and precision pa, is the correct rounding of abs(b) + abs(c) in the direction the mode selects for that sign, and its exponent exceeds b's by at most two carries |
| Add.AddOneUlp | add.c:370-375 | adding one ulp yields a valid p-bit number whose magnitude, measured at the old exponent, is m + 1; the exponent moves up by one exactly on the carry out |
| Add.NoOverlapUp | add.c:94-137 | when c lies below a's last bit, b is copied and one ulp is added exactly when the rounding rule, given c against half an ulp, asks for it |
| Add.NoOverlapCorrect | add.c:88-192 | in the no-overlap case that copy-and-maybe-add-one-ulp rule is the correctly rounded sum Add1 |
| Add.TruncatedSumIsTruncation | add.c:247-263 | the sum of the operands cut at a's limb boundary, shifted on a carry out, with its padding cleared, is that limb sum rounded toward zero to pa bits |
| Add.TruncatedSumCorrect | add.c:332-334 | when b is no wider than a, clearing the padding bits of the overlap sum is the correctly rounded sum toward zero |
| Add.StoredSum | add.c:247-261 | the limbs after the addition and the carry shift hold the truncated sum in their significant bits and fit in an limbs |
| Add.StrayPaddingBit | add.c:255-330 | in overlap case 2 under round to nearest or away, a carry out leaves the padding nonzero exactly when the last significant bit of the limb sum is 1 |
| Add.HalfTestOneLimb | add.c:118-122 | for a one-limb c, the code's half-ulp test holds exactly when c's significand is 1000...0 |
| Add.HalfTestWideFails | add.c:118-122 | for a c of two limbs or more, the code's half-ulp test never holds |
| Add.ParityOneLimb | add.c:124 | for a one-limb a, the code's parity test reads the last significant bit |
| Add.NoOverlapOneLimb | add.c:94-137 | with one-limb a and c, the no-overlap branch as written equals the corrected one |
| Add.RoundedAsWritten | add.c:247-368 | cases 3 and 0 of the overlap switch, through to_nearest, give a's sign and precision and either the truncated limb sum or one ulp above it |
| Add.Add1AsWrittenAgrees | add.c:88-368 | with one-limb a and c and b no wider than a, the code as written computes the correctly rounded sum when c lies below a's last bit, when the mode rounds toward zero, or when c is cut, a has padding bits and the limb sum does not carry out |
| Add.Case3OneLimb | add.c:321-368 | in case 3 with one-limb a and c, padding bits and no carry out, to_nearest's test on the padding bits and then on the bits mpn_rshift cut off c is the correct rounding of the exact sum |
| Add.CutBits | add.c:361 | shifting a limb left by 64 - dif leaves a nonzero limb exactly when its low dif bits are not all zero |
| Add.Case3Decision | add.c:347-366 | comparing the padding bits with half of them, and on a tie reading the cut bits and then the parity, is the shared rounding rule applied to all the bits below a's last bit |
| Add.NearestFullLimbTruncates | add.c:321-323 | with PREC(a) = 64 and a one-limb c that is cut, to_nearest finds no limb below the cut and round to nearest returns the truncated sum, whatever the cut bits are |
| Add.Cmp3Neg | add.c:409-410 | mpfr_cmp3(b, c, -1) on opposite signs: its product with b's sign is positive exactly when abs(b) > abs(c), and it is zero exactly when the magnitudes are equal |
| Add.Dispatch | add.c:395-418 | NaN exactly when an operand is NaN; a copy of the other operand exactly when one is zero; add1 exactly for equal signs, larger exponent first; zero exactly for cancellation; otherwise sub1 with the larger magnitude first |
| Add.AddValues | add.c:382-419 | mpfr_add propagates NaN, sets from the other operand when one is zero, adds same-signed operands by Add1 ordered by exponent, and leaves a zero with the destination's previous sign on exact cancellation |
| Add.AddCommutes | add.c:382-419 | swapping b and c changes nothing unless both are zeros |
| Add.AddSameSignRounds | add.c:416-418 | for same-signed regular operands the result is the correct rounding of abs(b) + abs(c), with b's sign |
| Add.AddValuesAsWritten | add.c:382-419 | mpfr_add over the kernel as written: every route but same-sign addition is the corrected dispatcher's, and same-signed operands go to Add1AsWritten ordered by exponent |
| AddFindings.TopLimbParityFinding | add.c:124 | for a 128-bit b whose top limb ends in 1 and c exactly half an ulp, the code rounds the tie up to an odd significand while the corrected sum keeps b |
| AddFindings.HalfTestFinding | add.c:118-122 | 1 + 1/4 at two bits to nearest, with a 65-bit c: the code gives 1.5, the corrected sum gives 1 |
| AddFindings.LostCarryFinding | add.c:332-334 | a 128-bit b and a 64-bit c rounded toward zero to 64 bits: the code is one ulp below the corrected sum |
| AddFindings.UnroundedCarryFinding | add.c:281-330 | 1.75 + 1 at three bits to nearest: the code leaves 2.5 in the significant bits and a stray 1 in padding bit 60 of the limb 0xB000000000000000; the corrected sum is 3 |
| AddFindings.CutRoundBitFinding | add.c:347-363 | b = (2^63 + 1) 2^-64 and c = b / 2 at 64 bits to nearest: the exact sum is a tie whose lower neighbour is odd; the code keeps 0xC000000000000001, the corrected sum is 0xC000000000000002 |
| AddFindings.CutRoundBitThroughAdd | add.c:416-418 | the same operands through mpfr_add: the dispatcher over the kernel as written returns the odd neighbour, the corrected one the even one |
| Floats.RoundedQuotientRounds | add.c:184-189 | the rounding rule, applied to n divided by 2^s, selects the multiple of 2^s that correct rounding in the given direction selects |
| Floats.RoundToPrec | add.c:370-375 | rounding to p bits gives a valid p-bit number of the given sign whose exponent is the bit length of the input, or one more after a carry |
| Floats.RoundToPrecCorrect | add.c:338-375 | rounding to p bits meets the definition of correct rounding in the direction the mode and sign select |
| Floats.IsRoundingUnique | add.c:338-375 | correct rounding determines its result: two results that both meet it have the same significand, exponent and precision |
| Floats.RoundToPrecToward | add.c:332-334 | toward zero, rounding an input wider than p bits keeps its top p bits |
| Floats.RoundToPrecExact | add.c:94-99 | an input of at most p bits is kept exactly, shifted up to p bits |
| Floats.Set | add.c:399-400 | mpfr_set copies singular values and gives a regular value the precision p and its own sign |
| Floats.SetRounds | exp3.c:270 | mpfr_set of a regular number is its correct rounding to p bits |
| Floats.Ternary | cosh.c:113 | the ternary value is -1, 0 or 1, and is 0 exactly when the rounded value equals the exact one; it is positive exactly when the rounded value lies above the exact one and negative exactly when below |
| Floats.TernaryAt | cosh.c:113 | the direction of the ternary value is the same at every common unit the two values are compared in |
| Floats.SetTernaryDirection | exp3.c:270 | mpfr_set's ternary value is never negative under RNDU and never positive under RNDD; under RNDZ it is zero or of the sign opposite to the value's |
| Floats.One | cosh.c:55 | the value 1 at precision p: significand 2^(p-1), exponent 1, positive |
| BinSplit.PowerSquare | exp3.c:65-68 | squaring p^(2^k) gives p^(2^(k+1)) |
| BinSplit.QBlockFact | exp3.c:81 | the denominator of a block of terms [a, b) times a! is b!, so the product of the stacked denominators is i! |
| BinSplit.SBlockIsSum | exp3.c:30-33 | the binary-splitting numerator of a block equals the explicit sum of the series terms over the common denominator |
| BinSplit.SBlockSplit | exp3.c:88-99 | splitting a block at c: the left numerator weighted by the right block's denominator and powers of two, plus the right numerator weighted by p^(c - a) |
| BinSplit.SBlockPositive | exp3.c:131-133 | a block's numerator is positive whenever p / 2^r is nonzero and strictly between -1 and 1 |
| Exp3.TrailingZeros | exp3.c:61 | n is an odd number times 2^z |
| Exp3.Strip | exp3.c:59-63 | p becomes odd, r drops by the stripped zeros, p / 2^r is unchanged, and for abs(p) < 2^r the new r is at least 1 |
| Exp3.PowerTable | exp3.c:65-68 | entry k of the table is p^(2^k), for every k below max(m, 1) |
| Exp3.MergeStep | exp3.c:91-99 | one merge of two adjacent blocks gives the numerator and denominator of their union |
| Exp3.CombineEven | exp3.c:86-88 | while (i + 1) / 2^l is even, the block under the top one has the same size 2^l, so merges are of equal halves |
| Exp3.StackDepth | exp3.c:78-82 | a stack of strictly decreasing power-of-two blocks covering fewer than 2^m terms is less than m deep, so the tables of m + 1 entries suffice |
| Exp3.Reduce | exp3.c:86-111 | the merges after pushing term i keep the stack a strictly decreasing cover of the first i + 1 terms, and change nothing when i + 1 is odd |
| Exp3.Accumulate | exp3.c:114-129 | the final merges leave exactly the numerator S(0, n) and the denominator n! |
| Exp3.Gather | exp3.c:69-112 | the main loop stops with between 1 and 2^m terms on a stack that covers exactly those terms; prec_i_have was below precy at every test but the last, changed only on merges, and at exit has reached precy unless all 2^m terms are in |
| Exp3.ShiftToBits | exp3.c:131-146 | S and Q are scaled to exactly the requested bit counts, the shift is recorded, and a right shift truncates |
| Exp3.QuotientBits | exp3.c:148 | a 2p-bit number divided by a p-bit number has p or p + 1 bits |
| Exp3.ExpFinish | exp3.c:131-150 | the result is a positive p-bit number that is the toward-zero rounding of the scaled quotient, at the exponent the shifts and the factored powers of two give |
| Exp3.ExpRational | exp3.c:42-151 | between 1 and 2^m terms are summed, N of them, where the bit estimate first reached precy or N = 2^m; the exact sum is positive, and y is the truncated quotient of the exact partial sum S(0, N) by N! |
| Exp3Control.CeilLog2 | exp3.c:174 | the least c with n <= 2^c |
| Exp3Control.PrecX | exp3.c:174-176 | prec_x is the least r >= 0 with PREC(x) <= 2^(r + 6) |
| Exp3Control.Decompose | exp3.c:178-191 | the copy keeps x's sign and significand with an exponent at most 0, and shift_x = max(EXP(x), 0) restores it |
| Exp3Control.ZivNext | exp3.c:273 | each retry raises the working precision |
| Exp3Control.RealPrecIncreasing | exp3.c:273-274 | the precision of pass t + 1 exceeds that of pass t, and none is below the first |
| Exp3Control.LaterShape | exp3.c:225-235 | the later calls are exactly the nonzero chunks among 1 .. iter in increasing order, each with weight 2^(6 + i) - ttt and at most 2^(k - i + 1) terms |
| Exp3Control.PlanFeasible | exp3.c:215-235 | a pass is feasible exactly when every call meets the argument bound of exp_rational and twopoweri stays within LONG_MAX / 2 |
| Exp3Control.ChunkExp | exp3.c:218-230 | the factor of a chunk is what mpfr_exp_rational returns for it: S(0, n) over n!, truncated to the working precision, for some n between 1 and 2^m |
| Exp3Control.ChunkLoop | exp3.c:225-235 | the loop succeeds exactly when the plan is feasible, and then its calls are the plan, each factor is mpfr_exp_rational's result for its call, and the result is acc times the factors in order |
| Exp3Control.ChunkIter | exp3.c:227-233 | one chunk either extends the invariant by one position (a nonzero chunk adds its mpfr_exp_rational call, term count and factor, and multiplies the factor into tmp) or stops, and it stops only when the plan is infeasible |
| Exp3Control.Approximate | exp3.c:204-235 | k and iter are as the source computes them; success exactly when feasible; each factor is mpfr_exp_rational's result for its call; the result is chunk 0's factor squared 32 times, times the later factors |
| Exp3Control.OverflowSticky | exp3.c:243-247 | an overflow raised by any of the shift_x squarings is still set after the last one |
| Exp3Control.SetMax | exp3.c:251-252 | mpfr_setmax: significand 2^p - 1 at exponent e, keeping the sign |
| Exp3Control.Pass | exp3.c:204-245 | a pass either reports that an assertion or argument bound would fail, or records its plan, the mpfr_exp_rational result of every call, their product, the shift_x squarings with their flags, and the can-round verdict |
| Exp3Control.Exits | exp3.c:247-272 | overflow first: ternary 1 and the maximum significand above emax; then underflow: ternary -1 at emin - 2; otherwise the roundable approximation is passed to mpfr_set; the flags left are the squarings' flags, plus inexact on a nonzero ternary of mpfr_set |
| Exp3Control.ExitRounds | exp3.c:267-271 | the normal exit is the correct rounding of the approximation to y's precision |
| Exp3Control.ExpZiv | exp3.c:156-285 | passes run at the Ziv precisions from realprec; every pass but the last was retried; the last exits by Exits, so the caller's flags are replaced by the last pass's squaring flags and mpfr_set's inexact flag; an abort means the next pass would break a bound |
| Cosh.StartPrec | cosh.c:77-79 | Nt is at least max(Nx, Ny) + 3, with 2^(Nt - max - 3) >= max |
| Cosh.Finish | cosh.c:113 | y is valid with ternary -1, 0 or 1; a regular t gives a regular y of t's sign at Ny bits; the inexact flag is raised exactly for a nonzero ternary value or when it was already set |
| Cosh.CoshZiv | cosh.c:32-123 | NaN gives NaN with the NaN flag, an infinity gives +Inf, zero gives 1; otherwise the passes are retried until the rounding test accepts, and the last one is rounded |
| Cosh.ErrNeverNegative | cosh.c:104-111 | err in pass i is at least max(Nx, Ny) + 10 i, so the err < 0 test never fires and the rounding test is asked in every pass |
| Cosh.PrecisionIncreases | cosh.c:105-107 | the working precision of pass j is that of pass i plus 10 (j - i) |
| Cosh.CoshRounds | cosh.c:113 | when the final t is regular, y is its correct rounding to Ny bits in the caller's mode |
| Cosh.CoshSpecUnique | cosh.c:88-111 | the passes and the outcome are determined by the input |
| Cosh.CoshEven | cosh.c:61-62 | x and -x produce the same passes and the same result |
| Sign.Sgn | src/sgn.c:25-40 | the sign is -1, 0 or 1; it is 0 exactly for NaN and zeros; only NaN raises the erange flag |
| Sign.SgnOfRegular | src/sgn.c:39 | a regular number's sign is the sign of its value |
| Sign.SgnOfInfinity | src/sgn.c:37-39 | an infinity has the sign of its direction |
| Sign.SgnNegate | src/sgn.c:25-40 | negating a number negates its sign and raises the same flags |
| PrintRaw.StoredBits | print_raw.c:48 | the raw form shows all 64 (1 + (p - 1) / 64) stored bits |
| PrintRaw.GetStrRaw | print_raw.c:28-64 | the two limb loops write the raw form of x |
| PrintRaw.PrintRaw | print_raw.c:66-95 | "NaN", "Inf" or "-Inf", "0" for the singular values; the raw form otherwise |
| PrintRaw.RawShape | print_raw.c:45-63 | '-' first exactly for negative x, then "0.", the stored bits with '[' after the p-th, then "]E" and the decimal exponent |
| PrintRaw.BitsValueOf | print_raw.c:53-61 | the bit characters written for S spell S mod 2^n |
| PrintRaw.StoredRoundTrip | print_raw.c:48-62 | the bits before '[' give back the significand |
| PrintRaw.RawRoundTrip | print_raw.c:45-63 | reading the raw form of any valid regular number gives back that number |
| PrintRaw.ReadExponentOf | print_raw.c:63 | "%ld" of e reads back as e |
| Text.NatToDecimalValue | print_raw.c:63 | the decimal spelling of n has value n |
| Text.IntToDecimalRoundTrip | print_raw.c:63 | "%ld" of i is an optional minus sign and digits that read back as i |
| Text.SignedDecimalRoundTrip | vasprintf.c:791-796 | "%+.1ld" of i is a sign and digits that read back as i |
| PrintfParse.ParseFlags | vasprintf.c:163-199 | parse_flags stops at the first character that is not a flag |
| PrintfParse.ParseFlagsReadsFlags | vasprintf.c:166-196 | every character parse_flags consumes is a flag |
| PrintfParse.ParseFlagsSets | vasprintf.c:168-193 | the resulting flags are those of the set of characters consumed: order and repetition do not matter, and the thousands flag sets nothing |
| PrintfParse.ReadIntCorrect | vasprintf.c:71-100 | READ_INT consumes the leading digits and fails exactly when their value reaches 2147483640; below that it yields the value, or the argument when '*' follows, consuming the '*' |
| PrintfParse.ParseArgType | vasprintf.c:201-282 | at most two characters are consumed, and none exactly when the first is not a modifier, which gives no type |
| PrintfParse.ParseArgTypeOfText | vasprintf.c:204-280 | every type modifier's spelling reads back as that type |
| PrintfParse.ParseRnd | vasprintf.c:1683-1710 | one of '*', 'D', 'U', 'Z', 'N' is consumed; any other character is left in place and gives round-to-nearest |
| PrintfParse.ParseRndOfLetter | vasprintf.c:1685-1708 | each mode's letter reads back as that mode |
| PrintfParse.AdjustWidth | vasprintf.c:1665-1670 | a negative width sets left adjustment and becomes its absolute value, failing exactly when that reaches INT_MAX; nothing else changes |
| PrintfParse.ParsePrecDotAlone | vasprintf.c:1671-1678 | a '.' followed by neither a digit nor '*' gives precision -1 |
| PrintfParse.ParseSpecStars | vasprintf.c:1660-1714 | "*.*R*" takes width, precision and mode from the arguments, and a negative width becomes left adjustment |
| PrintfParse.ParseSpecText | vasprintf.c:1660-1714 | every canonical specification, written out and followed by any text, parses back to itself and consumes exactly its text |
| PrintfParse.NextSpecAsWritten | vasprintf.c:1645-1656 | the search as written: the text it returns is a proper suffix of the format |
| PrintfParse.NextSpec | vasprintf.c:1645-1656 | the corrected search: the text it returns is a proper suffix of the format |
| PrintfParse.NextSpecFound | vasprintf.c:1645-1657 | a specification found starts right after a '%' that no '%' follows, and everything before that '%' is literal text |
| PrintfParse.NextSpecNone | vasprintf.c:1645-1652 | when none is found, the format up to its end is literal text |
| PrintfParse.EscapedPercentAsWritten | vasprintf.c:1654-1655 | as written, "%%d" yields a specification with conversion 'd'; corrected, it yields none |
| PrintfHex.DigitRange | vasprintf.c:642-646 | the top four bits of a significand wider than 4 bits form a digit between 8 and 15 |
| PrintfHex.HexLeadRounds | vasprintf.c:619-698 | the corrected digit and exponent are x rounded to 4 bits in the mode's direction, so the digit is between 8 and 15 |
| PrintfHex.HexLeadAgrees | vasprintf.c:633-688 | the code's digit equals the corrected one unless the discarded bits are an exact tie or are all zero under away rounding |
| PrintfHex.HexTieAsWritten | vasprintf.c:658-673 | 17/16 at 5 bits to nearest: the code prints digit 9, ties to even give 8 |
| PrintfHex.HexExactAsWritten | vasprintf.c:633-636 | 1 at 8 bits rounded upward: the code prints digit 9, the exact value has digit 8 |
| PrintfHex.ExpSize | vasprintf.c:774-784 | the reserved exponent size is the length of the text "p%+.1ld" writes |
| PrintfLayout.SingularParts | vasprintf.c:1293-1391 | NaN and infinities never get zero padding, and no padding is set yet |
| PrintfLayout.HexParts | vasprintf.c:568-797 | "%.0Ra" parts: the sign the flags ask for, "0x" or "0X", one digit and the exponent of x correctly rounded to 4 bits, a point only for '#', and no fraction |
| PrintfLayout.NumberParts | vasprintf.c:1293-1509 | the parts of every number are built with no padding yet, with the pad type of the flags for regular numbers and never zeros for NaN or infinities; the only error is that of mpfr_get_str |
| PrintfLayout.CheckedTotal | vasprintf.c:1513-1533 | the staged INT_MAX checks fail exactly when the total length of the parts exceeds INT_MAX, and otherwise give that length |
| PrintfLayout.Partition | vasprintf.c:1513-1543 | -1 exactly when the parts exceed INT_MAX; otherwise the length is max(width, parts) and only the padding size changes |
| PrintfLayout.RenderLength | vasprintf.c:1565-1618 | sprnt_fp writes exactly the number of characters partition_number counted |
| PrintfLayout.RenderPadding | vasprintf.c:1569-1615 | spaces go before or after the unpadded text; leading zeros go between sign and prefix and the digits |
| PrintfLayout.RenderPlain | vasprintf.c:1573-1611 | unpadded parts are written as sign, prefix, then body |
| PrintfLayout.SprntFp | vasprintf.c:1559-1619 | a written conversion is at least the field width long and at most INT_MAX |
| PrintfLayout.NaNText | vasprintf.c:1295-1316 | NaN prints "nan" or "NAN", padded with spaces on the side '-' selects, even under the '0' flag |
| PrintfLayout.ZeroHexText | vasprintf.c:1342-1389 | "%.<p>Ra" of +0 is "0x0." followed by p zeros and "p+0" |
| PrintfLayout.HexText | vasprintf.c:568-797 | "%.0Ra" of a regular x is its sign, "0x", the digit of its 4-bit rounding and that rounding's exponent |

## Left out

- mpfr_sub1, mpfr_exp, mpfr_ui_div, mpfr_mul, mpfr_sqr, mpfr_div_2ui, mpfr_extract, mpfr_can_round and mpfr_get_str are not part of this model. They are function parameters that return well-formed numbers.
- The limb carry chain and the mpn primitives (mpn_add_n, mpn_rshift, mpn_add_1, ...) are not modelled. Significands are exact integers, and the code's cuts at limb boundaries are written as explicit divisions by powers of two.
- The aliasing copies of add.c:58-67 and the DEBUG output are left out. The model has no shared memory.
- mpfr_cmp3 is modelled by the value it returns, not by its code.
- MPFR_ZIV_INIT and MPFR_ZIV_NEXT are not part of this model. They are taken as a first step of 64 bits; each retry adds the step to the precision, and the step becomes half the new precision.
- The exponent range is not modelled. emax and emin_min are parameters of mpfr_exp_3's exits, and results are not range-checked.
- The temporary allocations of exp3.c are left out. The bit-size estimates mult[] and prec_i_have are computed as the code computes them. Only their role in ending the main loop is stated, not the bound 2^prec_i_have on the product of the denominators that they are meant to give.
- Exp3Control.ExpZiv: at most `fuel` passes are modelled. The source loops until an exit.
- Cosh.CoshZiv: at most `fuel` passes are modelled. The source loops until the rounding test accepts.
- mpfr_print_raw writes to stdout. The model returns the string it prints.
- In vasprintf.c the following are not modelled: the va_list, the string buffer and FLUSH, gmp_vasprintf for the non-MPFR conversions, CONSUME_VA_ARG, `%n`, `%P`, and the INT_MAX check on the buffer size. Arguments read by '*' are parameters of the parser.
- regular_fg, regular_eg, the %g selection and the mpfr_get_str path of regular_ab (precision other than 0, or 'b') are left out. They are the `others` parameter of PrintfLayout.NumberParts.
- The locale's decimal point is taken to be '.'.
- PrintfParse.AdjustWidth: the contract covers only widths above INT_MIN. In vasprintf.c:1668, -INT_MIN overflows a C int; the model takes the two's-complement result, INT_MIN again, which passes the INT_MAX assertion and leaves a negative width.
- PrintfLayout.SingularParts: the contract states only the padding rules. The exact parts of each singular case are stated by PrintfLayout.NaNText and PrintfLayout.ZeroHexText.
- PrintfLayout.ZeroHexText: stated only for precisions up to 1000.
- PrintfLayout.HexText: stated only for exponents between -1000 and 1000.
- Add.TruncatedSum: the result is a value, so its padding is zero. In overlap case 2 under round to nearest or away the code leaves the bit shifted out on a carry in the padding (Add.StoredSum, Add.StrayPaddingBit). This breaks the zero-padding that mpfr_print_raw and later limb sums rely on; the value model does not carry that stray bit further.
- Add.AddValues: infinite operands are excluded. This mpfr_add has no infinity test, so with an infinity it would pass the infinity's exponent and limbs to mpfr_add1 or mpfr_sub1. The same holds for Add.AddValuesAsWritten.
- Add.Add1AsWritten: the carry chain of the no-overlap branch when b is wider than a (add.c:138-191) and the two-operand carry chain of case 1 (add.c:283-319) are taken at the corrected value Add1. The rest of mpfr_add1 follows the code.
- Add.Add1AsWrittenAgrees: stated only for one-limb a and c, b no wider than a, and for case 3 only with padding bits and no carry out. Outside these conditions it does not say whether the code rounds correctly.
- Add.AddValues: composes the corrected kernel Add1. Add.AddValuesAsWritten composes the kernel as written.
- PrintfLayout.HexParts: composes the corrected 4-bit rounding PrintfHex.HexLeadOf. The code's rounding, PrintfHex.HexLeadAsWritten, is related to it only at the kernel, so "%.0Ra" of 17/16 at 5 bits is 0x8p-3 here and 0x9p-3 in the code.
- PrintfLayout.NumberParts: takes its one-digit hexadecimal parts from PrintfLayout.HexParts, so it inherits the corrected rounding.
- PrintfLayout.HexText: states the output of the corrected rounding. The code's output differs on the inputs of PrintfHex.HexTieAsWritten and PrintfHex.HexExactAsWritten.
- Cosh.CoshZiv: the flags raised by mpfr_exp, mpfr_ui_div, mpfr_add, mpfr_div_2ui and mpfr_can_round inside the loop are not modelled. Only the caller's flags, the NaN flag and the inexact flag of the final mpfr_set are tracked.
- logging.c and random.c are not part of this model.

## Findings

| source | as written | input that shows it | evidently intended | confidence | as-written member | corrected member |
|---|---|---|---|---|---|---|
| add.c:124 | the round-to-even test reads bit sh of the top limb ap[an-1] | b = 2^127 + 2^64 at 128 bits, c exactly half an ulp, to nearest: the tie is rounded up to an odd significand | test the last significant bit, bit sh of ap[0] | not executed | AddFindings.TopLimbParityFinding | Add.Add1 |
| add.c:118-122 | the half-ulp test compares the lowest limb of c with 1000...0 and then requires the higher limbs to be zero | 1 + 1/4 at two bits to nearest with a 65-bit c gives 1.5 | compare the top limb and require the lower limbs to be zero, giving 1 | not executed | AddFindings.HalfTestFinding | Add.Add1 |
| add.c:332-334 | rounding toward zero only clears the padding of the sum of operands already cut at a's limb boundary, so the carry of the dropped low parts is lost | b = 1/2 + 2^-65 at 128 bits, c = (2^63 + 1) 2^-65 at 64 bits, toward zero at 64 bits: one ulp low | truncate the exact sum | not executed | AddFindings.LostCarryFinding | Add.Add1 |
| add.c:281-330 | the switch has no case for overlap 2, so a carry out that shifts a 1 bit out leaves the sum truncated, and that bit stays in the padding | 1.75 + 1 at three bits to nearest gives 2.5, stored as the limb 0xB000000000000000 with padding bit 60 set | round the shifted-out bit, giving 3 | not executed | AddFindings.UnroundedCarryFinding | Add.Add1 |
| add.c:347-363 | in case 3 with sh = 0, to_nearest takes its round limb from the limb of c below the cut and reads the bits mpn_rshift cut off only after a tie | b = (2^63 + 1) 2^-64, c = b / 2, both at 64 bits, to nearest at 64 bits: the code gives 0xC000000000000001 2^-64 | read the cut bits as the round and sticky bits, giving the even neighbour 0xC000000000000002 2^-64 | not executed | AddFindings.CutRoundBitFinding | Add.Add1 |
| vasprintf.c:1654 | on "%%" the loop continues from the second '%', which then starts a specification | "%%d" reads a conversion 'd', which consumes an int argument | skip "%%" as a whole, as section 7.19.6.1 of ISO/IEC 9899:1999 describes it | not executed | PrintfParse.EscapedPercentAsWritten | PrintfParse.NextSpecFound |
| vasprintf.c:664 | the sticky mask MPFR_LIMB_MASK(shift) includes the round bit, so the tie case is never reached | "%.0Ra" of 17/16 at 5 bits prints 0x9p-3 | ties to even: 0x8p-3 | not executed | PrintfHex.HexTieAsWritten | PrintfHex.HexLeadRounds |
| vasprintf.c:633-636 | a directed mode rounds away whenever the sign matches, even when the discarded bits are all zero | "%.0RUa" of 1 at 8 bits prints 0x9p-3 | an exact value is printed unchanged: 0x8p-3 | not executed | PrintfHex.HexExactAsWritten | PrintfHex.HexLeadRounds |

=== FILE: add.dfy ===
/** Addition of two floating-point numbers: the kernel mpfr_add1 that adds
    same-signed magnitudes, and the dispatcher mpfr_add that handles NaN and
    zero operands and sends opposite-signed operands to the subtraction
    kernel.  Limb arrays are modelled as the naturals they spell; the unit of
    a's limb array is 2^(EXP(b) - an * W) with `an` limbs of W bits. */
module Add {
  import opened Bits
  import opened Floats

  /** Limbs holding a `p`-bit significand (add.c:69, 72-73). */
  function Limbs(p: nat): (n: nat)
    requires p >= 1
    ensures n >= 1 && p <= n * LimbBits && (n - 1) * LimbBits < p
  {
    (p - 1) / LimbBits + 1
  }

  /** Non-significant low bits of the lowest limb (add.c:71). */
  function Padding(p: nat): (sh: nat)
    requires p >= 1
    ensures sh < LimbBits && Limbs(p) * LimbBits == p + sh
  {
    Limbs(p) * LimbBits - p
  }

  /** Exponent of the last significant bit. */
  function Ulp(v: Value): int
    requires v.Reg?
  {
    v.exp - v.prec
  }

  /** What mpfr_add1 expects of its operands: same-signed regular numbers,
      `b` with the larger exponent (add.c:34-36). */
  predicate Add1Pre(b: Value, c: Value, pa: nat)
  {
    && b.Reg? && c.Reg? && Valid(b) && Valid(c)
    && b.neg == c.neg && b.exp >= c.exp && pa >= 1
  }

  /** Weight of the lowest bit of a's limb array once EXP(a) = EXP(b)
      (add.c:74). */
  function LimbBase(b: Value, pa: nat): int
    requires b.Reg? && pa >= 1
  {
    b.exp - Limbs(pa) * LimbBits
  }

  /** A unit fine enough for b, c and a's limb array. */
  function SumBase(b: Value, c: Value, pa: nat): int
    requires b.Reg? && c.Reg? && pa >= 1
  {
    Min(Min(Ulp(b), Ulp(c)), LimbBase(b, pa))
  }

  /** |b| + |c| in units of 2^SumBase(b, c, pa). */
  function ExactSum(b: Value, c: Value, pa: nat): (n: nat)
    requires Add1Pre(b, c, pa)
  {
    var B := SumBase(b, c, pa);
    Scaled(b, B) + Scaled(c, B)
  }

  /** The exact sum has the bit length of |b| or one more. */
  lemma SumBitLen(b: Value, c: Value, pa: nat)
    requires Add1Pre(b, c, pa)
    ensures ExactSum(b, c, pa) > 0
    ensures var k := BitLen(ExactSum(b, c, pa)) + SumBase(b, c, pa);
            k == b.exp || k == b.exp + 1
  {
    var B := SumBase(b, c, pa);
    ScaledRange(b, B);
    ScaledRange(c, B);
    SumLen(Scaled(b, B), Scaled(c, B), b.exp - B, c.exp - B);
  }

  /** x of t bits plus a smaller y of at most t bits has t or t + 1 bits. */
  lemma SumLen(x: nat, y: nat, t: nat, u: nat)
    requires 1 <= u <= t && Pow2(t - 1) <= x < Pow2(t) && y < Pow2(u)
    ensures x + y > 0 && (BitLen(x + y) == t || BitLen(x + y) == t + 1)
  {
    Pow2Monotone(u, t);
    if x + y < Pow2(t) {
      BitLenUnique(x + y, t);
    } else {
      BitLenUnique(x + y, t + 1);
    }
  }

  /** mpfr_add1 (add.c:38-380) with the evident intent of every branch:
      the sign is b's (add.c:76) and the magnitude is |b| + |c| correctly
      rounded to `pa` bits in the direction `rnd` takes for that sign.  The
      exponent grows by at most one for the carry out of the addition
      (add.c:255-263) and one for the carry out of the rounding
      (add.c:370-375). */
  function Add1(b: Value, c: Value, pa: nat, rnd: Rnd): (a: Value)
    requires Add1Pre(b, c, pa)
    ensures a.Reg? && Valid(a) && a.neg == b.neg && a.prec == pa
    ensures ExactSum(b, c, pa) > 0
    ensures IsRounding(ExactSum(b, c, pa), SumBase(b, c, pa), pa, DirOf(rnd, b.neg), a)
    ensures b.exp <= a.exp <= b.exp + 2
  {
    SumBitLen(b, c, pa);
    RoundToPrecCorrect(b.neg, ExactSum(b, c, pa), SumBase(b, c, pa), pa, rnd);
    RoundToPrec(b.neg, ExactSum(b, c, pa), SumBase(b, c, pa), pa, rnd)
  }

  /** The add_one_ulp label (add.c:370-375): one unit in the last place is
      added; a carry out of the top limb leaves 1000...0 and bumps the
      exponent. */
  function AddOneUlp(neg: bool, e: int, p: nat, m: nat): (r: Value)
    requires Normal(p, m)
    ensures r.Reg? && Valid(r) && r.neg == neg && r.prec == p
    ensures r.exp == e || r.exp == e + 1
    ensures r.mant * Pow2(r.exp - e) == m + 1
  {
    if m + 1 == Pow2(p) then Reg(neg, e + 1, p, Pow2(p - 1)) else Reg(neg, e, p, m + 1)
  }

  // ---------------------------------------------------------------------
  // c entirely below a's last bit, b no wider than a (add.c:94-137)

  predicate NoOverlapCase(b: Value, c: Value, pa: nat)
  {
    Add1Pre(b, c, pa) && b.prec <= pa && b.exp - c.exp >= pa
  }

  /** b's significand copied into the top of a and zero-filled below
      (add.c:96-99). */
  function CopiedMant(b: Value, pa: nat): nat
    requires b.Reg? && b.prec <= pa
  {
    b.mant * Pow2(pa - b.prec)
  }

  /** The round-to-nearest test of add.c:107-124 as intended: c reaches half
      an ulp of a only when diff_exp = PREC(a); it then rounds up unless it
      is exactly one half and the last bit of a is even. */
  predicate NearestAddsUlp(b: Value, c: Value, pa: nat)
    requires NoOverlapCase(b, c, pa)
  {
    b.exp - c.exp == pa && (c.mant != Pow2(c.prec - 1) || CopiedMant(b, pa) % 2 == 1)
  }

  /** The no-overlap branch with the intended tie test. */
  function NoOverlap(b: Value, c: Value, pa: nat, rnd: Rnd): (a: Value)
    requires NoOverlapCase(b, c, pa)
  {
    var m := CopiedMant(b, pa);
    NormalCopy(b, pa);
    var up := match DirOf(rnd, b.neg)
      case Nearest => NearestAddsUlp(b, c, pa)
      case Away => true
      case Toward => false;
    if up then AddOneUlp(b.neg, b.exp, pa, m) else Reg(b.neg, b.exp, pa, m)
  }

  lemma NormalCopy(b: Value, pa: nat)
    requires b.Reg? && Valid(b) && b.prec <= pa
    ensures Normal(pa, CopiedMant(b, pa))
  {
    ScaledBitLen(b.prec, b.mant, pa - b.prec);
    BitLenBounds(CopiedMant(b, pa));
  }

  /** In the no-overlap case the copy-then-maybe-add-one-ulp rule is correct
      rounding of b + c. */
  lemma NoOverlapCorrect(b: Value, c: Value, pa: nat, rnd: Rnd)
    requires NoOverlapCase(b, c, pa)
    ensures NoOverlap(b, c, pa, rnd) == Add1(b, c, pa, rnd)
  {
    var n, B, d := ExactSum(b, c, pa), SumBase(b, c, pa), DirOf(rnd, b.neg);
    NoOverlapRounds(b, c, pa, rnd);
    IsRoundingUnique(n, B, pa, d, NoOverlap(b, c, pa, rnd), Add1(b, c, pa, rnd));
  }

  lemma NoOverlapRounds(b: Value, c: Value, pa: nat, rnd: Rnd)
    requires NoOverlapCase(b, c, pa)
    ensures ExactSum(b, c, pa) > 0
    ensures IsRounding(ExactSum(b, c, pa), SumBase(b, c, pa), pa, DirOf(rnd, b.neg), NoOverlap(b, c, pa, rnd))
  {
    var B := SumBase(b, c, pa);
    var d := DirOf(rnd, b.neg);
    var u: nat := b.exp - pa - B;
    var m := CopiedMant(b, pa);
    var C := Scaled(c, B);
    NoOverlapSplit(b, c, pa);
    NoOverlapUp(b, c, pa, rnd);
    var up := RoundUp(d, m % 2 == 1, C >= Pow2(u - 1), C != 0 && C != Pow2(u - 1));
    var r := NoOverlap(b, c, pa, rnd);
    NoOverlapResult(b, pa, m, u, up, B, r);
    CopyRounds(ExactSum(b, c, pa), B, pa, d, m, u, C, up, r);
  }

  /** Copying the top p bits of n = m * 2^u + C and adding one ulp when the
      rounding primitive asks for it rounds n correctly. */
  lemma CopyRounds(n: nat, L: int, p: nat, d: Dir, m: nat, u: nat, C: nat, up: bool, r: Value)
    requires Normal(p, m) && u >= 1 && C < Pow2(u) && n == m * Pow2(u) + C
    requires up == RoundUp(d, m % 2 == 1, C >= Pow2(u - 1), C != 0 && C != Pow2(u - 1))
    requires r.Reg? && r.prec == p && Normal(p, r.mant) && r.exp - p - L >= 0
    requires r.mant * Pow2(r.exp - p - L) == (if up then m + 1 else m) * Pow2(u)
    ensures n > 0 && IsRounding(n, L, p, d, r)
  {
    var U, h := Pow2(u), Pow2(u - 1);
    assert U == 2 * h by { Pow2Split(u); }
    QuotientRoundsCore(n, U, h, d, m, C, up, if up then m + 1 else m);
    NoOverlapBitLen(m, U, C, p, u);
    RoundingAt(n, L, p, d, r, u);
  }

  /** The no-overlap branch adds one ulp exactly when the shared rounding
      primitive, fed the round and sticky bits of c, says so. */
  lemma NoOverlapUp(b: Value, c: Value, pa: nat, rnd: Rnd)
    requires NoOverlapCase(b, c, pa)
    ensures var B := SumBase(b, c, pa);
            var m := CopiedMant(b, pa);
            var C := Scaled(c, B);
            var h := Pow2(b.exp - pa - B - 1);
            var up := RoundUp(DirOf(rnd, b.neg), m % 2 == 1, C >= h, C != 0 && C != h);
            && Normal(pa, m)
            && NoOverlap(b, c, pa, rnd) == if up then AddOneUlp(b.neg, b.exp, pa, m) else Reg(b.neg, b.exp, pa, m)
  {
    NormalCopy(b, pa);
    NoOverlapSplit(b, c, pa);
    NoOverlapHalf(b, c, pa);
  }

  /** n = m * 2^u + C with C below one ulp of a. */
  lemma NoOverlapSplit(b: Value, c: Value, pa: nat)
    requires NoOverlapCase(b, c, pa)
    ensures var B := SumBase(b, c, pa);
            && b.exp - pa - B >= 1
            && ExactSum(b, c, pa) == CopiedMant(b, pa) * Pow2(b.exp - pa - B) + Scaled(c, B)
            && Scaled(c, B) < Pow2(b.exp - pa - B)
            && Pow2(c.exp - B - 1) <= Scaled(c, B) < Pow2(c.exp - B)
  {
    var B := SumBase(b, c, pa);
    var u: nat := b.exp - pa - B;
    Pow2Add(pa - b.prec, u);
    assert b.exp - b.prec - B == (pa - b.prec) + u;
    MulAssoc(b.mant, Pow2(pa - b.prec), Pow2(u));
    assert Scaled(b, B) == CopiedMant(b, pa) * Pow2(u);
    ScaledBitLen(c.prec, c.mant, Ulp(c) - B);
    BitLenBounds(Scaled(c, B));
    Pow2Monotone(c.exp - B, u);
  }

  /** Where c sits relative to half an ulp of a. */
  lemma NoOverlapHalf(b: Value, c: Value, pa: nat)
    requires NoOverlapCase(b, c, pa)
    requires b.exp - pa - SumBase(b, c, pa) >= 1
    requires Pow2(c.exp - SumBase(b, c, pa) - 1) <= Scaled(c, SumBase(b, c, pa)) < Pow2(c.exp - SumBase(b, c, pa))
    ensures var B := SumBase(b, c, pa);
            var h := Pow2(b.exp - pa - B - 1);
            && (Scaled(c, B) >= h <==> b.exp - c.exp == pa)
            && (Scaled(c, B) == h <==> b.exp - c.exp == pa && c.mant == Pow2(c.prec - 1))
  {
    var B := SumBase(b, c, pa);
    var u: nat := b.exp - pa - B;
    var C := Scaled(c, B);
    if b.exp - c.exp == pa {
      assert c.exp - B == u;
      Pow2Add(c.prec - 1, Ulp(c) - B);
      assert Pow2(u - 1) == Pow2(c.prec - 1) * Pow2(Ulp(c) - B);
      if C == Pow2(u - 1) {
        MulCancel(c.mant, Pow2(c.prec - 1), Pow2(Ulp(c) - B));
      }
    } else {
      Pow2Monotone(c.exp - B, u - 1);
    }
  }

  lemma NoOverlapBitLen(m: nat, U: nat, C: nat, pa: nat, u: nat)
    requires Normal(pa, m) && U == Pow2(u) && C < U
    ensures BitLen(m * U + C) == pa + u
  {
    Pow2Add(pa - 1, u);
    Pow2Add(pa, u);
    MulLeMono(Pow2(pa - 1), m, U);
    MulLeMono(m + 1, Pow2(pa), U);
    MulDistrib(m, 1, U);
    assert Pow2(pa + u - 1) <= m * U + C;
    assert m * U + C < Pow2(pa + u);
    BitLenUnique(m * U + C, pa + u);
  }

  lemma NoOverlapResult(b: Value, pa: nat, m: nat, u: nat, up: bool, L: int, r: Value)
    requires b.Reg? && Normal(pa, m) && u >= 1 && L == b.exp - pa - u
    requires r == if up then AddOneUlp(b.neg, b.exp, pa, m) else Reg(b.neg, b.exp, pa, m)
    ensures r.Reg? && r.prec == pa && Normal(pa, r.mant) && r.exp - pa - L >= 0
    ensures r.mant * Pow2(r.exp - pa - L) == (if up then m + 1 else m) * Pow2(u)
  {
    if up && r.exp == b.exp + 1 {
      assert r.mant * 2 == m + 1;
      assert Pow2(u + 1) == 2 * Pow2(u);
      assert r.mant * Pow2(u + 1) == r.mant * 2 * Pow2(u);
    }
  }

  // ---------------------------------------------------------------------
  // The same branch as written

  /** The limbs of a `p`-bit significand, shifted over the padding. */
  function Stored(m: nat, p: nat): nat
    requires p >= 1
  {
    m * Pow2(Padding(p))
  }

  /** Limb `i` (least significant first) of a limb array. */
  function Limb(x: nat, i: nat): nat
  {
    (x / Pow2(LimbBits * i)) % Pow2(LimbBits)
  }

  /** add.c:118-122 as written: the LOWEST limb of c is compared with
      1000...0 and the limbs above it must be zero. */
  predicate HalfTestAsWritten(c: Value)
    requires c.Reg? && c.prec >= 1
  {
    var x := Stored(c.mant, c.prec);
    Limb(x, 0) == Pow2(LimbBits - 1) && forall i | 1 <= i < Limbs(c.prec) :: Limb(x, i) == 0
  }

  /** add.c:124 as written: bit `sh` of the TOP limb ap[an-1]. */
  predicate ParityAsWritten(m: nat, pa: nat)
    requires pa >= 1
  {
    Bit(Limb(Stored(m, pa), Limbs(pa) - 1), Padding(pa)) == 1
  }

  function NoOverlapAsWritten(b: Value, c: Value, pa: nat, rnd: Rnd): (a: Value)
    requires NoOverlapCase(b, c, pa)
  {
    var m := CopiedMant(b, pa);
    NormalCopy(b, pa);
    var up := match DirOf(rnd, b.neg)
      case Nearest => b.exp - c.exp == pa && (!HalfTestAsWritten(c) || ParityAsWritten(m, pa))
      case Away => true
      case Toward => false;
    if up then AddOneUlp(b.neg, b.exp, pa, m) else Reg(b.neg, b.exp, pa, m)
  }

  /** With one limb the stored limb is the whole array. */
  lemma OneLimb(m: nat, p: nat)
    requires Normal(p, m) && Limbs(p) == 1
    ensures Limb(Stored(m, p), 0) == Stored(m, p)
    ensures Stored(m, p) / Pow2(Padding(p)) == m
  {
    var x := Stored(m, p);
    ScaledBitLen(p, m, Padding(p));
    BitLenBounds(x);
    assert LimbBits * 0 == 0;
    DivModUnique(x, Pow2(LimbBits), 0, x);
    DivMulExact(m, Pow2(Padding(p)));
  }

  /** For a one-limb c the as-written half test is the intended one. */
  lemma HalfTestOneLimb(c: Value)
    requires c.Reg? && Valid(c) && Limbs(c.prec) == 1
    ensures HalfTestAsWritten(c) <==> c.mant == Pow2(c.prec - 1)
  {
    OneLimb(c.mant, c.prec);
    Pow2Add(c.prec - 1, Padding(c.prec));
    assert Pow2(c.prec - 1) * Pow2(Padding(c.prec)) == Pow2(LimbBits - 1);
    if Stored(c.mant, c.prec) == Pow2(LimbBits - 1) {
      MulCancel(c.mant, Pow2(c.prec - 1), Pow2(Padding(c.prec)));
    }
  }

  /** A c of two limbs or more never passes the as-written half test: its
      top limb is not zero. */
  lemma HalfTestWideFails(c: Value)
    requires c.Reg? && Valid(c) && Limbs(c.prec) >= 2
    ensures !HalfTestAsWritten(c)
  {
    var cn := Limbs(c.prec);
    var x := Stored(c.mant, c.prec);
    ScaledBitLen(c.prec, c.mant, Padding(c.prec));
    BitLenBounds(x);
    var j := LimbBits * (cn - 1);
    BitLenShift(x, j);
    BitLenBounds(x / Pow2(j));
    DivModUnique(x / Pow2(j), Pow2(LimbBits), 0, x / Pow2(j));
    assert Limb(x, cn - 1) != 0;
  }

  /** For a one-limb a the as-written parity test reads the last bit. */
  lemma ParityOneLimb(m: nat, pa: nat)
    requires Normal(pa, m) && Limbs(pa) == 1
    ensures ParityAsWritten(m, pa) <==> m % 2 == 1
  {
    OneLimb(m, pa);
  }

  lemma NoOverlapOneLimb(b: Value, c: Value, pa: nat, rnd: Rnd)
    requires NoOverlapCase(b, c, pa) && Limbs(pa) == 1 && Limbs(c.prec) == 1
    ensures NoOverlapAsWritten(b, c, pa, rnd) == NoOverlap(b, c, pa, rnd)
  {
    NormalCopy(b, pa);
    HalfTestOneLimb(c);
    ParityOneLimb(CopiedMant(b, pa), pa);
  }

  // ---------------------------------------------------------------------
  // c overlapping a (add.c:193-335): the truncated sum

  /** floor(|v| / 2^L), the part of |v| that lands in a limb array whose
      lowest bit weighs 2^L. */
  function FloorScaled(v: Value, L: int): nat
    requires v.Reg?
  {
    if Ulp(v) >= L then v.mant * Pow2(Ulp(v) - L) else Shr(v.mant, L - Ulp(v))
  }

  lemma FloorScaledAt(v: Value, L: int, B: int)
    requires v.Reg? && B <= Ulp(v) && B <= L
    ensures FloorScaled(v, L) == Scaled(v, B) / Pow2(L - B)
  {
    if Ulp(v) >= L {
      Pow2Add(Ulp(v) - L, L - B);
      assert Scaled(v, B) == FloorScaled(v, L) * Pow2(L - B);
      DivMulExact(FloorScaled(v, L), Pow2(L - B));
    } else {
      MulDivPow2(v.mant, Ulp(v) - B, L - B);
    }
  }

  /** The sum of the two truncated operands in a's limb array: c shifted in
      (add.c:198-241), b added (add.c:247-253). */
  function LimbSum(b: Value, c: Value, pa: nat): nat
    requires Add1Pre(b, c, pa)
  {
    FloorScaled(b, LimbBase(b, pa)) + FloorScaled(c, LimbBase(b, pa))
  }

  lemma LimbSumBounds(b: Value, c: Value, pa: nat)
    requires Add1Pre(b, c, pa)
    ensures var K := Limbs(pa) * LimbBits;
            Pow2(K - 1) <= LimbSum(b, c, pa) < 2 * Pow2(K)
  {
    var K := Limbs(pa) * LimbBits;
    var L := LimbBase(b, pa);
    var B := SumBase(b, c, pa);
    ScaledRange(b, B);
    ScaledRange(c, B);
    FloorScaledAt(b, L, B);
    FloorScaledAt(c, L, B);
    LimbSplit(Scaled(b, B), Scaled(c, B), K, L - B, c.exp - B);
  }

  /** Dropping the low j bits of x (K + j bits) and of y (at most K + j
      bits) leaves a K-bit number and one below 2^K. */
  lemma LimbSplit(x: nat, y: nat, K: nat, j: nat, u: nat)
    requires K >= 1 && Pow2(K + j - 1) <= x < Pow2(K + j) && y < Pow2(u) && u <= K + j
    ensures Pow2(K - 1) <= x / Pow2(j) < Pow2(K) && y / Pow2(j) < Pow2(K)
  {
    var J := Pow2(j);
    Pow2Add(K - 1, j);
    Pow2Add(K, j);
    Pow2Monotone(u, K + j);
    DivBetween(x, Pow2(K - 1), Pow2(K), J);
    DivBetween(y, 0, Pow2(K), J);
  }

  /** The overlap branch as written when it does no rounding: the
      significant bits of StoredSum, the limb sum shifted right on a carry
      out (add.c:255-263).  Toward zero the low `sh` bits are cleared as
      well (add.c:332-334); in overlap case 2 under round to nearest or
      away they are not, see StrayPaddingBit. */
  function TruncatedSum(b: Value, c: Value, pa: nat): (a: Value)
    requires Add1Pre(b, c, pa)
    ensures a.Reg? && Valid(a) && a.neg == b.neg && a.prec == pa
    ensures a.exp == b.exp || a.exp == b.exp + 1
  {
    var A := LimbSum(b, c, pa);
    var sh := Padding(pa);
    LimbSumBounds(b, c, pa);
    TruncNormal(A, pa, sh);
    if A >= Pow2(pa + sh) then Reg(b.neg, b.exp + 1, pa, Shr(A, sh + 1))
    else Reg(b.neg, b.exp, pa, Shr(A, sh))
  }

  /** The limbs of a after the addition and the shift on a carry out
      (add.c:247-261), read as one integer of 64 an bits: the limb sum, or
      on a carry out the limb sum halved with the carry as its top bit.  The
      low `sh` bits are padding. */
  function StoredSum(b: Value, c: Value, pa: nat): (w: nat)
    requires Add1Pre(b, c, pa)
    ensures w < Pow2(Limbs(pa) * LimbBits)
    ensures Shr(w, Padding(pa)) == TruncatedSum(b, c, pa).mant
  {
    var A := LimbSum(b, c, pa);
    LimbSumBounds(b, c, pa);
    if A >= Pow2(Limbs(pa) * LimbBits) then
      DivDivPow2(A, 1, Padding(pa));
      A / 2
    else A
  }

  /** In overlap case 2 (b no wider than a, c not cut) under round to
      nearest or away, no case of the switch at add.c:281-330 runs and
      nothing clears the padding.  On a carry out, mpn_rshift moves the
      last significant bit of the limb sum into padding bit sh - 1, where
      it stays: the padding is nonzero exactly when that bit is 1. */
  lemma StrayPaddingBit(b: Value, c: Value, pa: nat)
    requires Add1Pre(b, c, pa) && Padding(pa) >= 1
    requires LimbSum(b, c, pa) >= Pow2(Limbs(pa) * LimbBits)
    ensures StoredSum(b, c, pa) % Pow2(Padding(pa)) >= Pow2(Padding(pa) - 1)
            <==> Shr(LimbSum(b, c, pa), Padding(pa)) % 2 == 1
  {
    var A := LimbSum(b, c, pa);
    var sh := Padding(pa);
    DivDivPow2(A, 1, sh - 1);
    TopPaddingBit(A / 2, sh);
  }

  /** Bit s - 1 of w is the top bit of its low s bits. */
  lemma TopPaddingBit(w: nat, s: nat)
    requires s >= 1
    ensures w % Pow2(s) >= Pow2(s - 1) <==> (w / Pow2(s - 1)) % 2 == 1
  {
    var P := Pow2(s - 1);
    Pow2Split(s);
    var q := w / Pow2(s);
    var r := w % Pow2(s);
    DivModBounds(r, P);
    assert r / P <= 1 by {
      if r / P >= 2 {
        MulLeMono(2, r / P, P);
      }
    }
    DivModUnique(w, P, 2 * q + r / P, r % P);
    DivModUnique(2 * q + r / P, 2, q, r / P);
  }

  /** A limb sum of p + s bits, or one more on a carry out, keeps p
      significant bits once the padding (and the carry) is shifted out. */
  lemma TruncNormal(A: nat, p: nat, s: nat)
    requires p >= 1 && Pow2(p + s - 1) <= A < 2 * Pow2(p + s)
    ensures A >= Pow2(p + s) ==> Normal(p, Shr(A, s + 1))
    ensures A < Pow2(p + s) ==> Normal(p, Shr(A, s))
  {
    if A >= Pow2(p + s) {
      Pow2Add(p - 1, s + 1);
      Pow2Add(p, s + 1);
      Pow2Split(p + s + 1);
      DivBetween(A, Pow2(p - 1), Pow2(p), Pow2(s + 1));
    } else {
      Pow2Add(p - 1, s);
      Pow2Add(p, s);
      DivBetween(A, Pow2(p - 1), Pow2(p), Pow2(s));
    }
  }

  /** The truncated sum is the limb sum rounded toward zero to `pa` bits. */
  lemma TruncatedSumIsTruncation(b: Value, c: Value, pa: nat, rnd: Rnd)
    requires Add1Pre(b, c, pa) && DirOf(rnd, b.neg) == Toward
    ensures LimbSum(b, c, pa) > 0
    ensures TruncatedSum(b, c, pa) == RoundToPrec(b.neg, LimbSum(b, c, pa), LimbBase(b, pa), pa, rnd)
  {
    var A := LimbSum(b, c, pa);
    LimbSumBounds(b, c, pa);
    TruncToward(b.neg, A, LimbBase(b, pa), pa, Padding(pa), rnd);
  }

  /** Toward zero, rounding an A of p + s bits (or one more) to p bits
      shifts out the low s bits (or s + 1). */
  lemma TruncToward(neg: bool, A: nat, L: int, p: nat, s: nat, rnd: Rnd)
    requires p >= 1 && Pow2(p + s - 1) <= A < 2 * Pow2(p + s) && DirOf(rnd, neg) == Toward
    ensures A > 0
    ensures A >= Pow2(p + s) ==> RoundToPrec(neg, A, L, p, rnd) == Reg(neg, L + p + s + 1, p, Shr(A, s + 1))
    ensures A < Pow2(p + s) ==> RoundToPrec(neg, A, L, p, rnd) == Reg(neg, L + p + s, p, Shr(A, s))
  {
    if A >= Pow2(p + s) {
      TruncTowardCarry(neg, A, L, p, s, rnd);
    } else {
      TruncTowardFits(neg, A, L, p, s, rnd);
    }
  }

  lemma TruncTowardCarry(neg: bool, A: nat, L: int, p: nat, s: nat, rnd: Rnd)
    requires p >= 1 && Pow2(p + s) <= A < 2 * Pow2(p + s) && DirOf(rnd, neg) == Toward
    ensures RoundToPrec(neg, A, L, p, rnd) == Reg(neg, L + p + s + 1, p, Shr(A, s + 1))
  {
    Pow2Split(p + s + 1);
    BitLenUnique(A, p + s + 1);
    TowardAt(neg, A, L, p, rnd, p + s + 1);
  }

  lemma TruncTowardFits(neg: bool, A: nat, L: int, p: nat, s: nat, rnd: Rnd)
    requires p >= 1 && Pow2(p + s - 1) <= A < Pow2(p + s) && DirOf(rnd, neg) == Toward
    ensures A > 0 && RoundToPrec(neg, A, L, p, rnd) == Reg(neg, L + p + s, p, Shr(A, s))
  {
    BitLenUnique(A, p + s);
    if s == 0 {
      RoundToPrecExact(neg, A, L, p, rnd);
    } else {
      TowardAt(neg, A, L, p, rnd, p + s);
    }
  }

  /** When b fits in a's precision it loses nothing to the truncation at
      a's limb boundary, and the truncated sum is b + c rounded toward
      zero. */
  lemma TruncatedSumCorrect(b: Value, c: Value, pa: nat, rnd: Rnd)
    requires Add1Pre(b, c, pa) && b.prec <= pa && DirOf(rnd, b.neg) == Toward
    ensures TruncatedSum(b, c, pa) == Add1(b, c, pa, rnd)
  {
    var L := LimbBase(b, pa);
    var B := SumBase(b, c, pa);
    var j: nat := L - B;
    var n := ExactSum(b, c, pa);
    var X := FloorScaled(b, L);
    FloorScaledAt(c, L, B);
    Pow2Add(Ulp(b) - L, j);
    MulAssoc(b.mant, Pow2(Ulp(b) - L), Pow2(j));
    assert Scaled(b, B) == X * Pow2(j);
    DivAddMultiple(X, Scaled(c, B), Pow2(j));
    assert n / Pow2(j) == LimbSum(b, c, pa);
    TruncatedSumIsTruncation(b, c, pa, rnd);
    SumBitLen(b, c, pa);
    TowardAfterFloor(b.neg, n, B, pa, rnd, j);
  }

  lemma DivAddMultiple(x: nat, y: nat, d: nat)
    requires d >= 1
    ensures (x * d + y) / d == x + y / d
  {
    DivModBounds(y, d);
    MulDistrib(x, y / d, d);
    DivModUnique(x * d + y, d, x + y / d, y % d);
  }

  // ---------------------------------------------------------------------
  // The to_nearest label as written (add.c:338-368)

  /** The loop `while (k && cc == 0) cc = bp[--k]` of add.c:363 stops on a
      nonzero limb exactly when some limb of X below limb k is not zero. */
  predicate AnyLimbBelow(X: nat, k: int)
    decreases k
  {
    k > 0 && (Limb(X, k - 1) != 0 || AnyLimbBelow(X, k - 1))
  }

  /** Whether the code at to_nearest (add.c:338-368) jumps to add_one_ulp.
      T is a's limb array after the addition, sh its padding, `nearest`
      whether the mode is GMP_RNDN and c3 the bit that the carry shift of
      add.c:259-260 dropped when sh = 0.  X is the limb array, bn limbs long,
      of the operand being rounded: a holds none of its limbs below limb k,
      nor the low dif bits of limb k when dif > 0. */
  predicate ToNearestUp(T: nat, sh: nat, nearest: bool, c3: bool, X: nat, k: int, bn: int, dif: int)
  {
    // add.c:347-357: the padding bits of a, or the next limb when sh = 0
    var c2: nat := if !nearest then 0 else if sh > 0 then Pow2(sh - 1) else Pow2(LimbBits - 1);
    var k1 := if sh == 0 && k > 0 then k - 1 else k;
    var cc0: nat := if sh > 0 then T % Pow2(sh) else if k > 0 then Limb(X, k - 1) else 0;
    var cc: nat := if sh == 0 && c3 && (cc0 != 0 || c2 == 0) then c2 + 1 else cc0;
    // add.c:361-363: the bits the shift cut off limb k1, then the limbs below
    var low: nat := if 0 < dif < LimbBits && 0 <= k1 < bn then (Limb(X, k1) * Pow2(LimbBits - dif)) % Pow2(LimbBits) else 0;
    cc > c2 || (cc == c2 && (low != 0 || AnyLimbBelow(X, k1) || (nearest && Bit(T, sh) == 1)))
  }

  /** add.c:198: the limbs of c that reach a when c overlaps a by dif bits. */
  function CutLimbs(dif: nat): nat
    requires dif >= 1
  {
    (dif - 1) / LimbBits + 1
  }

  /** add.c:209-210: the right shift that lines the cut c up with a's limbs
      (a left shift when negative). */
  function CutShift(dif: nat, sh: nat): int
  {
    if dif % LimbBits != 0 then LimbBits - dif % LimbBits - sh else -(sh as int)
  }

  /** The two cases of the overlap branch that round through to_nearest:
      case 3, b no wider than a and c cut (add.c:321-323), rounds the bits
      of c below a; case 0, b wider than a and c not cut (add.c:325-327),
      rounds the limbs of b below a.  a holds the limb sum, shifted on a
      carry out (add.c:255-263). */
  function RoundedAsWritten(b: Value, c: Value, pa: nat, rnd: Rnd): (a: Value)
    requires Add1Pre(b, c, pa) && b.exp - c.exp < pa && DirOf(rnd, b.neg) != Toward
    requires b.prec <= pa <==> b.exp - c.exp + c.prec >= pa
    ensures a.Reg? && Valid(a) && a.neg == b.neg && a.prec == pa
    ensures a == TruncatedSum(b, c, pa) || a == AddOneUlp(b.neg, TruncatedSum(b, c, pa).exp, pa, TruncatedSum(b, c, pa).mant)
  {
    var dif: nat := pa - (b.exp - c.exp);
    var t := TruncatedSum(b, c, pa);
    var A := LimbSum(b, c, pa);
    var sh := Padding(pa);
    var carry := A >= Pow2(Limbs(pa) * LimbBits);
    var T := if carry then Shr(A, 1) else A;
    var c3 := carry && A % 2 == 1 && sh == 0;
    var up :=
      if b.prec <= pa then
        ToNearestUp(T, sh, rnd == RNDN, c3, Stored(c.mant, c.prec), Limbs(c.prec) - CutLimbs(dif),
                    Limbs(c.prec), CutShift(dif, sh))
      else
        ToNearestUp(T, sh, rnd == RNDN, c3, Stored(b.mant, b.prec), Limbs(b.prec) - Limbs(pa), Limbs(b.prec), 0);
    if up then AddOneUlp(b.neg, t.exp, pa, t.mant) else t
  }

  // ---------------------------------------------------------------------
  // mpfr_add1 as written

  /** Which rounding code the overlap branch reaches (add.c:207, 247-248,
      281): with `dif = PREC(a) - diff_exp`, c is cut when dif <= PREC(c);
      when b fits in a and c is not cut, no case of the switch matches. */
  predicate OverlapRoundsNothing(b: Value, c: Value, pa: nat, rnd: Rnd)
    requires Add1Pre(b, c, pa)
  {
    DirOf(rnd, b.neg) == Toward || (b.prec <= pa && b.exp - c.exp + c.prec < pa)
  }

  /** mpfr_add1 as the code reads, at the level of values: the no-overlap
      branch with b no wider than a (add.c:94-137), the branches that do no
      rounding (add.c:332-334 and the missing case 2), and cases 3 and 0
      through to_nearest.  The two carry chains over limbs, add.c:138-191
      and case 1 at add.c:283-319, are taken at their intended value. */
  function Add1AsWritten(b: Value, c: Value, pa: nat, rnd: Rnd): (a: Value)
    requires Add1Pre(b, c, pa)
  {
    if b.exp - c.exp >= pa then
      if b.prec <= pa then NoOverlapAsWritten(b, c, pa, rnd) else Add1(b, c, pa, rnd)
    else if OverlapRoundsNothing(b, c, pa, rnd) then TruncatedSum(b, c, pa)
    else if b.prec > pa && b.exp - c.exp + c.prec >= pa then Add1(b, c, pa, rnd)
    else RoundedAsWritten(b, c, pa, rnd)
  }

  /** Where none of the defects applies the code as written computes the
      correctly rounded sum: a and c of one limb, b no wider than a, and
      either c lies below a's last bit, or the mode rounds toward zero, or c
      is cut, a has padding bits and the sum does not carry out. */
  lemma Add1AsWrittenAgrees(b: Value, c: Value, pa: nat, rnd: Rnd)
    requires Add1Pre(b, c, pa) && Limbs(pa) == 1 && Limbs(c.prec) == 1 && b.prec <= pa
    requires || b.exp - c.exp >= pa
             || DirOf(rnd, b.neg) == Toward
             || (b.exp - c.exp + c.prec >= pa && Padding(pa) > 0 && LimbSum(b, c, pa) < Pow2(LimbBits))
    ensures Add1AsWritten(b, c, pa, rnd) == Add1(b, c, pa, rnd)
  {
    if b.exp - c.exp >= pa {
      NoOverlapOneLimb(b, c, pa, rnd);
      NoOverlapCorrect(b, c, pa, rnd);
    } else if DirOf(rnd, b.neg) == Toward {
      TruncatedSumCorrect(b, c, pa, rnd);
    } else {
      Case3OneLimb(b, c, pa, rnd);
    }
  }

  /** Case 3 with one-limb a and c, padding bits to spare and no carry out:
      the padding bits of the sum and then the bits mpn_rshift cut off c
      are exactly the bits of the exact sum below a's last bit, and the
      code rounds correctly. */
  lemma Case3OneLimb(b: Value, c: Value, pa: nat, rnd: Rnd)
    requires Add1Pre(b, c, pa) && b.prec <= pa && Limbs(pa) == 1 && Limbs(c.prec) == 1
    requires b.exp - c.exp < pa <= b.exp - c.exp + c.prec
    requires DirOf(rnd, b.neg) != Toward && Padding(pa) > 0 && LimbSum(b, c, pa) < Pow2(LimbBits)
    ensures RoundedAsWritten(b, c, pa, rnd) == Add1(b, c, pa, rnd)
  {
    var N := LimbSum(b, c, pa) * Pow2(b.exp - c.exp) + Stored(c.mant, c.prec) % Pow2(b.exp - c.exp);
    var L := c.exp - LimbBits;
    var j := SumBase(b, c, pa) - L;
    Case3Exact(b, c, pa, N, j);
    Case3Reads(b, c, pa, rnd);
    Case3Rounds(b, c, pa, rnd, N, L, RoundedAsWritten(b, c, pa, rnd));
    SameRounding(ExactSum(b, c, pa), SumBase(b, c, pa), pa, DirOf(rnd, b.neg), Add1(b, c, pa, rnd),
                 j, N, L, RoundedAsWritten(b, c, pa, rnd));
  }

  /** In case 3 the code as written correctly rounds the limb sum followed
      by the d bits cut off c, counted in units of 2^(EXP(c) - 64). */
  lemma Case3Rounds(b: Value, c: Value, pa: nat, rnd: Rnd, N: int, L: int, r: Value)
    requires Add1Pre(b, c, pa) && Limbs(pa) == 1 && b.exp - c.exp < pa
    requires DirOf(rnd, b.neg) != Toward && Padding(pa) > 0
    requires N == LimbSum(b, c, pa) * Pow2(b.exp - c.exp) + Stored(c.mant, c.prec) % Pow2(b.exp - c.exp)
    requires L == c.exp - LimbBits && Normal(pa, Shr(LimbSum(b, c, pa), Padding(pa)))
    requires var sh := Padding(pa);
             var A := LimbSum(b, c, pa);
             var up := CutUp(A, sh, Stored(c.mant, c.prec) % Pow2(b.exp - c.exp), rnd == RNDN);
             r == if up then AddOneUlp(b.neg, b.exp, pa, Shr(A, sh)) else Reg(b.neg, b.exp, pa, Shr(A, sh))
    ensures N > 0 && IsRounding(N, L, pa, DirOf(rnd, b.neg), r)
  {
    DivModBounds(Stored(c.mant, c.prec), Pow2(b.exp - c.exp));
    MulLeMono(0, LimbSum(b, c, pa), Pow2(b.exp - c.exp));
    CutSumRounds(b, pa, LimbSum(b, c, pa), Padding(pa), Stored(c.mant, c.prec) % Pow2(b.exp - c.exp), b.exp - c.exp,
                 DirOf(rnd, b.neg), rnd == RNDN, N, L, r);
  }

  /** Two values that round the same number, one of them counted in finer
      units, are the same value when they have the same sign. */
  lemma SameRounding(n: nat, S: int, p: nat, d: Dir, a: Value, j: nat, N: nat, L: int, r: Value)
    requires n > 0 && p >= 1 && IsRounding(n, S, p, d, a) && N == n * Pow2(j) && L == S - j
    requires N > 0 && IsRounding(N, L, p, d, r) && a.neg == r.neg
    ensures r == a
  {
    IsRoundingScale(n, S, p, d, a, j, N);
    IsRoundingUnique(N, S - j, p, d, r, a);
  }

  /** Case 3's decision, taken on the limb sum A followed by the d cut bits
      D, is a correct rounding of that number. */
  lemma CutSumRounds(b: Value, pa: nat, A: nat, sh: nat, D: nat, d: nat, dir: Dir, nearest: bool, N: int, L: int,
                     r: Value)
    requires b.Reg? && sh >= 1 && D < Pow2(d) && N == A * Pow2(d) + D && Normal(pa, Shr(A, sh))
    requires L == b.exp - pa - (sh + d)
    requires (nearest <==> dir == Nearest) && dir != Toward
    requires r == if CutUp(A, sh, D, nearest) then AddOneUlp(b.neg, b.exp, pa, Shr(A, sh)) else Reg(b.neg, b.exp, pa, Shr(A, sh))
    ensures N > 0 && IsRounding(N, L, pa, dir, r)
  {
    var m := Shr(A, sh);
    var u: nat := sh + d;
    MulLeMono(0, A, Pow2(d));
    MulLeMono(0, A % Pow2(sh), Pow2(d));
    var C: nat := (A % Pow2(sh)) * Pow2(d) + D;
    var up := RoundUp(dir, m % 2 == 1, C >= Pow2(u - 1), C != 0 && C != Pow2(u - 1));
    Case3Decision(A, sh, D, d, dir, nearest);
    NoOverlapResult(b, pa, m, u, up, L, r);
    CopyRounds(N, L, pa, dir, m, u, C, up, r);
  }

  /** The test case 3 of to_nearest makes on one-limb operands: the padding
      bits cc of the limb sum A against half of them under RNDN (0
      otherwise), then on a tie the d bits D the shift cut off c, then under
      RNDN the parity of the kept bits. */
  predicate CutUp(A: nat, sh: nat, D: nat, nearest: bool)
    requires sh >= 1
  {
    var cc := A % Pow2(sh);
    var c2 := if nearest then Pow2(sh - 1) else 0;
    cc > c2 || (cc == c2 && (D != 0 || (nearest && Shr(A, sh) % 2 == 1)))
  }

  /** With one-limb a and c, case 3 of to_nearest reads the padding bits of
      the sum, compares them with half of them under RNDN and with 0
      otherwise, and on a tie reads the d bits mpn_rshift cut off c. */
  lemma Case3Reads(b: Value, c: Value, pa: nat, rnd: Rnd)
    requires Add1Pre(b, c, pa) && b.prec <= pa && Limbs(pa) == 1 && Limbs(c.prec) == 1
    requires b.exp - c.exp < pa <= b.exp - c.exp + c.prec
    requires DirOf(rnd, b.neg) != Toward && Padding(pa) > 0 && LimbSum(b, c, pa) < Pow2(LimbBits)
    ensures var sh := Padding(pa);
            var A := LimbSum(b, c, pa);
            var up := CutUp(A, sh, Stored(c.mant, c.prec) % Pow2(b.exp - c.exp), rnd == RNDN);
            && Normal(pa, Shr(A, sh))
            && RoundedAsWritten(b, c, pa, rnd)
               == if up then AddOneUlp(b.neg, b.exp, pa, Shr(A, sh)) else Reg(b.neg, b.exp, pa, Shr(A, sh))
  {
    var d: nat := b.exp - c.exp;
    Case3Args(b, c, pa, rnd);
    StoredOneLimb(c.mant, c.prec);
    Case3Test(LimbSum(b, c, pa), Padding(pa), rnd == RNDN, Stored(c.mant, c.prec), d);
  }

  /** The arguments case 3 hands to to_nearest when a and c have one limb
      and the sum does not carry out: no limb of c below the cut, and a
      shift of d bits. */
  lemma Case3Args(b: Value, c: Value, pa: nat, rnd: Rnd)
    requires Add1Pre(b, c, pa) && b.prec <= pa && Limbs(pa) == 1 && Limbs(c.prec) == 1
    requires b.exp - c.exp < pa <= b.exp - c.exp + c.prec
    requires DirOf(rnd, b.neg) != Toward && Padding(pa) > 0 && LimbSum(b, c, pa) < Pow2(LimbBits)
    ensures var A := LimbSum(b, c, pa);
            var sh := Padding(pa);
            var up := ToNearestUp(A, sh, rnd == RNDN, false, Stored(c.mant, c.prec), 0, 1, b.exp - c.exp);
            && Normal(pa, Shr(A, sh))
            && RoundedAsWritten(b, c, pa, rnd)
               == if up then AddOneUlp(b.neg, b.exp, pa, Shr(A, sh)) else Reg(b.neg, b.exp, pa, Shr(A, sh))
  {
    NoCarryTruncated(b, c, pa);
    CutOneLimb(pa, b.exp - c.exp, Padding(pa));
    RoundedNoCarry(b, c, pa, rnd);
  }

  /** Cases 3 of to_nearest when the sum does not carry out of a's limbs:
      the c3 bit is clear and T is the limb sum itself. */
  lemma RoundedNoCarry(b: Value, c: Value, pa: nat, rnd: Rnd)
    requires Add1Pre(b, c, pa) && b.prec <= pa && pa <= b.exp - c.exp + c.prec && b.exp - c.exp < pa
    requires DirOf(rnd, b.neg) != Toward && LimbSum(b, c, pa) < Pow2(Limbs(pa) * LimbBits)
    ensures var dif: nat := pa - (b.exp - c.exp);
            var t := TruncatedSum(b, c, pa);
            var up := ToNearestUp(LimbSum(b, c, pa), Padding(pa), rnd == RNDN, false, Stored(c.mant, c.prec),
                                  Limbs(c.prec) - CutLimbs(dif), Limbs(c.prec), CutShift(dif, Padding(pa)));
            RoundedAsWritten(b, c, pa, rnd) == if up then AddOneUlp(b.neg, t.exp, pa, t.mant) else t
  {
  }

  /** A limb sum that does not carry out of a's one limb is truncated in
      place. */
  lemma NoCarryTruncated(b: Value, c: Value, pa: nat)
    requires Add1Pre(b, c, pa) && Limbs(pa) == 1 && LimbSum(b, c, pa) < Pow2(LimbBits)
    ensures Limbs(pa) * LimbBits == LimbBits
    ensures TruncatedSum(b, c, pa) == Reg(b.neg, b.exp, pa, Shr(LimbSum(b, c, pa), Padding(pa)))
  {
  }

  /** With a one-limb a, c cut after d bits lands in one limb, shifted
      right by d. */
  lemma CutOneLimb(pa: nat, d: nat, sh: nat)
    requires pa >= 1 && Limbs(pa) == 1 && sh == Padding(pa) && sh > 0 && d < pa
    ensures CutLimbs(pa - d) == 1 && CutShift(pa - d, sh) == d
  {
    assert pa + sh == LimbBits;
    assert (pa - d) % LimbBits == pa - d;
  }

  /** to_nearest on a one-limb c with nothing below the cut limb: the
      padding bits decide, and on a tie the d cut bits, then the parity. */
  lemma Case3Test(T: nat, sh: nat, nearest: bool, X: nat, d: nat)
    requires sh >= 1 && X < Pow2(LimbBits) && Limb(X, 0) == X && d < LimbBits
    ensures ToNearestUp(T, sh, nearest, false, X, 0, 1, d) == CutUp(T, sh, X % Pow2(d), nearest)
  {
    assert !AnyLimbBelow(X, 0);
    assert Bit(T, sh) == Shr(T, sh) % 2;
    if d > 0 {
      CutBits(X, d);
    } else {
      assert Pow2(d) == 1;
    }
  }

  /** A one-limb stored significand is its own lowest limb. */
  lemma StoredOneLimb(m: nat, p: nat)
    requires Normal(p, m) && Limbs(p) == 1
    ensures Stored(m, p) < Pow2(LimbBits) && Limb(Stored(m, p), 0) == Stored(m, p)
  {
    OneLimb(m, p);
    ScaledBitLen(p, m, Padding(p));
    BitLenBounds(Stored(m, p));
  }

  /** `bp[k] << (64 - dif)` keeps exactly the low dif bits of the limb. */
  lemma CutBits(X: nat, d: nat)
    requires X < Pow2(LimbBits) && 0 < d < LimbBits
    ensures ((X * Pow2(LimbBits - d)) % Pow2(LimbBits) != 0) == (X % Pow2(d) != 0)
  {
    Pow2Add(d, LimbBits - d);
    DivModBounds(X, Pow2(d));
    ShiftedRemainder(X, X / Pow2(d), X % Pow2(d), Pow2(d), Pow2(LimbBits - d), Pow2(LimbBits));
  }

  lemma ShiftedRemainder(X: nat, q: nat, D: nat, P: nat, E: nat, W: nat)
    requires P >= 1 && E >= 1 && W == P * E && X == q * P + D && D < P
    ensures (X * E) % W == D * E && (D * E != 0 <==> D != 0)
  {
    MulDistrib(q * P, D, E);
    MulAssoc(q, P, E);
    MulLeMono(D + 1, P, E);
    MulDistrib(D, 1, E);
    DivModUnique(X * E, W, q, D * E);
  }

  /** In units of 2^(EXP(c) - 64) the exact sum is the limb sum followed by
      the d bits cut off c. */
  lemma Case3Exact(b: Value, c: Value, pa: nat, N: int, j: int)
    requires Add1Pre(b, c, pa) && b.prec <= pa && Limbs(pa) == 1 && Limbs(c.prec) == 1
    requires b.exp - c.exp < pa
    requires N == LimbSum(b, c, pa) * Pow2(b.exp - c.exp) + Stored(c.mant, c.prec) % Pow2(b.exp - c.exp)
    requires j == SumBase(b, c, pa) - (c.exp - LimbBits)
    ensures j >= 0 && N == ExactSum(b, c, pa) * Pow2(j)
  {
    var d: nat := b.exp - c.exp;
    var L := LimbBase(b, pa);
    var B := c.exp - LimbBits;
    var S := SumBase(b, c, pa);
    var X := Stored(c.mant, c.prec);
    assert L == b.exp - LimbBits && L - B == d;
    assert Scaled(c, B) == X;
    FloorScaledAt(c, L, B);
    RescaleBy(b, L, B);
    assert FloorScaled(b, L) == Scaled(b, L);
    SplitAt(Scaled(b, L), X, Pow2(d), Scaled(b, B), FloorScaled(c, L), LimbSum(b, c, pa));
    RescaleBy(b, S, B);
    RescaleBy(c, S, B);
    MulDistrib(Scaled(b, S), Scaled(c, S), Pow2(S - B));
  }

  /** F units of P plus X is the whole units F + X / P followed by X mod P. */
  lemma SplitAt(F: nat, X: nat, P: nat, FP: nat, Q: nat, T: nat)
    requires P >= 1 && FP == F * P && Q == X / P && T == F + Q
    ensures FP + X == T * P + X % P
  {
    MulDistrib(F, Q, P);
  }

  /** The as-written test on the padding bits cc and the cut bits D is the
      shared rounding primitive applied to the bits below a's last bit. */
  lemma Case3Decision(A: nat, sh: nat, D: nat, d: nat, dir: Dir, nearest: bool)
    requires sh >= 1 && D < Pow2(d) && (nearest <==> dir == Nearest) && dir != Toward
    ensures var cc := A % Pow2(sh);
            var C := cc * Pow2(d) + D;
            var u := sh + d;
            && C < Pow2(u) && A * Pow2(d) + D == Shr(A, sh) * Pow2(u) + C
            && CutUp(A, sh, D, nearest)
               == RoundUp(dir, Shr(A, sh) % 2 == 1, C >= Pow2(u - 1), C != 0 && C != Pow2(u - 1))
  {
    var cc := A % Pow2(sh);
    var h := Pow2(sh - 1);
    var P := Pow2(d);
    DivModBounds(A, Pow2(sh));
    Pow2Split(sh);
    Pow2Add(sh, d);
    Pow2Add(sh - 1, d);
    assert A * P == Shr(A, sh) * (Pow2(sh) * P) + cc * P by {
      MulDistrib(Shr(A, sh) * Pow2(sh), cc, P);
      MulAssoc(Shr(A, sh), Pow2(sh), P);
    }
    HighLow(cc, D, P, 2 * h);
    assert 2 * h * P == Pow2(sh) * P;
    HighLow(cc, D, P, h);
    HighLow(cc, D, P, 0);
  }

  /** Comparing cc * P + D, with D below P, against a multiple h * P
      compares cc against h, and ties only when D is zero. */
  lemma HighLow(cc: nat, D: nat, P: nat, h: nat)
    requires D < P
    ensures cc * P + D >= h * P <==> cc >= h
    ensures cc * P + D < h * P <==> cc < h
    ensures cc * P + D == h * P <==> cc == h && D == 0
  {
    if cc >= h {
      MulLeMono(h, cc, P);
      if cc > h {
        MulLeMono(h + 1, cc, P);
        MulDistrib(h, 1, P);
      }
    } else {
      MulLeMono(cc + 1, h, P);
      MulDistrib(cc, 1, P);
    }
  }

  /** With PREC(a) = 64 (no padding) and one-limb c, case 3 of to_nearest
      has no limb of c left to read below a, so round-to-nearest never adds
      the ulp: the result is the truncated sum, whatever the bits mpn_rshift
      cut off c. */
  lemma NearestFullLimbTruncates(b: Value, c: Value)
    requires Add1Pre(b, c, LimbBits) && b.prec <= LimbBits && Limbs(c.prec) == 1
    requires b.exp - c.exp < LimbBits <= b.exp - c.exp + c.prec
    ensures Add1AsWritten(b, c, LimbBits, RNDN) == TruncatedSum(b, c, LimbBits)
  {
    var dif: nat := LimbBits - (b.exp - c.exp);
    assert Padding(LimbBits) == 0;
    assert CutLimbs(dif) == 1;
    Pow2Of64();
  }

  // ---------------------------------------------------------------------
  // The dispatcher mpfr_add (add.c:382-419)

  /** The operands this version of mpfr_add handles: it has no infinity
      test. */
  predicate AddPre(b: Value, c: Value, pa: nat)
  {
    Valid(b) && Valid(c) && !b.Inf? && !c.Inf? && pa >= 1
  }

  /** mpfr_cmp3(b, c, -1): the sign of b - (-c), i.e. b compared with -c. */
  function Cmp3Neg(b: Value, c: Value): (r: int)
    requires b.Reg? && c.Reg? && b.neg != c.neg
    ensures r * (if b.neg then -1 else 1) > 0 <==> CmpMag(b, c) > 0
    ensures r == 0 <==> CmpMag(b, c) == 0
  {
    if b.neg then -CmpMag(b, c) else CmpMag(b, c)
  }

  /** The routine mpfr_add hands its operands to. */
  datatype Route =
    | ToNaN
    | SetFrom(src: Value)
    | ToAdd1(big: Value, small: Value, diff: nat)
    | ToSub1(big: Value, small: Value, diff: nat)
    | ToZero

  function Dispatch(b: Value, c: Value): (r: Route)
    requires AddPre(b, c, 1)
    ensures r.ToNaN? <==> b.NaN? || c.NaN?
    ensures r.SetFrom? <==> !b.NaN? && !c.NaN? && (b.Zero? || c.Zero?)
    ensures r.SetFrom? ==> r.src == (if b.Zero? then c else b)
    ensures r.ToAdd1? <==> b.Reg? && c.Reg? && b.neg == c.neg
    ensures r.ToAdd1? ==> ((r.big, r.small) == (b, c) || (r.big, r.small) == (c, b))
                          && r.big.exp == r.small.exp + r.diff
    ensures r.ToZero? <==> b.Reg? && c.Reg? && b.neg != c.neg && CmpMag(b, c) == 0
    ensures r.ToSub1? ==> ((r.big, r.small) == (b, c) || (r.big, r.small) == (c, b))
                          && r.big.neg != r.small.neg && CmpMag(r.big, r.small) > 0
                          && r.big.exp == r.small.exp + r.diff
  {
    if b.NaN? || c.NaN? then ToNaN
    else if b.Zero? then SetFrom(c)
    else if c.Zero? then SetFrom(b)
    else
      var diff := b.exp - c.exp;
      ExpOrdersMagnitude(b, c);
      if b.neg != c.neg then
        if diff < 0 then ToSub1(c, b, -diff)
        else if diff > 0 then ToSub1(b, c, diff)
        else
          var cmp := Cmp3Neg(b, c);
          if cmp == 0 then ToZero
          else if cmp * (if b.neg then -1 else 1) > 0 then ToSub1(b, c, 0)
          else ToSub1(c, b, 0)
      else if diff < 0 then ToAdd1(c, b, -diff)
      else ToAdd1(b, c, diff)
  }

  /** A larger exponent means a larger magnitude. */
  lemma CmpMagExp(b: Value, c: Value)
    requires b.Reg? && c.Reg? && Valid(b) && Valid(c) && b.exp > c.exp
    ensures CmpMag(b, c) == 1
  {
    var B := Min(Ulp(b), Ulp(c));
    ScaledRange(b, B);
    ScaledRange(c, B);
    Pow2Monotone(c.exp - B, b.exp - B - 1);
  }

  lemma ExpOrdersMagnitude(b: Value, c: Value)
    requires b.Reg? && c.Reg? && Valid(b) && Valid(c)
    ensures b.exp > c.exp ==> CmpMag(b, c) == 1 && CmpMag(c, b) == -1
    ensures b.exp < c.exp ==> CmpMag(b, c) == -1 && CmpMag(c, b) == 1
  {
    CmpMagSwap(b, c);
    if b.exp > c.exp {
      CmpMagExp(b, c);
    } else if b.exp < c.exp {
      CmpMagExp(c, b);
    }
  }

  lemma CmpMagSwap(b: Value, c: Value)
    requires b.Reg? && c.Reg?
    ensures CmpMag(b, c) == -CmpMag(c, b)
  {
  }

  /** The subtraction kernel mpfr_sub1(a, b, c, rnd, diff_exp) is not part
      of this model; mpfr_add receives it as a function. */
  type Sub1 = (Value, Value, nat, Rnd, nat) -> Value

  /** mpfr_add(a, b, c, rnd) at precision `pa`; `prevNeg` is the sign a
      held before the call, which SET_ZERO leaves in place (add.c:411). */
  function AddValues(b: Value, c: Value, pa: nat, rnd: Rnd, prevNeg: bool, sub1: Sub1): (a: Value)
    requires AddPre(b, c, pa)
    ensures (b.NaN? || c.NaN?) ==> a.NaN?
    ensures !b.NaN? && !c.NaN? && b.Zero? ==> a == Set(c, pa, rnd)
    ensures !b.NaN? && !c.NaN? && !b.Zero? && c.Zero? ==> a == Set(b, pa, rnd)
    ensures b.Reg? && c.Reg? && b.neg == c.neg ==>
              a.Reg? && a.neg == b.neg && a.prec == pa
              && if b.exp >= c.exp then a == Add1(b, c, pa, rnd) else a == Add1(c, b, pa, rnd)
    ensures b.Reg? && c.Reg? && b.neg != c.neg && CmpMag(b, c) == 0 ==> a == Zero(prevNeg)
  {
    match Dispatch(b, c)
    case ToNaN => NaN
    case SetFrom(src) => Set(src, pa, rnd)
    case ToAdd1(big, small, _) => Add1(big, small, pa, rnd)
    case ToSub1(big, small, diff) => sub1(big, small, pa, rnd, diff)
    case ToZero => Zero(prevNeg)
  }

  /** mpfr_add is commutative: swapping b and c changes nothing, unless
      both are zeros (then the result copies c, whose sign may differ). */
  lemma AddCommutes(b: Value, c: Value, pa: nat, rnd: Rnd, prevNeg: bool, sub1: Sub1)
    requires AddPre(b, c, pa) && !(b.Zero? && c.Zero?)
    ensures AddValues(b, c, pa, rnd, prevNeg, sub1) == AddValues(c, b, pa, rnd, prevNeg, sub1)
  {
    if b.Reg? && c.Reg? {
      CmpMagSwap(b, c);
      if b.neg == c.neg && b.exp == c.exp {
        Add1Swap(b, c, pa, rnd);
      }
    }
  }

  /** With equal exponents the kernel does not care which operand is b. */
  lemma Add1Swap(b: Value, c: Value, pa: nat, rnd: Rnd)
    requires Add1Pre(b, c, pa) && b.exp == c.exp
    ensures Add1(b, c, pa, rnd) == Add1(c, b, pa, rnd)
  {
    assert SumBase(b, c, pa) == SumBase(c, b, pa);
  }

  /** Same-signed operands: mpfr_add returns |b| + |c| correctly rounded. */
  lemma AddSameSignRounds(b: Value, c: Value, pa: nat, rnd: Rnd, prevNeg: bool, sub1: Sub1)
    requires AddPre(b, c, pa) && b.Reg? && c.Reg? && b.neg == c.neg && b.exp >= c.exp
    ensures var a := AddValues(b, c, pa, rnd, prevNeg, sub1);
            ExactSum(b, c, pa) > 0 && a.neg == b.neg
            && IsRounding(ExactSum(b, c, pa), SumBase(b, c, pa), pa, DirOf(rnd, b.neg), a)
  {
  }

  /** mpfr_add with the kernel as written: every route other than the
      same-sign addition is the one of AddValues, and same-signed operands,
      ordered by exponent, go to Add1AsWritten. */
  function AddValuesAsWritten(b: Value, c: Value, pa: nat, rnd: Rnd, prevNeg: bool, sub1: Sub1): (a: Value)
    requires AddPre(b, c, pa)
    ensures !(b.Reg? && c.Reg? && b.neg == c.neg) ==> a == AddValues(b, c, pa, rnd, prevNeg, sub1)
    ensures b.Reg? && c.Reg? && b.neg == c.neg ==>
              if b.exp >= c.exp then a == Add1AsWritten(b, c, pa, rnd) else a == Add1AsWritten(c, b, pa, rnd)
  {
    match Dispatch(b, c)
    case ToAdd1(big, small, _) => Add1AsWritten(big, small, pa, rnd)
    case _ => AddValues(b, c, pa, rnd, prevNeg, sub1)
  }
}

=== FILE: add_findings.dfy ===
/** Inputs on which mpfr_add1 as written (add.c) departs from the correctly
    rounded sum that its comments promise. */
module AddFindings {
  import opened Bits
  import opened Floats
  import opened Add

  /** add.c:124 tests bit `sh` of the top limb ap[an-1] where the last bit
      of a lives in ap[0].  With a 128-bit a whose top limb ends in 1 but
      whose last bit is 0, a tie that should stay even is rounded up. */
  lemma TopLimbParityFinding()
    ensures var b := Reg(false, 0, 128, 0x8000_0000_0000_0001_0000_0000_0000_0000);
            var c := Reg(false, -128, 1, 1);
            && Add1Pre(b, c, 128)
            && Add1AsWritten(b, c, 128, RNDN) == Reg(false, 0, 128, 0x8000_0000_0000_0001_0000_0000_0000_0001)
            && Add1(b, c, 128, RNDN) == b
  {
    TopLimbParityAsWritten();
    TopLimbParityIntended();
  }

  const TopLimbB := Reg(false, 0, 128, 0x8000_0000_0000_0001_0000_0000_0000_0000)
  const HalfUlpC := Reg(false, -128, 1, 1)

  lemma TopLimbParityOperands()
    ensures Add1Pre(TopLimbB, HalfUlpC, 128) && NoOverlapCase(TopLimbB, HalfUlpC, 128)
    ensures CopiedMant(TopLimbB, 128) == TopLimbB.mant
  {
    Pow2Of128();
    assert Pow2(128 - 128) == 1;
  }

  /** The top limb of the 128-bit significand ends in a 1 bit. */
  lemma TopLimbOdd()
    ensures ParityAsWritten(TopLimbB.mant, 128)
  {
    var m := TopLimbB.mant;
    Pow2Of64();
    assert Limbs(128) == 2 && Padding(128) == 0;
    assert Stored(m, 128) == m;
    assert m == 0x8000_0000_0000_0001 * Pow2(64);
    assert LimbBits * 1 == 64;
    DivMulExact(0x8000_0000_0000_0001, Pow2(64));
    DivModUnique(0x8000_0000_0000_0001, Pow2(64), 0, 0x8000_0000_0000_0001);
    assert Limb(m, 1) == 0x8000_0000_0000_0001;
    assert Bit(0x8000_0000_0000_0001, 0) == 1;
  }

  /** A one-bit c of value one half passes the half test. */
  lemma HalfUlpPasses()
    ensures HalfTestAsWritten(HalfUlpC)
  {
    Pow2Of64();
    assert Limbs(1) == 1 && Padding(1) == 63;
    assert Stored(1, 1) == Pow2(63);
    assert LimbBits * 0 == 0;
    DivModUnique(Pow2(63), Pow2(64), 0, Pow2(63));
    assert Limb(Stored(1, 1), 0) == Pow2(63);
  }

  lemma TopLimbParityAsWritten()
    ensures Add1Pre(TopLimbB, HalfUlpC, 128)
    ensures Add1AsWritten(TopLimbB, HalfUlpC, 128, RNDN) == Reg(false, 0, 128, 0x8000_0000_0000_0001_0000_0000_0000_0001)
  {
    TopLimbParityOperands();
    TopLimbOdd();
    HalfUlpPasses();
    Pow2Of128();
    assert NoOverlapAsWritten(TopLimbB, HalfUlpC, 128, RNDN) == AddOneUlp(false, 0, 128, TopLimbB.mant);
  }

  lemma TopLimbParityIntended()
    ensures Add1Pre(TopLimbB, HalfUlpC, 128)
    ensures Add1(TopLimbB, HalfUlpC, 128, RNDN) == TopLimbB
  {
    TopLimbParityOperands();
    assert TopLimbB.mant % 2 == 0;
    assert !NearestAddsUlp(TopLimbB, HalfUlpC, 128);
    NoOverlapCorrect(TopLimbB, HalfUlpC, 128, RNDN);
  }

  /** add.c:118-122 compares the LOWEST limb of c with 1000...0 and then
      requires the limbs above it to be zero.  For a c of two limbs or more
      that test always fails, so a c of exactly half an ulp rounds up even
      when the last bit of a is already even: 1 + 1/4 at two bits gives 1.5
      instead of 1. */
  lemma HalfTestFinding()
    ensures var b := Reg(false, 1, 2, 2);
            var c := Reg(false, -1, 65, Pow2(64));
            && Add1Pre(b, c, 2)
            && Add1AsWritten(b, c, 2, RNDN) == Reg(false, 1, 2, 3)
            && Add1(b, c, 2, RNDN) == b
  {
    var b := Reg(false, 1, 2, 2);
    var c := Reg(false, -1, 65, Pow2(64));
    HalfTestOperands(b, c);
    HalfTestWideFails(c);
    assert NoOverlapAsWritten(b, c, 2, RNDN) == AddOneUlp(false, 1, 2, 2);
    assert !NearestAddsUlp(b, c, 2);
    NoOverlapCorrect(b, c, 2, RNDN);
  }

  lemma HalfTestOperands(b: Value, c: Value)
    requires b == Reg(false, 1, 2, 2) && c == Reg(false, -1, 65, Pow2(64))
    ensures NoOverlapCase(b, c, 2) && Limbs(c.prec) >= 2 && CopiedMant(b, 2) == 2
  {
    Pow2Split(65);
    assert Pow2(1) == 2 && Pow2(2) == 4 && Pow2(0) == 1;
  }

  /** add.c:332-334: rounding toward zero in the overlap case only clears
      the low bits of the sum of the truncated operands.  When b is wider
      than a, the bits of b and c below a's limb array are dropped before
      they are added, and their carry is lost: the result is one ulp low
      although the exact sum fits in 64 bits. */
  lemma LostCarryFinding()
    ensures var b := Reg(false, 0, 128, 0x8000_0000_0000_0000_8000_0000_0000_0000);
            var c := Reg(false, -1, 64, 0x8000_0000_0000_0001);
            && Add1Pre(b, c, 64)
            && Add1AsWritten(b, c, 64, RNDZ) == Reg(false, 0, 64, 0xC000_0000_0000_0000)
            && Add1(b, c, 64, RNDZ) == Reg(false, 0, 64, 0xC000_0000_0000_0001)
  {
    var b := Reg(false, 0, 128, 0x8000_0000_0000_0000_8000_0000_0000_0000);
    var c := Reg(false, -1, 64, 0x8000_0000_0000_0001);
    LostCarryAsWritten(b, c);
    LostCarryIntended(b, c);
  }

  lemma LostCarryOperands(b: Value, c: Value)
    requires b == Reg(false, 0, 128, 0x8000_0000_0000_0000_8000_0000_0000_0000)
    requires c == Reg(false, -1, 64, 0x8000_0000_0000_0001)
    ensures Add1Pre(b, c, 64) && Limbs(64) == 1 && Padding(64) == 0
  {
    Pow2Of64();
    Pow2Of128();
  }

  lemma LostCarryAsWritten(b: Value, c: Value)
    requires b == Reg(false, 0, 128, 0x8000_0000_0000_0000_8000_0000_0000_0000)
    requires c == Reg(false, -1, 64, 0x8000_0000_0000_0001)
    ensures Add1Pre(b, c, 64)
    ensures Add1AsWritten(b, c, 64, RNDZ) == Reg(false, 0, 64, 0xC000_0000_0000_0000)
  {
    LostCarryOperands(b, c);
    LostCarryLimbSum(b, c);
    Pow2Of64();
    var A := LimbSum(b, c, 64);
    assert A < Pow2(64);
    assert Shr(A, 0) == A by { assert Pow2(0) == 1; }
    assert Add1AsWritten(b, c, 64, RNDZ) == TruncatedSum(b, c, 64);
  }

  /** Only the top 64 bits of each operand reach a's limb. */
  lemma LostCarryLimbSum(b: Value, c: Value)
    requires b == Reg(false, 0, 128, 0x8000_0000_0000_0000_8000_0000_0000_0000)
    requires c == Reg(false, -1, 64, 0x8000_0000_0000_0001)
    ensures Add1Pre(b, c, 64)
    ensures LimbSum(b, c, 64) == 0xC000_0000_0000_0000
  {
    LostCarryOperands(b, c);
    assert LimbBase(b, 64) == -64;
    assert FloorScaled(b, -64) == Shr(b.mant, 64) && FloorScaled(c, -64) == Shr(c.mant, 1);
    LostCarryShifts(b.mant, c.mant);
  }

  lemma LostCarryShifts(x: nat, y: nat)
    requires x == 0x8000_0000_0000_0000_8000_0000_0000_0000 && y == 0x8000_0000_0000_0001
    ensures Shr(x, 64) + Shr(y, 1) == 0xC000_0000_0000_0000
  {
    Pow2Of64();
    assert Pow2(1) == 2;
    ShrExact(x, 64, Pow2(63), Pow2(63));
    ShrExact(y, 1, Pow2(62), 1);
  }

  lemma ShrExact(x: nat, s: nat, q: nat, r: nat)
    requires r < Pow2(s) && x == q * Pow2(s) + r
    ensures Shr(x, s) == q
  {
    DivModUnique(x, Pow2(s), q, r);
  }

  lemma LostCarryIntended(b: Value, c: Value)
    requires b == Reg(false, 0, 128, 0x8000_0000_0000_0000_8000_0000_0000_0000)
    requires c == Reg(false, -1, 64, 0x8000_0000_0000_0001)
    ensures Add1Pre(b, c, 64)
    ensures Add1(b, c, 64, RNDZ) == Reg(false, 0, 64, 0xC000_0000_0000_0001)
  {
    LostCarryOperands(b, c);
    Pow2Of64();
    Pow2Of128();
    var n := ExactSum(b, c, 64);
    assert SumBase(b, c, 64) == -128;
    assert Scaled(c, -128) == 0x4000_0000_0000_0000_8000_0000_0000_0000;
    assert n == 0xC000_0000_0000_0001_0000_0000_0000_0000;
    BitLenUnique(n, 128);
    RoundToPrecToward(false, n, -128, 64, RNDZ);
    DivModUnique(n, Pow2(64), 0xC000_0000_0000_0001, 0);
  }

  /** add.c:281-330 has no case for overlap = 2 (b no wider than a, c not
      cut): when the addition carries out and the bit shifted out is 1, the
      sum is left truncated in every rounding mode, and that bit stays in
      the padding.  1.75 + 1 at three bits to nearest gives 2.5 instead of
      3, stored as the limb 0xB000000000000000 whose padding bit 60 is
      set. */
  lemma UnroundedCarryFinding()
    ensures var b := Reg(false, 1, 3, 7);
            var c := Reg(false, 1, 1, 1);
            && Add1Pre(b, c, 3)
            && Add1AsWritten(b, c, 3, RNDN) == Reg(false, 2, 3, 5)
            && StoredSum(b, c, 3) == 0xB000_0000_0000_0000
            && StoredSum(b, c, 3) % Pow2(Padding(3)) == Pow2(60)
            && Add1(b, c, 3, RNDN) == Reg(false, 2, 3, 6)
  {
    var b := Reg(false, 1, 3, 7);
    var c := Reg(false, 1, 1, 1);
    UnroundedCarryAsWritten(b, c);
    UnroundedCarryStored(b, c);
    UnroundedCarryIntended(b, c);
  }

  lemma UnroundedCarryStored(b: Value, c: Value)
    requires b == Reg(false, 1, 3, 7) && c == Reg(false, 1, 1, 1)
    ensures Add1Pre(b, c, 3)
    ensures StoredSum(b, c, 3) == 0xB000_0000_0000_0000
    ensures StoredSum(b, c, 3) % Pow2(Padding(3)) == Pow2(60)
  {
    UnroundedCarrySum(b, c);
    Pow2Of64();
    Pow2Split(61);
    assert LimbSum(b, c, 3) >= Pow2(64);
    assert StoredSum(b, c, 3) == 11 * Pow2(60);
    DivModUnique(11 * Pow2(60), Pow2(61), 5, Pow2(60));
  }

  /** Both operands land in a's single limb, and their sum carries out of
      it. */
  lemma UnroundedCarrySum(b: Value, c: Value)
    requires b == Reg(false, 1, 3, 7) && c == Reg(false, 1, 1, 1)
    ensures Add1Pre(b, c, 3) && Limbs(3) == 1 && Padding(3) == 61
    ensures LimbBase(b, 3) == -63 && SumBase(b, c, 3) == -63
    ensures LimbSum(b, c, 3) == 11 * Pow2(61) == ExactSum(b, c, 3)
  {
    Pow2Of64();
    assert FloorScaled(b, -63) == 7 * Pow2(61);
    assert FloorScaled(c, -63) == Pow2(63);
  }

  lemma UnroundedCarryAsWritten(b: Value, c: Value)
    requires b == Reg(false, 1, 3, 7) && c == Reg(false, 1, 1, 1)
    ensures Add1Pre(b, c, 3)
    ensures Add1AsWritten(b, c, 3, RNDN) == Reg(false, 2, 3, 5)
  {
    UnroundedCarrySum(b, c);
    Pow2Of64();
    var A := LimbSum(b, c, 3);
    assert A >= Pow2(64);
    DivModUnique(A, Pow2(62), 5, Pow2(61));
    assert TruncatedSum(b, c, 3) == Reg(false, 2, 3, 5);
  }

  lemma UnroundedCarryIntended(b: Value, c: Value)
    requires b == Reg(false, 1, 3, 7) && c == Reg(false, 1, 1, 1)
    ensures Add1Pre(b, c, 3)
    ensures Add1(b, c, 3, RNDN) == Reg(false, 2, 3, 6)
  {
    UnroundedCarrySum(b, c);
    Pow2Of64();
    var n := ExactSum(b, c, 3);
    assert Pow2(65) == 2 * Pow2(64);
    BitLenUnique(n, 65);
    DivModUnique(n, Pow2(62), 5, Pow2(61));
    assert RoundedQuotient(n, 62, Nearest) == 6;
  }

  /** add.c:321-323 and 354: in case 3 with PREC(a) a multiple of 64 the
      round bit is read from the limb of c below the cut, and the low bits
      mpn_rshift cut off the shifted limb are only consulted after a tie.
      With a one-limb c there is no such limb, so round to nearest always
      truncates: a sum exactly halfway between two 64-bit values whose
      lower neighbour is odd is left odd. */
  lemma CutRoundBitFinding()
    ensures var b := Reg(false, 0, 64, 0x8000_0000_0000_0001);
            var c := Reg(false, -1, 64, 0x8000_0000_0000_0001);
            && Add1Pre(b, c, 64)
            && Add1AsWritten(b, c, 64, RNDN) == Reg(false, 0, 64, 0xC000_0000_0000_0001)
            && Add1(b, c, 64, RNDN) == Reg(false, 0, 64, 0xC000_0000_0000_0002)
  {
    var b := Reg(false, 0, 64, 0x8000_0000_0000_0001);
    var c := Reg(false, -1, 64, 0x8000_0000_0000_0001);
    CutRoundBitAsWritten(b, c);
    CutRoundBitIntended(b, c);
  }

  lemma CutRoundBitOperands(b: Value, c: Value)
    requires b == Reg(false, 0, 64, 0x8000_0000_0000_0001) && c == Reg(false, -1, 64, 0x8000_0000_0000_0001)
    ensures Add1Pre(b, c, 64) && Limbs(64) == 1 && Padding(64) == 0
    ensures LimbBase(b, 64) == -64 && SumBase(b, c, 64) == -65
    ensures LimbSum(b, c, 64) == 0xC000_0000_0000_0001
    ensures ExactSum(b, c, 64) == 0x1_8000_0000_0000_0003
  {
    Pow2Of64();
    assert FloorScaled(b, -64) == b.mant by { assert Pow2(0) == 1; }
    assert FloorScaled(c, -64) == Shr(c.mant, 1);
    ShrExact(c.mant, 1, Pow2(62), 1);
    assert Scaled(b, -65) == 2 * b.mant;
    assert Scaled(c, -65) == c.mant by { assert Pow2(0) == 1; }
  }

  lemma CutRoundBitAsWritten(b: Value, c: Value)
    requires b == Reg(false, 0, 64, 0x8000_0000_0000_0001) && c == Reg(false, -1, 64, 0x8000_0000_0000_0001)
    ensures Add1Pre(b, c, 64)
    ensures Add1AsWritten(b, c, 64, RNDN) == Reg(false, 0, 64, 0xC000_0000_0000_0001)
  {
    CutRoundBitOperands(b, c);
    NearestFullLimbTruncates(b, c);
    Pow2Of64();
    assert Shr(LimbSum(b, c, 64), 0) == LimbSum(b, c, 64) by { assert Pow2(0) == 1; }
  }

  lemma CutRoundBitIntended(b: Value, c: Value)
    requires b == Reg(false, 0, 64, 0x8000_0000_0000_0001) && c == Reg(false, -1, 64, 0x8000_0000_0000_0001)
    ensures Add1Pre(b, c, 64)
    ensures Add1(b, c, 64, RNDN) == Reg(false, 0, 64, 0xC000_0000_0000_0002)
  {
    CutRoundBitOperands(b, c);
    Pow2Of64();
    var n := ExactSum(b, c, 64);
    assert Pow2(65) == 2 * Pow2(64);
    assert Pow2(1) == 2;
    BitLenUnique(n, 65);
    DivModUnique(n, Pow2(1), 0xC000_0000_0000_0001, 1);
    assert RoundedQuotient(n, 1, Nearest) == 0xC000_0000_0000_0002;
  }

  /** The cut round bit reaches mpfr_add itself: with the kernel as written
      the dispatcher returns the odd neighbour of the tie. */
  lemma CutRoundBitThroughAdd(sub1: Sub1, prevNeg: bool)
    ensures var b := Reg(false, 0, 64, 0x8000_0000_0000_0001);
            var c := Reg(false, -1, 64, 0x8000_0000_0000_0001);
            && AddPre(b, c, 64)
            && AddValuesAsWritten(b, c, 64, RNDN, prevNeg, sub1) == Reg(false, 0, 64, 0xC000_0000_0000_0001)
            && AddValues(b, c, 64, RNDN, prevNeg, sub1) == Reg(false, 0, 64, 0xC000_0000_0000_0002)
  {
    CutRoundBitFinding();
  }
}

=== FILE: binsplit.dfy ===
/** The exact integer algebra behind the binary-splitting evaluation of
    exp(p / 2^r) in exp3.c: blocks of consecutive Taylor terms, their
    denominators Q and their scaled partial sums S, and the rule that
    merges two adjacent blocks. */
module BinSplit {
  import opened Bits

  function Power(p: int, e: nat): int
  {
    if e == 0 then 1 else p * Power(p, e - 1)
  }

  lemma {:induction false} PowerAdd(p: int, a: nat, b: nat)
    ensures Power(p, a + b) == Power(p, a) * Power(p, b)
  {
    if a > 0 {
      PowerAdd(p, a - 1, b);
      MulAssoc(p, Power(p, a - 1), Power(p, b));
    }
  }

  /** Squaring the power p^(2^k) gives p^(2^(k+1)): the step that fills the
      table of powers. */
  lemma PowerSquare(p: int, k: nat)
    ensures Power(p, Pow2(k + 1)) == Power(p, Pow2(k)) * Power(p, Pow2(k))
  {
    PowerAdd(p, Pow2(k), Pow2(k));
  }

  /** Product of (t + 1) over the term indices a <= t < b: term t of the
      series contributes the factor t + 1 to the denominators. */
  function QBlock(a: nat, b: nat): (q: nat)
    ensures q >= 1
    decreases b
  {
    if b <= a then 1 else QBlock(a, b - 1) * b
  }

  function Fact(n: nat): (f: nat)
    ensures f >= 1
  {
    if n == 0 then 1 else n * Fact(n - 1)
  }

  lemma {:induction false} QSplit(a: nat, c: nat, b: nat)
    requires a <= c <= b
    ensures QBlock(a, b) == QBlock(a, c) * QBlock(c, b)
    decreases b
  {
    if c < b {
      QSplit(a, c, b - 1);
      MulAssoc(QBlock(a, c), QBlock(c, b - 1), b);
    }
  }

  /** The denominators of a block are quotients of factorials, so a block
      that starts at term 0 has denominator b!. */
  lemma {:induction false} QBlockFact(a: nat, b: nat)
    requires a <= b
    ensures QBlock(a, b) * Fact(a) == Fact(b)
    decreases b
  {
    if a < b {
      QBlockFact(a, b - 1);
      calc {
        QBlock(a, b) * Fact(a);
        (QBlock(a, b - 1) * b) * Fact(a);
        { MulAssoc(QBlock(a, b - 1), b, Fact(a)); MulAssoc(b, QBlock(a, b - 1), Fact(a)); }
        b * (QBlock(a, b - 1) * Fact(a));
        Fact(b);
      }
    }
  }

  /** r * n written as repeated addition, so that the exponents of the
      powers of two stay linear. */
  function Shift(r: nat, n: nat): nat
  {
    if n == 0 then 0 else Shift(r, n - 1) + r
  }

  lemma {:induction false} ShiftAdd(r: nat, x: nat, y: nat)
    ensures Shift(r, x + y) == Shift(r, x) + Shift(r, y)
    decreases y
  {
    if y > 0 {
      ShiftAdd(r, x, y - 1);
    }
  }

  lemma {:induction false} ShiftIsMul(r: nat, n: nat)
    ensures Shift(r, n) == r * n
  {
    if n > 0 {
      ShiftIsMul(r, n - 1);
      MulDistrib(n - 1, 1, r);
    }
  }

  /** Weight of the first term of block [a, b): the denominators of the
      whole block times the power of two that the terms after it carry. */
  function Lead(r: nat, a: nat, b: nat): nat
    requires a < b
  {
    Pow2(Shift(r, b - 1 - a)) * QBlock(a, b)
  }

  /** Scaled partial sum of block [a, b), in Horner form:
      S(a, b) = Lead(a, b) + p * S(a + 1, b). */
  function SBlock(p: int, r: nat, a: nat, b: nat): int
    decreases b - a
  {
    if b <= a then 0 else Lead(r, a, b) + p * SBlock(p, r, a + 1, b)
  }

  /** The same block written as a plain sum over its terms t:
      p^(t - a) * 2^(r * (b - 1 - t)) * (t + 1) * ... * b, summed for
      a <= t < n. */
  function TermSum(p: int, r: nat, a: nat, n: nat, b: nat): int
    requires a <= n <= b
    decreases n
  {
    if n == a then 0
    else TermSum(p, r, a, n - 1, b) + Power(p, n - 1 - a) * Lead(r, n - 1, b)
  }

  lemma Distrib3(T: int, w: int, l: int, p: int, s: int)
    ensures T + w * (l + p * s) == (T + w * l) + (w * p) * s
  {
    MulDistrib(l, p * s, w);
    MulAssoc(w, p, s);
  }

  lemma {:induction false} SBlockPrefix(p: int, r: nat, a: nat, n: nat, b: nat)
    requires a <= n <= b
    ensures SBlock(p, r, a, b) == TermSum(p, r, a, n, b) + Power(p, n - a) * SBlock(p, r, n, b)
    decreases n - a
  {
    if n > a {
      SBlockPrefix(p, r, a, n - 1, b);
      var w := Power(p, n - 1 - a);
      var s := SBlock(p, r, n, b);
      var l := Lead(r, n - 1, b);
      var T := TermSum(p, r, a, n - 1, b);
      assert SBlock(p, r, n - 1, b) == l + p * s;
      assert TermSum(p, r, a, n, b) == T + w * l;
      Distrib3(T, w, l, p, s);
      PowerAdd(p, n - 1 - a, 1);
      assert w * p == Power(p, n - a);
    }
  }

  /** The Horner form is the sum of the block's terms. */
  lemma SBlockIsSum(p: int, r: nat, a: nat, b: nat)
    requires a <= b
    ensures SBlock(p, r, a, b) == TermSum(p, r, a, b, b)
  {
    SBlockPrefix(p, r, a, b, b);
  }

  lemma Mul4(P: int, Y: int, Q1: int, Q2: int)
    ensures (P * Y) * (Q1 * Q2) == ((P * Q1) * Q2) * Y
  {
  }

  lemma LeadSplit(r: nat, a: nat, c: nat, b: nat)
    requires a < c < b
    ensures Lead(r, a, b) == Lead(r, a, c) * (QBlock(c, b) * Pow2(Shift(r, b - c)))
  {
    var x, y := Shift(r, c - 1 - a), Shift(r, b - c);
    ShiftAdd(r, c - 1 - a, b - c);
    Pow2Add(x, y);
    QSplit(a, c, b);
    var P, Y, Q1, Q2 := Pow2(x), Pow2(y), QBlock(a, c), QBlock(c, b);
    assert Lead(r, a, b) == (P * Y) * (Q1 * Q2);
    Mul4(P, Y, Q1, Q2);
    MulAssoc(P * Q1, Q2, Y);
  }

  lemma Regroup(lc: int, p: int, L: int, W: int, w1: int, R: int)
    ensures (lc + p * L) * W + (p * w1) * R == lc * W + p * (L * W + w1 * R)
  {
    MulDistrib(lc, p * L, W);
    MulAssoc(p, L, W);
    MulAssoc(p, w1, R);
    assert p * (L * W) + p * (w1 * R) == p * (L * W + w1 * R);
  }

  /** The merge rule of binary splitting: a block [a, b) cut at c is the
      left sum shifted past the right block's denominators and powers of
      two, plus the right sum weighted by p^(c - a). */
  lemma {:induction false} SBlockSplit(p: int, r: nat, a: nat, c: nat, b: nat)
    requires a <= c <= b
    ensures SBlock(p, r, a, b)
         == SBlock(p, r, a, c) * (QBlock(c, b) * Pow2(Shift(r, b - c))) + Power(p, c - a) * SBlock(p, r, c, b)
    decreases c - a
  {
    if a < c {
      SBlockSplit(p, r, a + 1, c, b);
      var W := QBlock(c, b) * Pow2(Shift(r, b - c));
      var L := SBlock(p, r, a + 1, c);
      var R := SBlock(p, r, c, b);
      var lc := Lead(r, a, c);
      var w1 := Power(p, c - a - 1);
      assert SBlock(p, r, a, c) == lc + p * L;
      PowerAdd(p, 1, c - a - 1);
      assert Power(p, c - a) == p * w1;
      Regroup(lc, p, L, W, w1, R);
      assert SBlock(p, r, a + 1, b) == L * W + w1 * R;
      if c == b {
        assert R == 0 && W == 1;
        assert SBlock(p, r, a, c) * W == SBlock(p, r, a, c);
      } else {
        LeadSplit(r, a, c, b);
        assert Lead(r, a, b) == lc * W;
      }
    }
  }

  lemma Mul5(T: int, P: int, A: int, Q: int)
    ensures (T * P) * (A * Q) == T * (A * (P * Q))
  {
  }

  lemma Pow2ShiftStep(r: nat, n: nat)
    ensures Pow2(Shift(r, n + 1)) == Pow2(r) * Pow2(Shift(r, n))
  {
    ShiftAdd(r, n, 1);
    assert Shift(r, 1) == r;
    Pow2Add(Shift(r, n), r);
  }

  lemma QStep(a: nat, b: nat)
    requires a < b
    ensures QBlock(a, b) == (a + 1) * QBlock(a + 1, b)
  {
    QSplit(a, a + 1, b);
    assert QBlock(a, a + 1) == a + 1;
  }

  lemma LeadDef(r: nat, a: nat, b: nat)
    requires a < b
    ensures Lead(r, a, b) == Pow2(Shift(r, b - 1 - a)) * QBlock(a, b)
  {
  }

  /** The first term of a block outweighs the rest of it by the factor
      2^r * (a + 1). */
  lemma LeadStep(r: nat, a: nat, b: nat)
    requires a + 1 < b
    ensures Lead(r, a, b) == Pow2(r) * ((a + 1) * Lead(r, a + 1, b))
  {
    var n := b - 2 - a;
    var P, Q := Pow2(Shift(r, n)), QBlock(a + 1, b);
    Pow2ShiftStep(r, n);
    QStep(a, b);
    LeadDef(r, a + 1, b);
    LeadDef(r, a, b);
    Mul5(Pow2(r), P, a + 1, Q);
  }

  /** With a positive numerator every term is positive. */
  lemma {:induction false} SBlockPositiveUp(p: int, r: nat, a: nat, b: nat)
    requires p > 0 && a < b
    ensures SBlock(p, r, a, b) > 0
    decreases b - a
  {
    if a + 1 < b {
      SBlockPositiveUp(p, r, a + 1, b);
      MulAtLeast(SBlock(p, r, a + 1, b), p);
    }
  }

  lemma DownStep(p: int, T: int, L1: int, P: int, a1: int, L0: int)
    requires p < 0 && -p < P && 0 < T <= L1 && a1 >= 1 && L0 == P * (a1 * L1)
    ensures 0 < L0 + p * T <= L0
  {
    MulAtLeast(T, -p);
    MulLeMono(T, L1, -p);
    MulLeMono(-p + 1, P, L1);
    MulLeMono(1, a1, L1);
    MulLeMono(L1, a1 * L1, P);
  }

  /** With a negative numerator of modulus below 2^r the terms alternate in
      sign and shrink, so each tail sum lies in (0, Lead]. */
  lemma {:induction false} SBlockPositiveDown(p: int, r: nat, a: nat, b: nat)
    requires p < 0 && -p < Pow2(r) && a < b
    ensures 0 < SBlock(p, r, a, b) <= Lead(r, a, b)
    decreases b - a
  {
    if a + 1 < b {
      SBlockPositiveDown(p, r, a + 1, b);
      LeadStep(r, a, b);
      DownStep(p, SBlock(p, r, a + 1, b), Lead(r, a + 1, b), Pow2(r), a + 1, Lead(r, a, b));
    } else {
      assert SBlock(p, r, a + 1, b) == 0;
    }
  }

  /** A block's sum is positive whenever the series argument p / 2^r lies
      strictly between -1 and 1 and is not zero. */
  lemma SBlockPositive(p: int, r: nat, a: nat, b: nat)
    requires p != 0 && Abs(p) < Pow2(r) && a < b
    ensures SBlock(p, r, a, b) > 0
  {
    if p > 0 {
      SBlockPositiveUp(p, r, a, b);
    } else {
      SBlockPositiveDown(p, r, a, b);
    }
  }
}

=== FILE: bits.dfy ===
/** Powers of two, bit lengths and the division facts that the
    significand models rely on.  Significands, limbs and the exact integers
    of the binary-splitting evaluator are all unbounded naturals here; the
    machine word only appears as the constant `LimbBits`. */
module Bits {

  /** BITS_PER_MP_LIMB on the 64-bit configurations the library targets. */
  const LimbBits: nat := 64

  /** MPFR_LOG2_BITS_PER_MP_LIMB */
  const Log2LimbBits: nat := 6

  /** INT_MAX of a 32-bit C `int`. */
  const IntMax: int := 0x7fff_ffff

  function Pow2(k: nat): (r: nat)
    ensures r >= 1
  {
    if k == 0 then 1 else 2 * Pow2(k - 1)
  }

  function Abs(x: int): nat
  {
    if x < 0 then -x else x
  }

  function Max(a: int, b: int): int
  {
    if a < b then b else a
  }

  function Min(a: int, b: int): int
  {
    if a < b then a else b
  }

  lemma {:induction false} Pow2Add(a: nat, b: nat)
    ensures Pow2(a + b) == Pow2(a) * Pow2(b)
  {
    if a > 0 {
      Pow2Add(a - 1, b);
      assert Pow2(a + b) == 2 * Pow2(a - 1 + b);
    }
  }

  lemma {:induction false} Pow2Monotone(a: nat, b: nat)
    requires a <= b
    ensures Pow2(a) <= Pow2(b)
  {
    if a < b {
      Pow2Monotone(a, b - 1);
    }
  }

  lemma Pow2StrictMonotone(a: nat, b: nat)
    requires a < b
    ensures 2 * Pow2(a) <= Pow2(b)
  {
    Pow2Monotone(a + 1, b);
  }

  lemma Pow2Split(s: nat)
    requires s >= 1
    ensures Pow2(s) == 2 * Pow2(s - 1)
  {
  }

  /** Euclidean division is unique: the quotient and remainder of `n` by `d`
      are the only pair that rebuilds `n` with a remainder below `d`. */
  lemma DivModUnique(n: int, d: int, q: int, r: int)
    requires d > 0 && 0 <= r < d && n == q * d + r
    ensures n / d == q && n % d == r
  {
    var q0, r0 := n / d, n % d;
    assert n == q0 * d + r0;
    if q0 > q {
      assert (q0 - q) * d == r - r0;
      MulAtLeast(q0 - q, d);
    } else if q0 < q {
      assert (q - q0) * d == r0 - r;
      MulAtLeast(q - q0, d);
    }
  }

  lemma MulAtLeast(a: int, d: int)
    requires a >= 1 && d > 0
    ensures a * d >= d
  {
  }

  lemma DivMulExact(a: nat, d: nat)
    requires d > 0
    ensures (a * d) / d == a && (a * d) % d == 0
  {
    DivModUnique(a * d, d, a, 0);
  }

  /** Dividing by `a` and then by `b` is dividing by `a * b`. */
  lemma DivDiv(n: nat, a: nat, b: nat)
    requires a > 0 && b > 0
    ensures n / a / b == n / (a * b)
  {
    var x := n / a;
    var q := x / b;
    var r1 := n % a;
    var r2 := x % b;
    assert n == x * a + r1;
    assert x == q * b + r2;
    var r := r2 * a + r1;
    assert n == q * (a * b) + r by {
      calc {
        n;
        (q * b + r2) * a + r1;
        { MulDistrib(q * b, r2, a); }
        q * b * a + r2 * a + r1;
        { assert q * b * a == q * (a * b); }
        q * (a * b) + r;
      }
    }
    assert r < a * b by {
      MulLeMono(r2, b - 1, a);
      MulDistrib(b, -1, a);
    }
    DivModUnique(n, a * b, q, r);
  }

  lemma MulAssoc(a: int, b: int, c: int)
    ensures a * (b * c) == (a * b) * c
  {
  }

  lemma MulDistrib(x: int, y: int, c: int)
    ensures (x + y) * c == x * c + y * c
  {
  }

  lemma {:induction false} DivDivPow2(n: nat, a: nat, b: nat)
    ensures n / Pow2(a) / Pow2(b) == n / Pow2(a + b)
  {
    Pow2Add(a, b);
    DivDiv(n, Pow2(a), Pow2(b));
  }

  lemma MulLeMono(a: int, b: int, c: nat)
    requires a <= b
    ensures a * c <= b * c
  {
  }

  /** Scaling the dividend by `e` scales the divisor's cofactor. */
  lemma MulDivCancel(m: nat, e: nat, f: nat)
    requires e > 0 && f > 0
    ensures (m * e) / (e * f) == m / f
  {
    var q := m / f;
    var r := m % f;
    assert m == q * f + r;
    assert m * e == q * (e * f) + r * e by {
      MulDistrib(q * f, r, e);
    }
    assert r * e < e * f by {
      MulLeMono(r, f - 1, e);
      MulDistrib(f, -1, e);
    }
    DivModUnique(m * e, e * f, q, r * e);
  }

  lemma {:induction false} MulDivPow2(m: nat, e: nat, s: nat)
    requires e <= s
    ensures (m * Pow2(e)) / Pow2(s) == m / Pow2(s - e)
  {
    Pow2Add(e, s - e);
    MulDivCancel(m, Pow2(e), Pow2(s - e));
  }

  lemma DivMonotone(a: nat, b: nat, d: nat)
    requires a <= b && d > 0
    ensures a / d <= b / d
  {
    if a / d > b / d {
      assert a == (a / d) * d + a % d;
      assert b == (b / d) * d + b % d;
      MulLeMono(b / d + 1, a / d, d);
    }
  }

  /** Number of significant bits of `n` (0 for 0), as mpz_sizeinbase(n, 2)
      for nonzero n. */
  function BitLen(n: nat): nat
    decreases n
  {
    if n == 0 then 0 else 1 + BitLen(n / 2)
  }

  lemma {:induction false} BitLenBounds(n: nat)
    requires n > 0
    ensures BitLen(n) >= 1
    ensures Pow2(BitLen(n) - 1) <= n < Pow2(BitLen(n))
  {
    if n > 1 {
      BitLenBounds(n / 2);
    }
  }

  lemma BitLenUnique(n: nat, k: nat)
    requires k >= 1 && Pow2(k - 1) <= n < Pow2(k)
    ensures BitLen(n) == k
  {
    BitLenBounds(n);
    Pow2Lt(BitLen(n) - 1, k);
    Pow2Lt(k - 1, BitLen(n));
  }

  /** Powers of two are ordered like their exponents. */
  lemma Pow2Lt(x: nat, y: nat)
    requires Pow2(x) < Pow2(y)
    ensures x < y
  {
    if y <= x {
      Pow2Monotone(y, x);
    }
  }

  lemma BitLenMonotone(a: nat, b: nat)
    requires 0 < a <= b
    ensures BitLen(a) <= BitLen(b)
  {
    BitLenBounds(a);
    BitLenBounds(b);
    Pow2Lt(BitLen(a) - 1, BitLen(b));
  }

  lemma BitLenBelow(n: nat, k: nat)
    requires n < Pow2(k)
    ensures BitLen(n) <= k
  {
    if n > 0 {
      BitLenBounds(n);
      Pow2Lt(BitLen(n) - 1, k);
    }
  }

  /** The powers of two that limb-sized examples meet, spelled out. */
  lemma Pow2Of32()
    ensures Pow2(16) == 0x1_0000
    ensures Pow2(32) == 0x1_0000_0000
  {
    Pow2Add(8, 8);
    Pow2Add(16, 16);
  }

  lemma Pow2Of64()
    ensures Pow2(64) == 0x1_0000_0000_0000_0000
    ensures Pow2(63) == 0x8000_0000_0000_0000
    ensures Pow2(62) == 0x4000_0000_0000_0000
    ensures Pow2(61) == 0x2000_0000_0000_0000
  {
    Pow2Of32();
    Pow2Add(32, 32);
    assert Pow2(64) == 2 * Pow2(63);
    assert Pow2(63) == 2 * Pow2(62);
    assert Pow2(62) == 2 * Pow2(61);
  }

  lemma Pow2Of128()
    ensures Pow2(128) == 0x1_0000_0000_0000_0000_0000_0000_0000_0000
    ensures Pow2(127) == 0x8000_0000_0000_0000_0000_0000_0000_0000
    ensures Pow2(126) == 0x4000_0000_0000_0000_0000_0000_0000_0000
  {
    Pow2Of64();
    Pow2Add(64, 64);
    assert Pow2(128) == 2 * Pow2(127);
    assert Pow2(127) == 2 * Pow2(126);
  }

  /** Bit `i` of `n`. */
  function Bit(n: nat, i: nat): nat
  {
    (n / Pow2(i)) % 2
  }
}

=== FILE: cosh.dfy ===
/** mpfr_cosh (cosh.c): the singular cases, then a Ziv loop that evaluates
    cosh |x| = (e^|x| + 1/e^|x|) / 2 at a working precision raised by ten
    bits per pass, until mpfr_can_round accepts the approximation.  The
    four arithmetic calls and the rounding test are left open. */
module Cosh {
  import opened Bits
  import opened Floats
  import Exp3Control

  type Num = Exp3Control.Num

  /** The routines the loop calls, each with the precision of its target
      and the rounding mode the source passes: mpfr_exp, mpfr_ui_div,
      mpfr_add, mpfr_div_2ui and mpfr_can_round(t, err, rnd1, rnd2, prec). */
  datatype CoshOps = CoshOps(exp: (Num, nat, Rnd) -> Num, uiDiv: (nat, Num, nat, Rnd) -> Num,
                             add: (Num, Num, nat, Rnd) -> Num, div2ui: (Num, nat, nat, Rnd) -> Num,
                             canRound: (Num, nat, Rnd, Rnd, nat) -> bool)

  /** What one call of mpfr_cosh can end with: y, the ternary value and the
      flags, or no exit within the pass budget. */
  datatype CoshOutcome = Done(y: Value, inexact: int, flags: Flags) | OutOfFuel

  /** One pass of the loop: its working precision Nt, the four
      intermediate values, the error bound and the can-round verdict. */
  datatype CoshPass = CoshPass(prec: nat, te: Num, ti: Num, sum: Num, t: Num, err: int, roundable: bool)

  /** cosh.c:77-79: the first working precision, max(Nx, Ny) + 3 +
      ceil(log2(max(Nx, Ny))). */
  function StartPrec(nx: nat, ny: nat): (nt: nat)
    requires nx >= 1 && ny >= 1
    ensures nt >= Max(nx, ny) + 3
    ensures Pow2(nt - Max(nx, ny) - 3) >= Max(nx, ny)
  {
    var n := Max(nx, ny);
    n + 3 + Exp3Control.CeilLog2(n)
  }

  /** The working precision of pass i: ten more bits per pass. */
  function PrecAt(nx: nat, ny: nat, i: nat): (nt: nat)
    requires nx >= 1 && ny >= 1
  {
    StartPrec(nx, ny) + 10 * i
  }

  /** The precision handed to mpfr_can_round: one more bit under RNDN. */
  function RoundBits(ny: nat, rnd: Rnd): nat
  {
    if rnd == RNDN then ny + 1 else ny
  }

  /** cosh.c:93-111: the pass at working precision nt computed exactly
      this; can_round is asked only once err >= 0. */
  ghost predicate PassOk(a: CoshPass, ax: Num, nt: nat, ny: nat, rnd: Rnd, ops: CoshOps)
  {
    && a.prec == nt
    && a.te == ops.exp(ax, nt, RNDD)
    && a.ti == ops.uiDiv(1, a.te, nt, RNDU)
    && a.sum == ops.add(a.te, a.ti, nt, RNDN)
    && a.t == ops.div2ui(a.sum, 1, nt, RNDN)
    && a.err == nt - 3
    && a.roundable == (a.err >= 0 && ops.canRound(a.t, a.err as nat, RNDN, RNDZ, RoundBits(ny, rnd)))
  }

  /** One pass of the loop body and its exit test. */
  function Pass(ax: Num, nt: nat, ny: nat, rnd: Rnd, ops: CoshOps): (a: CoshPass)
    ensures PassOk(a, ax, nt, ny, rnd, ops)
  {
    var te := ops.exp(ax, nt, RNDD);
    var ti := ops.uiDiv(1, te, nt, RNDU);
    var sum := ops.add(te, ti, nt, RNDN);
    var t := ops.div2ui(sum, 1, nt, RNDN);
    var err := nt - 3;
    CoshPass(nt, te, ti, sum, t, err, err >= 0 && ops.canRound(t, err as nat, RNDN, RNDZ, RoundBits(ny, rnd)))
  }

  /** Pass i of the trace ran at the i-th working precision on |x|. */
  ghost predicate RunOk(trace: seq<CoshPass>, ax: Num, nx: nat, ny: nat, rnd: Rnd, ops: CoshOps)
    requires nx >= 1 && ny >= 1
  {
    forall i :: 0 <= i < |trace| ==> PassOk(trace[i], ax, PrecAt(nx, ny, i), ny, rnd, ops)
  }

  /** The first n passes of the trace all asked for another pass. */
  predicate AllRetried(trace: seq<CoshPass>, n: int)
  {
    forall i :: 0 <= i < n && i < |trace| ==> !trace[i].roundable
  }

  /** The exit of cosh.c:113: y is t rounded to Ny bits in the caller's
      mode, and the inexact flag is raised with a nonzero ternary value. */
  function Finish(t: Num, ny: nat, rnd: Rnd, flags: Flags): (r: CoshOutcome)
    requires ny >= 1
    ensures r.Done? && Valid(r.y) && -1 <= r.inexact <= 1
    ensures t.Reg? ==> r.y.Reg? && r.y.neg == t.neg && r.y.prec == ny
    ensures !t.Reg? ==> r.y == t && r.inexact == 0
    ensures r.flags.inexact <==> flags.inexact || r.inexact != 0
  {
    var inex := SetTernary(t, ny, rnd);
    Done(Set(t, ny, rnd), inex, flags.(inexact := flags.inexact || inex != 0))
  }

  /** What a run of mpfr_cosh on x with y's precision ny, mode rnd and
      incoming flags does, given the trace of its passes. */
  ghost predicate CoshSpec(x: Num, ny: nat, rnd: Rnd, ops: CoshOps, flags: Flags, fuel: nat,
                           res: CoshOutcome, trace: seq<CoshPass>)
    requires ny >= 1
  {
    match x
    case NaN => res == Done(NaN, 0, flags.(nan := true)) && trace == []
    case Inf(_) => res == Done(Inf(false), 0, flags) && trace == []
    case Zero(_) => res == Done(One(ny), 0, flags) && trace == []
    case Reg(_, _, nx, _) =>
      && |trace| <= fuel
      && RunOk(trace, AbsValue(x), nx, ny, rnd, ops)
      && AllRetried(trace, |trace| - 1)
      && (res.Done? <==> |trace| >= 1 && trace[|trace| - 1].roundable)
      && (res.Done? ==> res == Finish(trace[|trace| - 1].t, ny, rnd, flags))
      && (res.OutOfFuel? ==> |trace| == fuel)
  }

  /** mpfr_cosh, with at most fuel passes of the loop. */
  method CoshZiv(x: Num, ny: nat, rnd: Rnd, ops: CoshOps, flags: Flags, fuel: nat)
    returns (res: CoshOutcome, trace: seq<CoshPass>)
    requires ny >= 1
    ensures CoshSpec(x, ny, rnd, ops, flags, fuel, res, trace)
  {
    if !x.Reg? {
      trace := [];
      match x {
        case NaN => res := Done(NaN, 0, flags.(nan := true));
        case Inf(_) => res := Done(Inf(false), 0, flags);
        case Zero(_) => res := Done(One(ny), 0, flags);
      }
      return;
    }
    var ax: Num := AbsValue(x);
    var nx := x.prec;
    var nt := StartPrec(nx, ny);
    trace := [];
    while |trace| < fuel
      invariant |trace| <= fuel
      invariant LoopInv(trace, nt, ax, nx, ny, rnd, ops)
    {
      var a := Pass(ax, nt, ny, rnd, ops);
      LoopStep(trace, nt, a, ax, nx, ny, rnd, ops);
      trace := trace + [a];
      nt := nt + 10;
      if a.roundable {
        return Finish(a.t, ny, rnd, flags), trace;
      }
    }
    res := OutOfFuel;
  }

  /** What the loop keeps: nt is the precision of the next pass, every
      pass so far is the one its precision determines, and each asked for
      another pass. */
  ghost predicate LoopInv(trace: seq<CoshPass>, nt: nat, ax: Num, nx: nat, ny: nat, rnd: Rnd, ops: CoshOps)
  {
    && nx >= 1 && ny >= 1
    && nt == PrecAt(nx, ny, |trace|)
    && RunOk(trace, ax, nx, ny, rnd, ops)
    && AllRetried(trace, |trace|)
  }

  lemma LoopStep(trace: seq<CoshPass>, nt: nat, a: CoshPass, ax: Num, nx: nat, ny: nat, rnd: Rnd, ops: CoshOps)
    requires LoopInv(trace, nt, ax, nx, ny, rnd, ops)
    requires PassOk(a, ax, nt, ny, rnd, ops)
    ensures RunOk(trace + [a], ax, nx, ny, rnd, ops) && AllRetried(trace + [a], |trace|)
    ensures !a.roundable ==> LoopInv(trace + [a], nt + 10, ax, nx, ny, rnd, ops)
  {
    var tr := trace + [a];
    forall i | 0 <= i < |tr|
      ensures PassOk(tr[i], ax, PrecAt(nx, ny, i), ny, rnd, ops)
    {
      if i < |trace| {
        assert tr[i] == trace[i];
      }
    }
    assert forall i :: 0 <= i < |trace| ==> tr[i] == trace[i];
  }

  /** cosh.c:104 and 110: err = Nt - 3 is at least max(Nx, Ny) in every
      pass, so the err < 0 test never ends or skips a pass and can_round
      is always asked. */
  lemma ErrNeverNegative(x: Num, ny: nat, rnd: Rnd, ops: CoshOps, flags: Flags, fuel: nat,
                         res: CoshOutcome, trace: seq<CoshPass>, i: nat)
    requires ny >= 1 && x.Reg? && CoshSpec(x, ny, rnd, ops, flags, fuel, res, trace)
    requires i < |trace|
    ensures trace[i].err >= Max(x.prec, ny) + 10 * i
    ensures trace[i].roundable == ops.canRound(trace[i].t, trace[i].err as nat, RNDN, RNDZ, RoundBits(ny, rnd))
  {
    assert PassOk(trace[i], AbsValue(x), PrecAt(x.prec, ny, i), ny, rnd, ops);
  }

  /** cosh.c:105-107: the working precision strictly increases, by ten
      bits a pass. */
  lemma PrecisionIncreases(x: Num, ny: nat, rnd: Rnd, ops: CoshOps, flags: Flags, fuel: nat,
                           res: CoshOutcome, trace: seq<CoshPass>, i: nat, j: nat)
    requires ny >= 1 && x.Reg? && CoshSpec(x, ny, rnd, ops, flags, fuel, res, trace)
    requires i < j < |trace|
    ensures trace[j].prec == trace[i].prec + 10 * (j - i)
  {
    assert PassOk(trace[i], AbsValue(x), PrecAt(x.prec, ny, i), ny, rnd, ops);
    assert PassOk(trace[j], AbsValue(x), PrecAt(x.prec, ny, j), ny, rnd, ops);
  }

  /** cosh.c:113: when t is a regular number, y is its correct rounding
      to Ny bits in the caller's mode. */
  lemma CoshRounds(x: Num, ny: nat, rnd: Rnd, ops: CoshOps, flags: Flags, fuel: nat,
                   res: CoshOutcome, trace: seq<CoshPass>)
    requires ny >= 1 && x.Reg? && CoshSpec(x, ny, rnd, ops, flags, fuel, res, trace)
    requires res.Done? && trace[|trace| - 1].t.Reg?
    ensures var t := trace[|trace| - 1].t;
            IsRounding(t.mant, t.exp - t.prec, ny, DirOf(rnd, t.neg), res.y)
  {
    SetRounds(trace[|trace| - 1].t, ny, rnd);
  }

  /** The passes the run makes are determined by x: two traces that meet
      the specification agree, and so do the outcomes. */
  lemma {:induction false} CoshSpecUnique(x: Num, ny: nat, rnd: Rnd, ops: CoshOps, flags: Flags, fuel: nat,
                                          res1: CoshOutcome, trace1: seq<CoshPass>,
                                          res2: CoshOutcome, trace2: seq<CoshPass>)
    requires ny >= 1
    requires CoshSpec(x, ny, rnd, ops, flags, fuel, res1, trace1)
    requires CoshSpec(x, ny, rnd, ops, flags, fuel, res2, trace2)
    ensures trace1 == trace2 && res1 == res2
  {
    if x.Reg? {
      var ax: Num := AbsValue(x);
      var n := Min(|trace1|, |trace2|);
      forall i | 0 <= i < n
        ensures trace1[i] == trace2[i]
      {
        PassUnique(trace1[i], trace2[i], ax, PrecAt(x.prec, ny, i), ny, rnd, ops);
      }
      if |trace1| < |trace2| {
        ShorterTrace(trace1, trace2, fuel);
      } else if |trace2| < |trace1| {
        ShorterTrace(trace2, trace1, fuel);
      }
      assert trace1 == trace2;
    }
  }

  lemma PassUnique(a: CoshPass, b: CoshPass, ax: Num, nt: nat, ny: nat, rnd: Rnd, ops: CoshOps)
    requires PassOk(a, ax, nt, ny, rnd, ops) && PassOk(b, ax, nt, ny, rnd, ops)
    ensures a == b
  {
  }

  /** A trace that agrees with a longer retried-throughout one on its
      passes has neither exited nor used up the budget. */
  lemma ShorterTrace(short: seq<CoshPass>, long: seq<CoshPass>, fuel: nat)
    requires |short| < |long| <= fuel
    requires forall i :: 0 <= i < |short| ==> short[i] == long[i]
    requires AllRetried(long, |long| - 1)
    ensures |short| < fuel
    ensures |short| >= 1 ==> !short[|short| - 1].roundable
  {
    if |short| >= 1 {
      assert short[|short| - 1] == long[|short| - 1];
    }
  }

  /** cosh.c:61-62: the result does not depend on the sign of x; the
      runs on x and on -x make the same passes and end the same way. */
  lemma CoshEven(x: Num, ny: nat, rnd: Rnd, ops: CoshOps, flags: Flags, fuel: nat,
                 res1: CoshOutcome, trace1: seq<CoshPass>, res2: CoshOutcome, trace2: seq<CoshPass>)
    requires ny >= 1 && Valid(Negate(x))
    requires CoshSpec(x, ny, rnd, ops, flags, fuel, res1, trace1)
    requires CoshSpec(Negate(x), ny, rnd, ops, flags, fuel, res2, trace2)
    ensures res1 == res2 && trace1 == trace2
  {
    assert CoshSpec(x, ny, rnd, ops, flags, fuel, res2, trace2);
    CoshSpecUnique(x, ny, rnd, ops, flags, fuel, res1, trace1, res2, trace2);
  }
}

=== FILE: exp3.dfy ===
/** exp3.c: mpfr_exp_rational, which evaluates exp(p / 2^r) by binary
    splitting over exact integers, and the control logic of mpfr_exp_3,
    which cuts x into chunks, multiplies their exponentials and retries at
    a higher precision until the result can be rounded. */
module Exp3 {
  import opened Bits
  import opened Floats
  import opened BinSplit

  /** Width of a C long on the platforms with 64-bit limbs. */
  const LongBits: nat := 64

  /** mpz_scan1(n, 0): the number of trailing zero bits. */
  function TrailingZeros(n: nat): (z: nat)
    requires n > 0
    ensures Shr(n, z) * Pow2(z) == n && Shr(n, z) % 2 == 1
  {
    if n % 2 == 1 then 0
    else
      var z' := TrailingZeros(n / 2);
      TrailingStep(n, z');
      z' + 1
  }

  lemma TrailingStep(n: nat, z: nat)
    requires n % 2 == 0
    requires Shr(n / 2, z) * Pow2(z) == n / 2 && Shr(n / 2, z) % 2 == 1
    ensures Shr(n, z + 1) * Pow2(z + 1) == n && Shr(n, z + 1) % 2 == 1
  {
    var q := Shr(n / 2, z);
    DivDivPow2(n, 1, z);
    assert Pow2(1) == 2;
    assert Shr(n, z + 1) == q;
    assert Pow2(z + 1) == 2 * Pow2(z);
    MulAssoc(q, 2, Pow2(z));
    assert q * Pow2(z + 1) == 2 * (q * Pow2(z));
  }

  /** exp3.c:59-63: strip the trailing zeros of p and lower r by as many,
      so that p becomes odd while p / 2^r keeps its value. */
  function Strip(p: int, r: nat): (res: (int, int))
    requires p != 0
    ensures res.0 % 2 == 1
    ensures res.1 <= r && res.0 * Pow2(r - res.1) == p
    ensures Abs(p) < Pow2(r) ==>
              res.1 >= 1 && Abs(res.0) < Pow2(res.1) && res.0 * Pow2(r) == p * Pow2(res.1)
  {
    var z := TrailingZeros(Abs(p));
    var q := Shr(Abs(p), z);
    var p' := if p < 0 then -(q as int) else q;
    StripFacts(p, r, z, q, p');
    (p', r - z)
  }

  lemma StripFacts(p: int, r: nat, z: nat, q: nat, p': int)
    requires p != 0 && q * Pow2(z) == Abs(p) && q % 2 == 1
    requires p' == (if p < 0 then -(q as int) else q)
    ensures p' % 2 == 1 && p' * Pow2(z) == p
    ensures Abs(p) < Pow2(r) ==> z < r && Abs(p') < Pow2(r - z) && p' * Pow2(r) == p * Pow2(r - z)
  {
    StripValue(p, z, q, p');
    if Abs(p) < Pow2(r) {
      StripBound(p, r, z, q, p');
    }
  }

  lemma StripValue(p: int, z: nat, q: nat, p': int)
    requires p != 0 && q * Pow2(z) == Abs(p) && q % 2 == 1
    requires p' == (if p < 0 then -(q as int) else q)
    ensures p' % 2 == 1 && p' * Pow2(z) == p
  {
    if p < 0 {
      assert p' * Pow2(z) == -(q * Pow2(z)) by { MulDistrib(p', q, Pow2(z)); }
    }
  }

  lemma StripBound(p: int, r: nat, z: nat, q: nat, p': int)
    requires p != 0 && q * Pow2(z) == Abs(p) && q % 2 == 1 && Abs(p) < Pow2(r)
    requires p' == (if p < 0 then -(q as int) else q)
    ensures z < r && Abs(p') < Pow2(r - z) && p' * Pow2(r) == p * Pow2(r - z)
  {
    assert Pow2(z) < Pow2(r) by { MulAtLeast(q, Pow2(z)); }
    Pow2Lt(z, r);
    assert Pow2(r) == Pow2(r - z) * Pow2(z) by { Pow2Add(r - z, z); }
    StripValue(p, z, q, p');
    StripScale(p, p', q, Pow2(z), Pow2(r - z), Pow2(r));
  }

  lemma StripScale(p: int, p': int, q: nat, P: nat, W: nat, R: nat)
    requires P >= 1 && R == W * P && q * P == Abs(p) && Abs(p) < R && p' * P == p && Abs(p') == q
    ensures q < W && p' * R == p * W
  {
    if q >= W {
      MulLeMono(W, q, P);
    }
    MulAssoc(p', W, P);
    MulAssoc(p', P, W);
  }

  /** exp3.c:65-68: ptoj[k] = p^(2^k), by repeated squaring. */
  method PowerTable(p: int, m: nat) returns (ptoj: seq<int>)
    ensures |ptoj| == Max(m, 1)
    ensures forall k :: 0 <= k < |ptoj| ==> ptoj[k] == Power(p, Pow2(k))
  {
    ptoj := [p];
    var k := 1;
    while k < m
      invariant 1 <= k <= Max(m, 1) && PowersUpTo(p, ptoj, k)
    {
      PowersSnoc(p, ptoj, k);
      ptoj := ptoj + [ptoj[k - 1] * ptoj[k - 1]];
      k := k + 1;
    }
  }

  /** ptoj holds p^(2^t) for t < k. */
  ghost predicate PowersUpTo(p: int, ptoj: seq<int>, k: nat)
  {
    |ptoj| == k && forall t :: 0 <= t < k ==> ptoj[t] == Power(p, Pow2(t))
  }

  /** Squaring the last entry extends the table by one. */
  lemma PowersSnoc(p: int, ptoj: seq<int>, k: nat)
    requires k >= 1 && PowersUpTo(p, ptoj, k)
    ensures PowersUpTo(p, ptoj + [ptoj[k - 1] * ptoj[k - 1]], k + 1)
  {
    PowerSquare(p, k - 1);
  }

  /** Block t of the stack holds 2^lg[t] consecutive terms,
      [bounds[t], bounds[t+1]), and the blocks cover [0, bounds[n]). */
  ghost predicate Chain(lg: seq<nat>, bounds: seq<nat>, n: nat)
  {
    && |lg| >= n && |bounds| >= n + 1 && bounds[0] == 0
    && forall t :: 0 <= t < n ==> bounds[t + 1] == bounds[t] + Pow2(lg[t])
  }

  /** The first n stack entries hold the denominators and sums of their
      blocks. */
  ghost predicate Sums(p: int, r: nat, Q: seq<nat>, S: seq<int>, bounds: seq<nat>, n: nat)
  {
    && |Q| >= n && |S| >= n && |bounds| >= n + 1
    && forall t :: 0 <= t < n ==>
         bounds[t] <= bounds[t + 1] &&
         Q[t] == QBlock(bounds[t], bounds[t + 1]) && S[t] == SBlock(p, r, bounds[t], bounds[t + 1])
  }

  /** The first n blocks all hold at least 2^l terms. */
  ghost predicate AtLeast(lg: seq<nat>, n: nat, l: nat)
    requires |lg| >= n
  {
    forall t :: 0 <= t < n ==> lg[t] >= l
  }

  /** Block sizes strictly shrink towards the top of the stack. */
  ghost predicate Decreasing(lg: seq<nat>, n: nat)
    requires |lg| >= n
  {
    forall t :: 0 <= t && t + 1 < n ==> lg[t] > lg[t + 1]
  }

  lemma {:induction false} DecreasingMin(lg: seq<nat>, n: nat, t: nat, u: nat)
    requires |lg| >= n && Decreasing(lg, n) && t <= u < n
    ensures lg[t] >= lg[u] + (u - t)
    decreases u - t
  {
    if t < u {
      DecreasingMin(lg, n, t + 1, u);
    }
  }

  lemma {:induction false} ChainMonotone(lg: seq<nat>, bounds: seq<nat>, n: nat, t: nat, u: nat)
    requires Chain(lg, bounds, n) && t <= u <= n
    ensures bounds[t] + (u - t) <= bounds[u]
    decreases u - t
  {
    if t < u {
      ChainMonotone(lg, bounds, n, t + 1, u);
    }
  }

  lemma AddMultiples(x: nat, y: nat, d: nat)
    requires d > 0 && x % d == 0 && y % d == 0
    ensures (x + y) % d == 0
  {
    var a, b := x / d, y / d;
    assert x == a * d && y == b * d;
    MulDistrib(a, b, d);
    DivModUnique(x + y, d, a + b, 0);
  }

  lemma Pow2Multiple(l: nat, e: nat)
    requires e <= l
    ensures Pow2(l) % Pow2(e) == 0
  {
    Pow2Add(l - e, e);
    DivMulExact(Pow2(l - e), Pow2(e));
  }

  lemma {:induction false} ChainDivisible(lg: seq<nat>, bounds: seq<nat>, n: nat, e: nat)
    requires Chain(lg, bounds, n)
    requires AtLeast(lg, n, e)
    ensures bounds[n] % Pow2(e) == 0
  {
    if n > 0 {
      ChainDivisible(lg, bounds, n - 1, e);
      Pow2Multiple(lg[n - 1], e);
      AddMultiples(bounds[n - 1], Pow2(lg[n - 1]), Pow2(e));
    }
  }

  /** The residue of x * 2^l modulo 2^(l+1) is decided by the parity of x. */
  lemma ParityScaled(x: nat, l: nat)
    ensures (x * Pow2(l)) % Pow2(l + 1) == (x % 2) * Pow2(l)
  {
    var h := x / 2;
    DivModBounds(x, 2);
    assert x * Pow2(l) == h * Pow2(l + 1) + (x % 2) * Pow2(l) by {
      MulDistrib(2 * h, x % 2, Pow2(l));
      MulAssoc(h, 2, Pow2(l));
    }
    DivModUnique(x * Pow2(l), Pow2(l + 1), h, (x % 2) * Pow2(l));
  }

  /** In a strictly decreasing stack every block below position n - 1 is
      larger than the one at n - 1. */
  lemma AllAbove(lg: seq<nat>, n: nat, l: nat)
    requires |lg| >= n >= 1 && Decreasing(lg, n) && lg[n - 1] >= l
    ensures AtLeast(lg, n, l)
  {
    forall t | 0 <= t < n
      ensures lg[t] >= l
    {
      DecreasingMin(lg, n, t, n - 1);
    }
  }

  /** x * 2^l with x odd is not a multiple of 2^(l+1). */
  lemma OddScaled(x: nat, l: nat)
    requires x % 2 == 1
    ensures (x * Pow2(l)) % Pow2(l + 1) != 0
  {
    ParityScaled(x, l);
  }

  /** The shape argument behind the combine loop: with j = (i + 1) / 2^l,
      j is even exactly when the block under the top one has the same size
      2^l, so the merge is of equal halves. */
  lemma CombineEven(lg: seq<nat>, bounds: seq<nat>, k: nat, l: nat, j: nat)
    requires Chain(lg, bounds, k + 1) && lg[k] == l
    requires AtLeast(lg, k, l)
    requires Decreasing(lg, k)
    requires j >= 1 && j * Pow2(l) == bounds[k + 1] && j % 2 == 0
    ensures k >= 1 && lg[k - 1] == l
  {
    var P := Pow2(l);
    var b := bounds[k];
    assert b + P == j * P;
    EvenStart(b, P, j);
    if k == 0 {
      assert false;
    } else if lg[k - 1] != l {
      BelowDivisible(lg, bounds, k, l);
      OddScaled(j - 1, l);
      assert false;
    }
  }

  /** A block of P terms ending at an even multiple j of P starts at
      (j - 1) * P, which is at least P. */
  lemma EvenStart(b: nat, P: nat, j: nat)
    requires P >= 1 && j >= 1 && b + P == j * P && j % 2 == 0
    ensures b == (j - 1) * P && b >= P
  {
    MulDistrib(j - 1, 1, P);
    MulAtLeast(j - 1, P);
  }

  /** When the block under the top one is larger than 2^l, every block
      below the top is a multiple of 2^(l+1), and so is their end. */
  lemma BelowDivisible(lg: seq<nat>, bounds: seq<nat>, k: nat, l: nat)
    requires k >= 1 && Chain(lg, bounds, k + 1)
    requires AtLeast(lg, k, l) && Decreasing(lg, k) && lg[k - 1] != l
    ensures bounds[k] % Pow2(l + 1) == 0
  {
    AllAbove(lg, k, l + 1);
    ChainDivisible(lg, bounds, k, l + 1);
  }

  /** Two blocks of 2^l terms that end at an odd multiple of 2^l start
      off the grid of multiples of 2^(l+1). */
  lemma OddEnd(b0: nat, l: nat, j: nat)
    requires b0 + 2 * Pow2(l) == j * Pow2(l) && j % 2 == 1
    ensures j >= 3 && b0 % Pow2(l + 1) != 0
  {
    var P := Pow2(l);
    assert b0 == (j - 2) * P by { MulDistrib(j - 2, 2, P); }
    if j == 1 {
      assert false;
    }
    OddScaled(j - 2, l);
  }

  /** With j odd the block under the top is larger than the top. */
  lemma NoEqualBelow(lg: seq<nat>, bounds: seq<nat>, k: nat, l: nat, j: nat)
    requires k >= 1 && Chain(lg, bounds, k + 1) && lg[k] == l
    requires AtLeast(lg, k, l) && Decreasing(lg, k)
    requires j * Pow2(l) == bounds[k + 1] && j % 2 == 1
    ensures lg[k - 1] != l
  {
    if lg[k - 1] == l {
      assert bounds[k - 1] + 2 * Pow2(l) == bounds[k + 1];
      OddEnd(bounds[k - 1], l, j);
      if k >= 2 {
        assert lg[k - 2] > lg[k - 1];
        AllAbove(lg, k - 1, l + 1);
      }
      ChainDivisible(lg, bounds, k - 1, l + 1);
      assert false;
    }
  }

  /** Once j is odd the stack is strictly decreasing again. */
  lemma CombineOdd(lg: seq<nat>, bounds: seq<nat>, k: nat, l: nat, j: nat)
    requires Chain(lg, bounds, k + 1) && lg[k] == l
    requires AtLeast(lg, k, l)
    requires Decreasing(lg, k)
    requires j >= 1 && j * Pow2(l) == bounds[k + 1] && j % 2 == 1
    ensures Decreasing(lg, k + 1)
  {
    if k >= 1 {
      NoEqualBelow(lg, bounds, k, l, j);
    }
  }

  lemma CombineShape(lg: seq<nat>, bounds: seq<nat>, k: nat, l: nat, j: nat)
    requires Chain(lg, bounds, k + 1) && lg[k] == l
    requires AtLeast(lg, k, l)
    requires Decreasing(lg, k)
    requires j >= 1 && j * Pow2(l) == bounds[k + 1]
    ensures j % 2 == 0 ==> k >= 1 && lg[k - 1] == l
    ensures j % 2 == 1 ==> Decreasing(lg, k + 1)
  {
    if j % 2 == 0 {
      CombineEven(lg, bounds, k, l, j);
    } else {
      CombineOdd(lg, bounds, k, l, j);
    }
  }

  /** One merge of the stack: the new top holds block [a, b). */
  lemma MergeStep(p: int, r: nat, a: nat, c: nat, b: nat, SL: int, QL: nat, SR: int, QR: nat, pw: int, e: nat, w: nat)
    requires a <= c <= b
    requires SL == SBlock(p, r, a, c) && QL == QBlock(a, c)
    requires SR == SBlock(p, r, c, b) && QR == QBlock(c, b)
    requires pw == Power(p, c - a) && e == r * (b - c) && w == Pow2(e)
    ensures (SL * QR) * w + SR * pw == SBlock(p, r, a, b)
    ensures QL * QR == QBlock(a, b)
  {
    assert w == Pow2(Shift(r, b - c)) by {
      ShiftIsMul(r, b - c);
    }
    assert SBlock(p, r, a, b) == SL * (QR * w) + pw * SR by {
      SBlockSplit(p, r, a, c, b);
    }
    assert (SL * QR) * w == SL * (QR * w) by {
      MulAssoc(SL, QR, w);
    }
    QSplit(a, c, b);
  }

  /** exp3.c:131-150: S is brought to exactly 2 * precy bits and Q to
      exactly precy bits; the shift d is recorded in the exponent. */
  function ShiftToBits(x: nat, target: nat): (res: (nat, int))
    requires x > 0 && target >= 1
    ensures BitLen(res.0) == target && res.1 == BitLen(x) - target
    ensures res.1 >= 0 ==> res.0 * Pow2(res.1) <= x < (res.0 + 1) * Pow2(res.1)
    ensures res.1 < 0 ==> res.0 == x * Pow2(-res.1)
  {
    var d := BitLen(x) - target;
    if d >= 0 then
      BitLenShift(x, d);
      DivModBounds(x, Pow2(d));
      MulDistrib(Shr(x, d), 1, Pow2(d));
      (Shr(x, d), d)
    else
      BitLenScale(x, -d);
      (x * Pow2(-d), d)
  }

  lemma QuotientRange(s: nat, q: nat, A: nat, B: nat, C: nat)
    requires A >= 1 && A <= q < B && A * B <= s < C * A
    ensures A <= s / q < C
  {
    MulLeMono(q, B, A);
    MulLeMono(A, q, C);
    DivBetween(s, A, C, q);
  }

  lemma DoubleWidth(s: nat, p: nat)
    requires p >= 1 && BitLen(s) == 2 * p
    ensures Pow2(p - 1) * Pow2(p) <= s < Pow2(p + 1) * Pow2(p - 1)
  {
    var a, b := Pow2(p - 1), Pow2(p);
    assert Pow2(2 * p - 1) == a * b by { Pow2Add(p - 1, p); }
    assert Pow2(2 * p) == Pow2(p + 1) * a by { Pow2Add(p + 1, p - 1); }
    BitLenBounds(s);
  }

  /** A 2p-bit number divided by a p-bit number has p or p + 1 bits. */
  lemma QuotientBits(s: nat, q: nat, p: nat)
    requires p >= 1 && BitLen(s) == 2 * p && BitLen(q) == p
    ensures Pow2(p - 1) <= s / q < Pow2(p + 1)
  {
    BitLenBounds(q);
    DoubleWidth(s, p);
    QuotientRange(s, q, Pow2(p - 1), Pow2(p), Pow2(p + 1));
  }

  lemma IsRoundingShift(n: nat, L: int, p: nat, d: Dir, y: Value, delta: int)
    requires n > 0 && p >= 1 && IsRounding(n, L, p, d, y)
    ensures IsRounding(n, L + delta, p, d, y.(exp := y.exp + delta))
  {
  }

  /** exp3.c:131-150: the final quotient S / Q at precy bits, rounded down
      by mpfr_set_z, with the exponent moved by the recorded shifts and by
      -r * (N - 1) for the powers of two factored out of the denominators. */
  function ExpFinish(S: int, Q: nat, r: nat, N: nat, precy: nat): (y: Value)
    requires S > 0 && Q > 0 && precy >= 1 && N >= 1
    ensures y.Reg? && !y.neg && y.prec == precy && Valid(y)
    ensures var (s2, d1) := ShiftToBits(S, 2 * precy);
            var (q2, d2) := ShiftToBits(Q, precy);
            && Pow2(precy - 1) <= s2 / q2 < Pow2(precy + 1)
            && IsRounding(s2 / q2, d1 - d2 - r * (N - 1), precy, Toward, y)
  {
    var (s2, d1) := ShiftToBits(S, 2 * precy);
    var (q2, d2) := ShiftToBits(Q, precy);
    QuotientBits(s2, q2, precy);
    var z := s2 / q2;
    var y0 := RoundToPrec(false, z, 0, precy, RNDD);
    RoundToPrecCorrect(false, z, 0, precy, RNDD);
    IsRoundingShift(z, 0, precy, Toward, y0, d1 - d2 - r * (N - 1));
    y0.(exp := y0.exp + (d1 - d2) - r * (N - 1))
  }

  lemma MulNat(a: nat, b: nat)
    ensures a * b >= 0
  {
  }

  /** exp3.c:69-74: the stack starts with the single term 0. */
  lemma InitInv(p: int, r: nat)
    ensures Chain([0], [0, 1], 1) && Sums(p, r, [1], [1], [0, 1], 1) && Decreasing([0], 1)
  {
    assert QBlock(0, 1) == 1 && Shift(r, 0) == 0;
    assert Lead(r, 0, 1) == 1;
  }

  /** exp3.c:80-85: term i is pushed as a block of one term, with
      denominator and sum both i + 1. */
  lemma PushInv(p: int, r: nat, Q: seq<nat>, S: seq<int>, lg: seq<nat>, bounds: seq<nat>, k: nat, i: nat)
    requires |Q| == k + 1 && |S| == k + 1 && |lg| == k + 1 && |bounds| == k + 2
    requires Chain(lg, bounds, k + 1) && bounds[k + 1] == i
    requires Sums(p, r, Q, S, bounds, k + 1)
    requires Decreasing(lg, k + 1)
    ensures Chain(lg + [0], bounds + [i + 1], k + 2)
    ensures Sums(p, r, Q + [i + 1], S + [i + 1], bounds + [i + 1], k + 2)
    ensures Decreasing(lg + [0], k + 1)
  {
    assert QBlock(i, i + 1) == i + 1;
    assert Shift(r, 0) == 0;
    assert Lead(r, i, i + 1) == i + 1;
    assert SBlock(p, r, i, i + 1) == i + 1;
    var lg', b', Q', S' := lg + [0], bounds + [i + 1], Q + [i + 1], S + [i + 1];
    forall t | 0 <= t < k + 2
      ensures b'[t + 1] == b'[t] + Pow2(lg'[t])
      ensures b'[t] <= b'[t + 1] && Q'[t] == QBlock(b'[t], b'[t + 1]) && S'[t] == SBlock(p, r, b'[t], b'[t + 1])
    {
      if t < k + 1 {
        assert b'[t] == bounds[t] && b'[t + 1] == bounds[t + 1];
      }
    }
  }

  /** (i + 1) = j * 2^l with j even is (j / 2) * 2^(l + 1). */
  lemma HalveCount(j: nat, l: nat, n: nat)
    requires j % 2 == 0 && j * Pow2(l) == n
    ensures (j / 2) * Pow2(l + 1) == n
  {
    MulAssoc(j / 2, 2, Pow2(l));
  }

  /** exp3.c:88-111: one merge of the two top blocks, both of 2^l terms,
      into one block of 2^(l+1) terms. */
  lemma MergeInv(p: int, r: nat, Q: seq<nat>, S: seq<int>, lg: seq<nat>, bounds: seq<nat>,
                 k: nat, l: nat, n: nat, pw: int, e: nat, q: nat, left: int)
    requires k >= 1 && |Q| == k + 1 && |S| == k + 1 && |lg| == k + 1 && |bounds| == k + 2
    requires Chain(lg, bounds, k + 1) && bounds[k + 1] == n
    requires Sums(p, r, Q, S, bounds, k + 1)
    requires lg[k] == l && lg[k - 1] == l
    requires AtLeast(lg, k, l)
    requires Decreasing(lg, k)
    requires pw == Power(p, Pow2(l)) && e == r * Pow2(l) && q == Q[k - 1] * Q[k]
    requires left == (S[k - 1] * Q[k]) * Pow2(e) + S[k] * pw
    ensures Chain(lg[..k - 1] + [l + 1], bounds[..k] + [n], k)
    ensures Sums(p, r, Q[..k - 1] + [q], S[..k - 1] + [left], bounds[..k] + [n], k)
    ensures AtLeast(lg[..k - 1] + [l + 1], k, l + 1)
    ensures Decreasing(lg[..k - 1] + [l + 1], k - 1)
  {
    var a, c := bounds[k - 1], bounds[k];
    assert c - a == Pow2(l) && n - c == Pow2(l);
    MergeStep(p, r, a, c, n, S[k - 1], Q[k - 1], S[k], Q[k], pw, e, Pow2(e));
    assert Pow2(l + 1) == 2 * Pow2(l);
    var lg', b', Q', S' := lg[..k - 1] + [l + 1], bounds[..k] + [n], Q[..k - 1] + [q], S[..k - 1] + [left];
    forall t | 0 <= t < k
      ensures b'[t + 1] == b'[t] + Pow2(lg'[t])
      ensures b'[t] <= b'[t + 1] && Q'[t] == QBlock(b'[t], b'[t + 1]) && S'[t] == SBlock(p, r, b'[t], b'[t + 1])
      ensures lg'[t] >= l + 1
    {
      if t < k - 1 {
        assert b'[t] == bounds[t] && b'[t + 1] == bounds[t + 1];
        DecreasingMin(lg, k, t, k - 1);
      }
    }
  }

  /** exp3.c:116-129: the block under the top absorbs the top one, which
      reaches to the last term; accu counts the terms merged so far. */
  lemma AccuInv(p: int, r: nat, Q: seq<nat>, S: seq<int>, lg: seq<nat>, bounds: seq<nat>,
                k: nat, top: nat, n: nat, pw: int, accu: nat, e: nat, q: nat, left: int)
    requires 1 <= k <= top && |Q| == k + 1 && |S| == k + 1 && |lg| == top + 1 && |bounds| == top + 2
    requires Chain(lg, bounds, top + 1) && bounds[top + 1] == n
    requires Sums(p, r, Q, S, bounds, k)
    requires bounds[k] < n && Q[k] == QBlock(bounds[k], n) && S[k] == SBlock(p, r, bounds[k], n)
    requires pw == Power(p, Pow2(lg[k - 1])) && accu == n - bounds[k] && e == r * accu
    requires q == Q[k - 1] * Q[k] && left == (S[k - 1] * Q[k]) * Pow2(e) + S[k] * pw
    ensures Sums(p, r, Q[..k - 1] + [q], S[..k - 1] + [left], bounds, k - 1)
    ensures bounds[k - 1] < n && q == QBlock(bounds[k - 1], n) && left == SBlock(p, r, bounds[k - 1], n)
  {
    var a, c := bounds[k - 1], bounds[k];
    assert c - a == Pow2(lg[k - 1]);
    MergeStep(p, r, a, c, n, S[k - 1], Q[k - 1], S[k], Q[k], pw, e, Pow2(e));
    var Q', S' := Q[..k - 1] + [q], S[..k - 1] + [left];
    forall t | 0 <= t < k - 1
      ensures bounds[t] <= bounds[t + 1] && Q'[t] == QBlock(bounds[t], bounds[t + 1]) && S'[t] == SBlock(p, r, bounds[t], bounds[t + 1])
    {
      assert Q'[t] == Q[t] && S'[t] == S[t];
    }
  }

  /** The table of powers p^(2^t) built by PowerTable. */
  ghost predicate Powers(p: int, m: nat, ptoj: seq<int>)
  {
    |ptoj| == Max(m, 1) && forall t :: 0 <= t < |ptoj| ==> ptoj[t] == Power(p, Pow2(t))
  }

  /** The stack of k + 1 blocks covers the terms [0, n). */
  ghost predicate Stack(p: int, r: nat, Q: seq<nat>, S: seq<int>, lg: seq<nat>, bounds: seq<nat>, k: nat, n: nat)
  {
    && |Q| == k + 1 && |S| == k + 1 && |lg| == k + 1 && |bounds| == k + 2
    && Chain(lg, bounds, k + 1) && bounds[k + 1] == n
    && Sums(p, r, Q, S, bounds, k + 1)
  }

  /** exp3.c:86-111: after term i has been pushed, equal neighbours at the
      top are merged while j = (i + 1) / 2^l is even.  Each merge also
      updates the bit-count estimates mult[k - 1] and mult[k] and sets
      prec_i_have to the new estimate. */
  method Reduce(p: int, r: nat, m: nat, ptoj: seq<int>, Q0: seq<nat>, S0: seq<int>, lg0: seq<nat>,
                mult0: seq<int>, ghost bounds0: seq<nat>, k0: nat, i: nat, precIHave0: int)
    returns (Q: seq<nat>, S: seq<int>, lg: seq<nat>, mult: seq<int>, ghost bounds: seq<nat>, k: nat, precIHave: int)
    requires Powers(p, m, ptoj) && i + 1 <= Pow2(m) && 1 <= k0 <= m && |mult0| == m + 1
    requires Stack(p, r, Q0, S0, lg0, bounds0, k0, i + 1) && lg0[k0] == 0 && Decreasing(lg0, k0)
    ensures k <= k0 && |mult| == m + 1
    ensures Stack(p, r, Q, S, lg, bounds, k, i + 1) && Decreasing(lg, k + 1)
    ensures (i + 1) % 2 == 1 ==> Q == Q0 && S == S0 && mult == mult0 && precIHave == precIHave0
  {
    Q, S, lg, mult, bounds, k, precIHave := Q0, S0, lg0, mult0, bounds0, k0, precIHave0;
    var j: nat := i + 1;
    var l: nat := 0;
    while j % 2 == 0
      invariant k <= k0 && |mult| == m + 1
      invariant ReduceInv(p, r, m, Q, S, lg, bounds, k, l, j, i)
      invariant l == 0 ==> j == i + 1
      invariant (i + 1) % 2 == 1 ==> l == 0 && Q == Q0 && S == S0 && mult == mult0 && precIHave == precIHave0
      decreases j
    {
      ReduceReady(p, r, m, Q, S, lg, bounds, k, l, j, i);
      var right := S[k] * ptoj[l];
      var left := S[k - 1] * Q[k];
      MulNat(r, Pow2(l));
      var e: nat := r * Pow2(l);
      left := left * Pow2(e);
      left := left + right;
      MulNat(Q[k - 1], Q[k]);
      var q := Q[k - 1] * Q[k];
      ReduceMerge(p, r, m, Q, S, lg, bounds, k, l, j, i, ptoj[l], e, q, left);
      precIHave := BitLen(Q[k]);
      var precPtoj := BitLen(Abs(ptoj[l]));
      mult := mult[k - 1 := mult[k - 1] + precIHave + e - precPtoj - 1];
      precIHave := mult[k - 1];
      mult := mult[k := mult[k - 1]];
      Q := Q[..k - 1] + [q];
      S := S[..k - 1] + [left];
      lg := lg[..k - 1] + [l + 1];
      bounds := bounds[..k] + [i + 1];
      l := l + 1;
      j := j / 2;
      k := k - 1;
    }
    CombineOdd(lg, bounds, k, l, j);
  }

  /** What the merge loop of exp3.c:86-111 keeps: the stack still covers
      terms [0, i + 1), its top block has 2^l terms and no block below is
      smaller, and (i + 1) = j * 2^l. */
  ghost predicate ReduceInv(p: int, r: nat, m: nat, Q: seq<nat>, S: seq<int>, lg: seq<nat>, bounds: seq<nat>,
                            k: nat, l: nat, j: nat, i: nat)
  {
    && k <= m && Stack(p, r, Q, S, lg, bounds, k, i + 1)
    && lg[k] == l && AtLeast(lg, k, l) && Decreasing(lg, k)
    && j >= 1 && j * Pow2(l) == i + 1
  }

  /** With j even the top two blocks are equal, and the table of powers
      holds p^(2^l). */
  lemma ReduceReady(p: int, r: nat, m: nat, Q: seq<nat>, S: seq<int>, lg: seq<nat>, bounds: seq<nat>,
                    k: nat, l: nat, j: nat, i: nat)
    requires ReduceInv(p, r, m, Q, S, lg, bounds, k, l, j, i) && j % 2 == 0 && i + 1 <= Pow2(m)
    ensures k >= 1 && lg[k - 1] == l && l < m
  {
    CombineEven(lg, bounds, k, l, j);
    HalveCount(j, l, i + 1);
    assert Pow2(l + 1) <= Pow2(m) by { MulAtLeast(j / 2, Pow2(l + 1)); }
    Pow2Split(l + 1);
    Pow2Lt(l, m);
  }

  lemma ReduceMerge(p: int, r: nat, m: nat, Q: seq<nat>, S: seq<int>, lg: seq<nat>, bounds: seq<nat>,
                    k: nat, l: nat, j: nat, i: nat, pw: int, e: nat, q: nat, left: int)
    requires ReduceInv(p, r, m, Q, S, lg, bounds, k, l, j, i) && j % 2 == 0 && k >= 1 && lg[k - 1] == l
    requires pw == Power(p, Pow2(l)) && e == r * Pow2(l) && q == Q[k - 1] * Q[k]
    requires left == (S[k - 1] * Q[k]) * Pow2(e) + S[k] * pw
    ensures ReduceInv(p, r, m, Q[..k - 1] + [q], S[..k - 1] + [left], lg[..k - 1] + [l + 1], bounds[..k] + [i + 1],
                      k - 1, l + 1, j / 2, i)
  {
    MergeInv(p, r, Q, S, lg, bounds, k, l, i + 1, pw, e, q, left);
    HalveCount(j, l, i + 1);
  }

  /** exp3.c:113-129: the remaining blocks are merged from the top down
      into one block [0, n). */
  method Accumulate(p: int, r: nat, m: nat, ptoj: seq<int>, Q0: seq<nat>, S0: seq<int>, lg: seq<nat>,
                    ghost bounds: seq<nat>, top: nat, n: nat)
    returns (s: int, q: nat)
    requires Powers(p, m, ptoj) && n <= Pow2(m)
    requires Stack(p, r, Q0, S0, lg, bounds, top, n)
    ensures q == QBlock(0, n) && s == SBlock(p, r, 0, n)
  {
    var Q, S := Q0, S0;
    var k: nat := top;
    var accu: nat := 0;
    ChainMonotone(lg, bounds, top + 1, top, top + 1);
    while k > 0
      invariant k <= top && |Q| == k + 1 && |S| == k + 1 && |lg| == top + 1 && |bounds| == top + 2
      invariant Chain(lg, bounds, top + 1) && bounds[top + 1] == n
      invariant Sums(p, r, Q, S, bounds, k)
      invariant bounds[k] < n && Q[k] == QBlock(bounds[k], n) && S[k] == SBlock(p, r, bounds[k], n)
      invariant accu == n - bounds[k + 1]
    {
      var jj := lg[k - 1];
      ChainMonotone(lg, bounds, top + 1, k - 1, k);
      Pow2Lt(jj, m);
      var right := S[k] * ptoj[jj];
      var left := S[k - 1] * Q[k];
      accu := accu + Pow2(lg[k]);
      MulNat(r, accu);
      var e: nat := r * accu;
      left := left * Pow2(e);
      left := left + right;
      MulNat(Q[k - 1], Q[k]);
      var q' := Q[k - 1] * Q[k];
      AccuInv(p, r, Q, S, lg, bounds, k, top, n, ptoj[jj], accu, e, q', left);
      Q := Q[..k - 1] + [q'];
      S := S[..k - 1] + [left];
      k := k - 1;
    }
    s, q := S[0], Q[0];
  }

  /** exp3.c:69-111: the main loop pushes terms 1, 2, ... and reduces the
      stack after each, until the estimate prec_i_have reaches precy or all
      2^m terms are in.  The stack then covers the first i terms.
      `estimates` lists the value prec_i_have held at each test of the loop
      condition: every test but the last found it below precy, and only a
      push that merged blocks (i + 1 even) changed it. */
  method Gather(p: int, r: nat, m: nat, ptoj: seq<int>, precy: nat)
    returns (Q: seq<nat>, S: seq<int>, lg: seq<nat>, ghost bounds: seq<nat>, k: nat, i: nat,
             precIHave: int, estimates: seq<int>)
    requires Powers(p, m, ptoj)
    ensures 1 <= i <= Pow2(m) && Stack(p, r, Q, S, lg, bounds, k, i)
    ensures |estimates| == i && estimates[0] == 0 && estimates[i - 1] == precIHave
    ensures precIHave >= precy || i == Pow2(m)
    ensures forall j :: 0 <= j < i - 1 ==> estimates[j] < precy
    ensures forall j :: 1 <= j < i && (j + 1) % 2 == 1 ==> estimates[j] == estimates[j - 1]
  {
    Q, S, lg, bounds := [1], [1], [0], [0, 1];
    var mult: seq<int> := seq(m + 1, _ => 0);
    k := 0;
    precIHave := 0;
    estimates := [0];
    var n := Pow2(m);
    i := 1;
    InitInv(p, r);
    while precIHave < precy && i < n
      invariant 1 <= i <= n && k <= m && |mult| == m + 1
      invariant Stack(p, r, Q, S, lg, bounds, k, i) && Decreasing(lg, k + 1)
      invariant |estimates| == i && estimates[0] == 0 && estimates[i - 1] == precIHave
      invariant forall j :: 0 <= j < i - 1 ==> estimates[j] < precy
      invariant forall j :: 1 <= j < i && (j + 1) % 2 == 1 ==> estimates[j] == estimates[j - 1]
      decreases n - i
    {
      StackDepth(lg, bounds, k, i, m);
      PushInv(p, r, Q, S, lg, bounds, k, i);
      Q, S, lg, mult, bounds, k, precIHave :=
        Reduce(p, r, m, ptoj, Q + [i + 1], S + [i + 1], lg + [0], mult, bounds + [i + 1], k + 1, i, precIHave);
      estimates := estimates + [precIHave];
      i := i + 1;
    }
  }

  /** A strictly decreasing stack of k + 1 blocks holds at least 2^k
      terms, so below 2^m terms it is at most m deep. */
  lemma StackDepth(lg: seq<nat>, bounds: seq<nat>, k: nat, i: nat, m: nat)
    requires |lg| == k + 1 && Chain(lg, bounds, k + 1) && bounds[k + 1] == i && Decreasing(lg, k + 1)
    requires i < Pow2(m)
    ensures k < m
  {
    DecreasingMin(lg, k + 1, 0, k);
    ChainMonotone(lg, bounds, k + 1, 1, k + 1);
    Pow2Lt(lg[0], m);
  }

  /** exp3.c:42-151.  The terms 0 .. N-1 of the series of exp(p / 2^r) are
      gathered on a stack of blocks whose sizes follow the binary digits of
      the term count; equal neighbours are merged as soon as they appear,
      and the leftovers are merged at the end.  The result is the exact sum
      S(0, N) over the exact denominator N!, brought to precy bits. */
  method ExpRational(p0: int, r0: nat, m: nat, precy: nat) returns (y: Value, terms: nat, estimates: seq<int>)
    requires p0 != 0 && Abs(p0) < Pow2(r0)
    requires m < LongBits - 1
    requires precy >= 1
    ensures 1 <= terms <= Pow2(m) && |estimates| == terms
    ensures estimates[terms - 1] >= precy || terms == Pow2(m)
    ensures forall j :: 0 <= j < terms - 1 ==> estimates[j] < precy
    ensures var (p, r) := Strip(p0, r0);
            && r >= 1 && SBlock(p, r as nat, 0, terms) > 0
            && y == ExpFinish(SBlock(p, r as nat, 0, terms), Fact(terms), r as nat, terms, precy)
  {
    var (p, r1) := Strip(p0, r0);
    var r: nat := r1;
    var ptoj := PowerTable(p, m);
    assert Powers(p, m, ptoj);
    var Q, S, lg, bounds, k, i, precIHave, es := Gather(p, r, m, ptoj, precy);
    estimates := es;
    terms := i;
    var s, q := Accumulate(p, r, m, ptoj, Q, S, lg, bounds, k, i);
    QBlockFact(0, i);
    SBlockPositive(p, r, 0, i);
    y := ExpFinish(s, q, r, i, precy);
  }
}

=== FILE: exp3_control.dfy ===
/** exp3.c:153-285, mpfr_exp_3: x is scaled below 1, cut into chunks of
    doubling width, the exponential of each chunk is evaluated by binary
    splitting, the factors are multiplied, the scaling is undone by
    repeated squaring, and the whole is retried at a higher precision until
    it overflows, underflows or can be rounded.

    mpfr_extract, mpfr_sqr, mpfr_mul and mpfr_can_round are not part of this
    model: they are parameters (the fields of Ops), and only the validity
    of their results is assumed. */
module Exp3Control {
  import opened Bits
  import opened Floats
  import opened BinSplit
  import opened Exp3

  /** `shift` in exp3.c: half a limb. */
  const HalfLimb: nat := 32

  /** LONG_MAX for a 64-bit long. */
  const LongMax: nat := 0x7FFF_FFFF_FFFF_FFFF

  /** The values an arithmetic routine can return: well-formed ones. */
  type Num = v: Value | Valid(v) witness NaN

  /** The routines mpfr_exp_3 calls and this model leaves open:
      mpfr_extract, mpfr_sqr, mpfr_mul, the squaring
      mpfr_mul(tmp, tmp, tmp, GMP_RNDD) of exp3.c:245 together with the
      flags it raises, and mpfr_can_round. */
  datatype Ops = Ops(extract: (Value, nat) -> int, sqr: Num -> Num, mul: (Num, Num) -> Num,
                     square: Num -> (Num, Flags), canRound: (Num, nat, nat) -> bool)

  /** MPFR_INT_CEIL_LOG2(n): the least c with n <= 2^c. */
  function CeilLog2(n: nat): (c: nat)
    requires n >= 1
    ensures n <= Pow2(c)
    ensures c >= 1 ==> Pow2(c - 1) < n
  {
    if n == 1 then 0
    else
      BitLenBounds(n - 1);
      BitLen(n - 1)
  }

  lemma CeilLog2AtLeast(n: nat, e: nat)
    requires n > Pow2(e)
    ensures CeilLog2(n) > e
  {
    var c := CeilLog2(n);
    if c <= e {
      Pow2Monotone(c, e);
    }
  }

  /** exp3.c:174-176: prec_x, the number of chunks beyond the first one
      that x's significand can fill: ceil(log2(PREC(x))) - 6, but not
      below 0. */
  function PrecX(px: nat): (r: nat)
    requires px >= 1
    ensures px <= Pow2(r + Log2LimbBits)
    ensures r >= 1 ==> Pow2(r + Log2LimbBits - 1) < px
  {
    var c := CeilLog2(px);
    if c < Log2LimbBits then
      Pow2Monotone(c, Log2LimbBits);
      0
    else c - Log2LimbBits
  }

  /** exp3.c:178-191: the copy of x that the chunks are cut from, and the
      number of squarings that undo its scaling. */
  function Decompose(x: Num): (res: (Num, nat))
    requires x.Reg?
    ensures var (xc, shiftX) := res;
            && shiftX == Max(x.exp, 0) && xc.Reg? && xc.exp <= 0
            && xc.neg == x.neg && xc.prec == x.prec && xc.mant == x.mant
            && xc.exp + shiftX == x.exp
  {
    if x.exp > 0 then (x.(exp := 0), x.exp) else (x, 0)
  }

  /** exp3.c:194: the target precision of the Ziv loop. */
  function RealPrec(precy: nat, precX: nat): (r: nat)
    requires precy >= 1
    ensures r >= precy
    ensures r == precy + CeilLog2(precX + precy)
  {
    precy + CeilLog2(precX + precy)
  }

  /** exp3.c:195 and 274: the working precision, with guard bits for the 32
      squarings of the first chunk and the shift_x final squarings. */
  function WorkPrec(realprec: nat, shiftX: nat): nat
  {
    realprec + HalfLimb + 2 + shiftX
  }

  /** MPFR_ZIV_INIT / MPFR_ZIV_NEXT (mpfr-impl.h is not part of this
      model): the first increase of realprec is one limb, each later one
      is half of the new precision. */
  datatype Ziv = Ziv(prec: nat, step: nat)

  function ZivInit(p: nat): Ziv
  {
    Ziv(p, LimbBits)
  }

  function ZivNext(z: Ziv): (r: Ziv)
    requires z.prec >= 1 && z.step >= 1
    ensures r.prec > z.prec && r.step >= 1
  {
    var p := z.prec + z.step;
    Ziv(p, p / 2)
  }

  /** twopoweri while chunk i is processed: 64 * 2^i. */
  function TwoPower(i: nat): nat
  {
    Pow2(Log2LimbBits + i)
  }

  /** One call of mpfr_exp_rational: chunk `index` of x is p / 2^r, and
      2^m terms at most are summed. */
  datatype Call = Call(index: nat, p: int, r: nat, m: nat)

  /** What exp_rational and the surrounding assertions need of a call. */
  predicate CallOk(c: Call)
  {
    c.p != 0 && Abs(c.p) < Pow2(c.r) && c.m < LongBits - 1
  }

  /** exp3.c:227-236: the calls for chunks i .. iter.  Chunk i has weight
      twopoweri = 64 * 2^i, and zero chunks are skipped. */
  function Later(extract: (Value, nat) -> int, xc: Value, ttt: int, k: nat, iter: nat, i: nat): seq<Call>
    requires ttt <= 0 && 1 <= i && iter <= k
    decreases iter + 1 - i
  {
    if i > iter then []
    else
      var uk := extract(xc, i);
      var rest := Later(extract, xc, ttt, k, iter, i + 1);
      if uk != 0 then [Call(i, uk, TwoPower(i) - ttt, k - i + 1)] + rest else rest
  }

  /** exp3.c:215-235: chunk 0 at weight 32 + 64, then the later ones. */
  function Plan(extract: (Value, nat) -> int, xc: Value, ttt: int, k: nat, iter: nat): seq<Call>
    requires ttt <= 0 && iter <= k
  {
    [Call(0, extract(xc, 0), HalfLimb + LimbBits - ttt, k + 1)] + Later(extract, xc, ttt, k, iter, 1)
  }

  /** exp3.c:233: twopoweri never passes LONG_MAX / 2 before doubling. */
  predicate TwoPowerOk(iter: nat)
  {
    forall i :: 1 <= i <= iter ==> TwoPower(i) <= LongMax / 2
  }

  predicate Feasible(plan: seq<Call>, iter: nat)
  {
    (forall t :: 0 <= t < |plan| ==> CallOk(plan[t])) && TwoPowerOk(iter)
  }

  function Indices(calls: seq<Call>): set<nat>
  {
    set t | 0 <= t < |calls| :: calls[t].index
  }

  /** The later calls are exactly the nonzero chunks 1 .. iter, in
      increasing order, each with weight 2^(6 + i) and at most
      2^(k - i + 1) terms. */
  lemma {:induction false} LaterShape(extract: (Value, nat) -> int, xc: Value, ttt: int, k: nat, iter: nat, i: nat)
    requires ttt <= 0 && 1 <= i && iter <= k
    ensures var calls := Later(extract, xc, ttt, k, iter, i);
            && Indices(calls) == NonzeroChunks(extract, xc, i, iter)
            && (forall t :: 0 <= t < |calls| ==>
                  && i <= calls[t].index <= iter
                  && calls[t].p == extract(xc, calls[t].index)
                  && calls[t].r == TwoPower(calls[t].index) - ttt
                  && calls[t].m == k - calls[t].index + 1)
            && (forall s, t :: 0 <= s < t < |calls| ==> calls[s].index < calls[t].index)
    decreases iter + 1 - i
  {
    if i <= iter {
      LaterShape(extract, xc, ttt, k, iter, i + 1);
      var rest := Later(extract, xc, ttt, k, iter, i + 1);
      var calls := Later(extract, xc, ttt, k, iter, i);
      if extract(xc, i) != 0 {
        var c := Call(i, extract(xc, i), TwoPower(i) - ttt, k - i + 1);
        assert calls == [c] + rest;
        IndicesCons(c, rest);
        assert NonzeroChunks(extract, xc, i, iter) == {i} + NonzeroChunks(extract, xc, i + 1, iter);
      } else {
        assert calls == rest;
        assert NonzeroChunks(extract, xc, i, iter) == NonzeroChunks(extract, xc, i + 1, iter);
      }
    } else {
      assert NonzeroChunks(extract, xc, i, iter) == {};
    }
  }

  /** The chunks lo .. hi that are not zero. */
  function NonzeroChunks(extract: (Value, nat) -> int, xc: Value, lo: nat, hi: nat): set<nat>
  {
    set j: nat | lo <= j <= hi && extract(xc, j) != 0
  }

  lemma IndicesCons(c: Call, rest: seq<Call>)
    ensures Indices([c] + rest) == {c.index} + Indices(rest)
  {
    var calls := [c] + rest;
    forall x | x in Indices(calls)
      ensures x in {c.index} + Indices(rest)
    {
      var t :| 0 <= t < |calls| && calls[t].index == x;
      if t > 0 {
        assert calls[t] == rest[t - 1];
      }
    }
    forall x | x in Indices(rest)
      ensures x in Indices(calls)
    {
      var t :| 0 <= t < |rest| && rest[t].index == x;
      assert calls[t + 1] == rest[t];
    }
    assert calls[0].index == c.index;
  }

  /** The product of the factors in order, as the mpfr_mul calls of
      exp3.c:231 form it, starting from acc. */
  function MulAll(mul: (Num, Num) -> Num, acc: Num, fs: seq<Num>): Num
    decreases |fs|
  {
    if |fs| == 0 then acc else mul(MulAll(mul, acc, fs[..|fs| - 1]), fs[|fs| - 1])
  }

  /** n successive mpfr_sqr calls. */
  function SqrN(sqr: Num -> Num, v: Num, n: nat): Num
  {
    if n == 0 then v else sqr(SqrN(sqr, v, n - 1))
  }

  function Raise(f: Flags, g: Flags): (h: Flags)
    ensures h.overflow == (f.overflow || g.overflow) && h.underflow == (f.underflow || g.underflow)
  {
    Flags(f.underflow || g.underflow, f.overflow || g.overflow, f.nan || g.nan,
          f.inexact || g.inexact, f.erange || g.erange)
  }

  /** exp3.c:243-245: the flags are cleared, then tmp is squared n times;
      the flags are sticky. */
  function SquareFlags(square: Num -> (Num, Flags), v: Num, n: nat): (Num, Flags)
  {
    if n == 0 then (v, NoFlags)
    else
      var (w, f) := SquareFlags(square, v, n - 1);
      var (z, g) := square(w);
      (z, Raise(f, g))
  }

  /** An overflow raised by any one squaring is still visible at the end. */
  lemma {:induction false} OverflowSticky(square: Num -> (Num, Flags), v: Num, n: nat, j: nat)
    requires 1 <= j <= n && square(SquareFlags(square, v, j - 1).0).1.overflow
    ensures SquareFlags(square, v, n).1.overflow
  {
    if j < n {
      OverflowSticky(square, v, n - 1, j);
    }
  }

  /** One step of Later, unfolded. */
  lemma LaterStep(extract: (Value, nat) -> int, xc: Value, ttt: int, k: nat, iter: nat, i: nat)
    requires ttt <= 0 && 1 <= i <= iter <= k
    ensures Later(extract, xc, ttt, k, iter, i)
         == (if extract(xc, i) != 0 then [Call(i, extract(xc, i), TwoPower(i) - ttt, k - i + 1)] else [])
            + Later(extract, xc, ttt, k, iter, i + 1)
  {
  }

  predicate AllOk(calls: seq<Call>)
  {
    forall t :: 0 <= t < |calls| ==> CallOk(calls[t])
  }

  /** Every factor is a positive regular number at the working precision. */
  predicate Positive(fs: seq<Num>, prec: nat)
  {
    forall t :: 0 <= t < |fs| ==> fs[t].Reg? && !fs[t].neg && fs[t].prec == prec
  }

  /** t is what mpfr_exp_rational returns for call c at precision prec once
      it has summed n terms: the exact partial sum S(0, n) of the series of
      exp(p / 2^r), over n!, truncated to prec bits. */
  predicate RationalExp(c: Call, prec: nat, n: nat, t: Value)
  {
    && CallOk(c) && prec >= 1 && 1 <= n <= Pow2(c.m)
    && var (p, r) := Strip(c.p, c.r);
       && r >= 1 && SBlock(p, r as nat, 0, n) > 0
       && t == ExpFinish(SBlock(p, r as nat, 0, n), Fact(n), r as nat, n, prec)
  }

  /** The factors are the results of the calls, term counts aside. */
  predicate Exps(calls: seq<Call>, terms: seq<nat>, factors: seq<Num>, prec: nat)
  {
    && |terms| == |calls| && |factors| == |calls|
    && forall t :: 0 <= t < |calls| ==> RationalExp(calls[t], prec, terms[t], factors[t])
  }

  lemma ExpsPositive(calls: seq<Call>, terms: seq<nat>, factors: seq<Num>, prec: nat)
    requires Exps(calls, terms, factors, prec)
    ensures Positive(factors, prec)
  {
    forall t | 0 <= t < |factors|
      ensures factors[t].Reg? && !factors[t].neg && factors[t].prec == prec
    {
      assert RationalExp(calls[t], prec, terms[t], factors[t]);
    }
  }

  /** exp3.c:218 and 230: the exponential of one chunk, p / 2^r, at the
      working precision, by mpfr_exp_rational with 2^m terms at most. */
  method ChunkExp(c: Call, prec: nat) returns (t: Num, n: nat)
    requires CallOk(c) && prec >= 1
    ensures RationalExp(c, prec, n, t)
    ensures t.Reg? && !t.neg && t.prec == prec
  {
    var estimates;
    t, n, estimates := ExpRational(c.p, c.r, c.m, prec);
  }

  lemma PlanAppend(calls: seq<Call>, c: Call, rest: seq<Call>, plan: seq<Call>)
    requires calls + ([c] + rest) == plan
    ensures (calls + [c]) + rest == plan && plan[|calls|] == c
    ensures !CallOk(c) ==> !AllOk(plan)
  {
    assert plan[|calls|] == ([c] + rest)[0];
  }

  lemma MulAllSnoc(mul: (Num, Num) -> Num, acc: Num, fs: seq<Num>, t: Num)
    ensures MulAll(mul, acc, fs + [t]) == mul(MulAll(mul, acc, fs), t)
  {
    assert (fs + [t])[..|fs|] == fs;
  }

  /** exp3.c:225-235: the loop over chunks 1 .. iter, multiplying the
      exponential of each nonzero chunk into acc. */
  method ChunkLoop(xc: Value, ttt: int, k: nat, iter: nat, prec: nat,
                   extract: (Value, nat) -> int, mul: (Num, Num) -> Num, acc: Num)
    returns (ok: bool, tmp: Num, calls: seq<Call>, terms: seq<nat>, factors: seq<Num>)
    requires ttt <= 0 && iter <= k && prec >= 1
    ensures ok <==> AllOk(Later(extract, xc, ttt, k, iter, 1)) && TwoPowerOk(iter)
    ensures ok ==> calls == Later(extract, xc, ttt, k, iter, 1)
    ensures ok ==> Exps(calls, terms, factors, prec) && Positive(factors, prec) && tmp == MulAll(mul, acc, factors)
  {
    var twopoweri: nat := LimbBits * 2;
    assert TwoPower(1) == Pow2(7) == 128;
    tmp, calls, terms, factors := acc, [], [], [];
    var i: nat := 1;
    while i <= iter
      invariant 1 <= i <= iter + 1 && twopoweri == TwoPower(i)
      invariant ChunkInv(i, calls, terms, factors, tmp, xc, ttt, k, iter, prec, extract, mul, acc)
    {
      var more;
      more, calls, terms, factors, tmp :=
        ChunkIter(i, twopoweri, calls, terms, factors, tmp, xc, ttt, k, iter, prec, extract, mul, acc);
      if !more {
        return false, acc, [], [], [];
      }
      Pow2Split(Log2LimbBits + i + 1);
      twopoweri := twopoweri * 2;
      i := i + 1;
    }
    ChunkDone(i, calls, terms, factors, tmp, xc, ttt, k, iter, prec, extract, mul, acc);
    ExpsPositive(calls, terms, factors, prec);
    ok := true;
  }

  /** One pass of the chunk loop (exp3.c:227-233): a nonzero chunk calls
      mpfr_exp_rational and multiplies its result into tmp, then twopoweri
      must pass the LONG_MAX / 2 assertion.  more is false when the call or
      the assertion would fail, and then the plan is not feasible. */
  method ChunkIter(i: nat, twopoweri: nat, calls: seq<Call>, terms: seq<nat>, factors: seq<Num>, tmp: Num,
                   xc: Value, ttt: int, k: nat, iter: nat, prec: nat,
                   extract: (Value, nat) -> int, mul: (Num, Num) -> Num, acc: Num)
    returns (more: bool, calls': seq<Call>, terms': seq<nat>, factors': seq<Num>, tmp': Num)
    requires ChunkInv(i, calls, terms, factors, tmp, xc, ttt, k, iter, prec, extract, mul, acc)
    requires i <= iter && twopoweri == TwoPower(i) && prec >= 1
    ensures more ==> ChunkInv(i + 1, calls', terms', factors', tmp', xc, ttt, k, iter, prec, extract, mul, acc)
    ensures !more ==> !(AllOk(Later(extract, xc, ttt, k, iter, 1)) && TwoPowerOk(iter))
  {
    calls', terms', factors', tmp' := calls, terms, factors, tmp;
    var uk := extract(xc, i);
    if uk != 0 {
      var c := Call(i, uk, twopoweri - ttt, k - i + 1);
      if !CallOk(c) {
        ChunkFails(i, calls, terms, factors, tmp, xc, ttt, k, iter, prec, extract, mul, acc);
        return false, calls', terms', factors', tmp';
      }
      var t, n := ChunkExp(c, prec);
      if twopoweri > LongMax / 2 {
        return false, calls', terms', factors', tmp';
      }
      ChunkTake(i, calls, terms, factors, tmp, xc, ttt, k, iter, prec, extract, mul, acc, c, n, t);
      calls', terms', factors', tmp' := calls + [c], terms + [n], factors + [t], mul(tmp, t);
    } else if twopoweri > LongMax / 2 {
      return false, calls', terms', factors', tmp';
    } else {
      ChunkSkip(i, calls, terms, factors, tmp, xc, ttt, k, iter, prec, extract, mul, acc);
    }
    more := true;
  }

  /** What the chunk loop keeps before chunk i: the calls made so far are
      the plan up to chunk i, all of them valid, every twopoweri so far
      passed the assertion, and tmp is acc times their exponentials. */
  ghost predicate ChunkInv(i: nat, calls: seq<Call>, terms: seq<nat>, factors: seq<Num>, tmp: Num, xc: Value, ttt: int, k: nat,
                           iter: nat, prec: nat, extract: (Value, nat) -> int, mul: (Num, Num) -> Num, acc: Num)
  {
    && ttt <= 0 && 1 <= i <= iter + 1 && iter <= k
    && calls + Later(extract, xc, ttt, k, iter, i) == Later(extract, xc, ttt, k, iter, 1)
    && AllOk(calls)
    && (forall j :: 1 <= j < i ==> TwoPower(j) <= LongMax / 2)
    && Exps(calls, terms, factors, prec)
    && tmp == MulAll(mul, acc, factors)
  }

  /** A zero chunk adds no call. */
  lemma ChunkSkip(i: nat, calls: seq<Call>, terms: seq<nat>, factors: seq<Num>, tmp: Num, xc: Value, ttt: int, k: nat,
                  iter: nat, prec: nat, extract: (Value, nat) -> int, mul: (Num, Num) -> Num, acc: Num)
    requires ChunkInv(i, calls, terms, factors, tmp, xc, ttt, k, iter, prec, extract, mul, acc) && i <= iter
    requires TwoPower(i) <= LongMax / 2 && extract(xc, i) == 0
    ensures ChunkInv(i + 1, calls, terms, factors, tmp, xc, ttt, k, iter, prec, extract, mul, acc)
  {
    LaterStep(extract, xc, ttt, k, iter, i);
  }

  /** A nonzero chunk appends its call, its term count and its exponential,
      and multiplies the exponential in. */
  lemma ChunkTake(i: nat, calls: seq<Call>, terms: seq<nat>, factors: seq<Num>, tmp: Num, xc: Value, ttt: int, k: nat,
                  iter: nat, prec: nat, extract: (Value, nat) -> int, mul: (Num, Num) -> Num, acc: Num,
                  c: Call, n: nat, t: Num)
    requires ChunkInv(i, calls, terms, factors, tmp, xc, ttt, k, iter, prec, extract, mul, acc) && i <= iter
    requires TwoPower(i) <= LongMax / 2 && extract(xc, i) != 0
    requires c == Call(i, extract(xc, i), TwoPower(i) - ttt, k - i + 1) && CallOk(c) && RationalExp(c, prec, n, t)
    ensures ChunkInv(i + 1, calls + [c], terms + [n], factors + [t], mul(tmp, t), xc, ttt, k, iter, prec, extract, mul, acc)
  {
    LaterStep(extract, xc, ttt, k, iter, i);
    var rest := Later(extract, xc, ttt, k, iter, i + 1);
    PlanAppend(calls, c, rest, Later(extract, xc, ttt, k, iter, 1));
    ExpsSnoc(calls, terms, factors, prec, c, n, t);
    MulAllSnoc(mul, acc, factors, t);
  }

  lemma ExpsSnoc(calls: seq<Call>, terms: seq<nat>, factors: seq<Num>, prec: nat, c: Call, n: nat, t: Num)
    requires Exps(calls, terms, factors, prec) && RationalExp(c, prec, n, t)
    ensures Exps(calls + [c], terms + [n], factors + [t], prec)
  {
    var cs, ns, fs := calls + [c], terms + [n], factors + [t];
    forall j | 0 <= j < |cs|
      ensures RationalExp(cs[j], prec, ns[j], fs[j])
    {
      if j < |calls| {
        assert cs[j] == calls[j] && ns[j] == terms[j] && fs[j] == factors[j];
      }
    }
  }

  /** A nonzero chunk whose call breaks the bound makes the plan
      infeasible. */
  lemma ChunkFails(i: nat, calls: seq<Call>, terms: seq<nat>, factors: seq<Num>, tmp: Num, xc: Value, ttt: int, k: nat,
                   iter: nat, prec: nat, extract: (Value, nat) -> int, mul: (Num, Num) -> Num, acc: Num)
    requires ChunkInv(i, calls, terms, factors, tmp, xc, ttt, k, iter, prec, extract, mul, acc) && i <= iter
    requires extract(xc, i) != 0 && !CallOk(Call(i, extract(xc, i), TwoPower(i) - ttt, k - i + 1))
    ensures !AllOk(Later(extract, xc, ttt, k, iter, 1))
  {
    LaterStep(extract, xc, ttt, k, iter, i);
    var c := Call(i, extract(xc, i), TwoPower(i) - ttt, k - i + 1);
    PlanAppend(calls, c, Later(extract, xc, ttt, k, iter, i + 1), Later(extract, xc, ttt, k, iter, 1));
  }

  lemma ChunkDone(i: nat, calls: seq<Call>, terms: seq<nat>, factors: seq<Num>, tmp: Num, xc: Value, ttt: int, k: nat,
                  iter: nat, prec: nat, extract: (Value, nat) -> int, mul: (Num, Num) -> Num, acc: Num)
    requires ChunkInv(i, calls, terms, factors, tmp, xc, ttt, k, iter, prec, extract, mul, acc) && i == iter + 1
    ensures calls == Later(extract, xc, ttt, k, iter, 1) && TwoPowerOk(iter)
  {
    assert Later(extract, xc, ttt, k, iter, i) == [];
    assert calls + [] == calls;
  }

  /** exp3.c:204-235 for one working precision: k, the first chunk with its
      32 squarings, and the chunk loop.  ok is false when a call or the
      twopoweri assertion would fail; then nothing is promised. */
  method Approximate(xc: Value, ttt: int, precX: nat, prec: nat,
                     extract: (Value, nat) -> int, sqr: Num -> Num, mul: (Num, Num) -> Num)
    returns (ok: bool, tmp: Num, k: nat, iter: nat, calls: seq<Call>, terms: seq<nat>, factors: seq<Num>)
    requires ttt <= 0 && prec > HalfLimb
    ensures k == CeilLog2(prec) - Log2LimbBits && iter == Min(k, precX)
    ensures ok <==> Feasible(Plan(extract, xc, ttt, k, iter), iter)
    ensures ok ==> calls == Plan(extract, xc, ttt, k, iter)
    ensures ok ==> |calls| >= 1 && Exps(calls, terms, factors, prec) && Positive(factors, prec)
    ensures ok ==> tmp == MulAll(mul, SqrN(sqr, factors[0], HalfLimb), factors[1..])
  {
    Pow2Of32();
    CeilLog2AtLeast(prec, 5);
    k := CeilLog2(prec) - Log2LimbBits;
    iter := if k <= precX then k else precX;
    ghost var plan := Plan(extract, xc, ttt, k, iter);
    var uk := extract(xc, 0);
    var c := Call(0, uk, HalfLimb + LimbBits - ttt, k + 1);
    if !CallOk(c) {
      assert plan[0] == c;
      return false, NaN, k, iter, [], [], [];
    }
    var y0, n0 := ChunkExp(c, prec);
    var acc := SqrN(sqr, y0, HalfLimb);
    var rest: seq<Call>, ns: seq<nat>, more: seq<Num>;
    ok, tmp, rest, ns, more := ChunkLoop(xc, ttt, k, iter, prec, extract, mul, acc);
    PlanFeasible(c, Later(extract, xc, ttt, k, iter, 1), iter);
    calls, terms, factors := [c] + rest, [n0] + ns, [y0] + more;
    assert factors[1..] == more;
    if ok {
      ExpsCons(c, n0, y0, rest, ns, more, prec);
      ExpsPositive(calls, terms, factors, prec);
    }
  }

  lemma ExpsCons(c: Call, n: nat, t: Num, calls: seq<Call>, terms: seq<nat>, factors: seq<Num>, prec: nat)
    requires RationalExp(c, prec, n, t) && Exps(calls, terms, factors, prec)
    ensures Exps([c] + calls, [n] + terms, [t] + factors, prec)
  {
    var cs, ns, fs := [c] + calls, [n] + terms, [t] + factors;
    forall j | 0 <= j < |cs|
      ensures RationalExp(cs[j], prec, ns[j], fs[j])
    {
      if j > 0 {
        assert cs[j] == calls[j - 1] && ns[j] == terms[j - 1] && fs[j] == factors[j - 1];
      }
    }
  }

  lemma PlanFeasible(c: Call, rest: seq<Call>, iter: nat)
    ensures Feasible([c] + rest, iter) <==> CallOk(c) && AllOk(rest) && TwoPowerOk(iter)
  {
    var plan := [c] + rest;
    assert plan[0] == c;
    assert forall t :: 0 <= t < |rest| ==> plan[t + 1] == rest[t];
  }

  /** realprec on the t-th pass of the retry loop, by the Ziv schedule:
      one limb more on the second pass, then half as much again each
      time. */
  function RealPrecAt(r0: nat, t: nat): nat
  {
    if t == 0 then r0
    else if t == 1 then r0 + LimbBits
    else
      var p := RealPrecAt(r0, t - 1);
      p + p / 2
  }

  /** Each pass works at a strictly higher precision than the one before. */
  lemma {:induction false} RealPrecIncreasing(r0: nat, t: nat)
    requires r0 >= 1
    ensures RealPrecAt(r0, t + 1) > RealPrecAt(r0, t) >= r0
  {
    if t >= 1 {
      RealPrecIncreasing(r0, t - 1);
    }
  }

  /** One pass of the retry loop, as recorded for the contract: the
      precisions, the chunk count, the exp_rational calls, the number of
      terms each summed and their results, the product before and after the shift_x squarings, the
      flags those squarings raised, and the can-round verdict. */
  datatype Attempt = Attempt(realprec: nat, prec: nat, k: nat, iter: nat, calls: seq<Call>, terms: seq<nat>, factors: seq<Num>,
                             base: Num, tmp: Num, flags: Flags, roundable: bool)

  /** An exit carries y, the ternary value and the flag word mpfr_exp_3
      leaves behind. */
  datatype Exp3Outcome = Exit(y: Value, inexact: int, flags: Flags) | Aborted | OutOfFuel

  /** mpfr_setmax(y, e): the largest significand at y's precision, with
      exponent e; y keeps its sign. */
  function SetMax(neg: bool, p: nat, e: int): (r: Value)
    requires p >= 1
    ensures Valid(r) && r.Reg? && r.neg == neg && r.exp == e && r.prec == p && r.mant + 1 == Pow2(p)
  {
    Reg(neg, e, p, Pow2(p) - 1)
  }

  /** The precision handed to mpfr_can_round: one more bit under RNDN. */
  function RoundBits(precy: nat, rnd: Rnd): nat
  {
    if rnd == RNDN then precy + 1 else precy
  }

  /** A pass that neither overflowed, underflowed nor could round. */
  predicate Retried(a: Attempt)
  {
    !a.flags.overflow && !a.flags.underflow && !a.roundable
  }

  /** The pass at realprec: everything it computed follows from the
      decomposition of x and the helper routines. */
  ghost predicate PassOk(a: Attempt, x: Num, realprec: nat, precy: nat, rnd: Rnd, ops: Ops)
    requires x.Reg?
  {
    var (xc, shiftX) := Decompose(x);
    var precX := PrecX(x.prec);
    && a.realprec == realprec
    && a.prec == WorkPrec(realprec, shiftX)
    && a.k == CeilLog2(a.prec) - Log2LimbBits && a.iter == Min(a.k, precX)
    && a.calls == Plan(ops.extract, xc, xc.exp, a.k, a.iter)
    && |a.calls| >= 1 && Exps(a.calls, a.terms, a.factors, a.prec)
    && a.base == MulAll(ops.mul, SqrN(ops.sqr, a.factors[0], HalfLimb), a.factors[1..])
    && (a.tmp, a.flags) == SquareFlags(ops.square, a.base, shiftX)
    && a.roundable == ops.canRound(a.tmp, realprec, RoundBits(precy, rnd))
  }

  /** The plan of the pass at realprec is infeasible. */
  ghost predicate Stuck(x: Num, realprec: nat, extract: (Value, nat) -> int)
    requires x.Reg?
  {
    var (xc, shiftX) := Decompose(x);
    var prec := WorkPrec(realprec, shiftX);
    var k := CeilLog2(prec) - Log2LimbBits;
    var iter := Min(k, PrecX(x.prec));
    !Feasible(Plan(extract, xc, xc.exp, k, iter), iter)
  }

  /** exp3.c:204-245: one pass of the retry loop at realprec. */
  method Pass(x: Num, realprec: nat, precy: nat, rnd: Rnd, ops: Ops)
    returns (ok: bool, a: Attempt)
    requires x.Reg?
    ensures ok ==> PassOk(a, x, realprec, precy, rnd, ops)
    ensures !ok ==> Stuck(x, realprec, ops.extract)
  {
    var (xc, shiftX) := Decompose(x);
    var precX := PrecX(x.prec);
    var prec := WorkPrec(realprec, shiftX);
    var base, k, iter, calls, terms, factors;
    ok, base, k, iter, calls, terms, factors := Approximate(xc, xc.exp, precX, prec, ops.extract, ops.sqr, ops.mul);
    var (tmp, flags) := SquareFlags(ops.square, base, shiftX);
    var roundable := ops.canRound(tmp, realprec, RoundBits(precy, rnd));
    a := Attempt(realprec, prec, k, iter, calls, terms, factors, base, tmp, flags, roundable);
  }

  /** Pass t of the trace ran at the t-th precision of the schedule from
      r0 and computed what PassOk says. */
  ghost predicate TraceOk(trace: seq<Attempt>, x: Num, r0: nat, precy: nat, rnd: Rnd, ops: Ops)
    requires x.Reg?
  {
    forall t :: 0 <= t < |trace| ==>
      PassOk(trace[t], x, RealPrecAt(r0, t), precy, rnd, ops)
  }

  lemma TraceAppend(trace: seq<Attempt>, a: Attempt, x: Num, r0: nat, precy: nat, rnd: Rnd, ops: Ops)
    requires x.Reg?
    requires TraceOk(trace, x, r0, precy, rnd, ops)
    requires PassOk(a, x, RealPrecAt(r0, |trace|), precy, rnd, ops)
    ensures TraceOk(trace + [a], x, r0, precy, rnd, ops)
  {
    var tr := trace + [a];
    forall t | 0 <= t < |tr|
      ensures PassOk(tr[t], x, RealPrecAt(r0, t), precy, rnd, ops)
    {
      if t < |trace| {
        assert tr[t] == trace[t];
      }
    }
  }

  /** The first n passes of the trace were all retried. */
  predicate AllRetried(trace: seq<Attempt>, n: int)
  {
    forall t :: 0 <= t < n && t < |trace| ==> Retried(trace[t])
  }

  lemma RetriedAppend(trace: seq<Attempt>, a: Attempt)
    requires AllRetried(trace, |trace|)
    ensures AllRetried(trace + [a], |trace|)
    ensures Retried(a) ==> AllRetried(trace + [a], |trace| + 1)
  {
    var tr := trace + [a];
    assert forall t :: 0 <= t < |trace| ==> tr[t] == trace[t];
  }

  /** exp3.c:247-272: the exits of a pass that did not ask for a retry,
      in the order the source tests them.  mpfr_clear_flags at exp3.c:243
      wipes the caller's flags, so the flags on exit are those the
      shift_x squarings raised, plus the inexact flag that mpfr_set
      raises with a nonzero ternary value; mpfr_setmax raises none. */
  function Exits(a: Attempt, precy: nat, rnd: Rnd, prevNeg: bool, emax: int, eminMin: int): (r: Exp3Outcome)
    requires !Retried(a) && precy >= 1
    ensures r.Exit?
    ensures a.flags.overflow ==>
              r.inexact == 1 && r.y.Reg? && r.y.neg == prevNeg && r.y.exp == emax + 1 && r.y.mant + 1 == Pow2(precy)
    ensures !a.flags.overflow && a.flags.underflow ==>
              r.inexact == -1 && r.y.Reg? && r.y.neg == prevNeg && r.y.exp == eminMin - 2 && r.y.mant + 1 == Pow2(precy)
    ensures !a.flags.overflow && !a.flags.underflow ==>
              && a.roundable && Valid(r.y) && -1 <= r.inexact <= 1
              && (a.tmp.Reg? ==> r.y.Reg? && r.y.neg == a.tmp.neg && r.y.prec == precy)
              && (!a.tmp.Reg? ==> r.y == a.tmp && r.inexact == 0)
    ensures r.flags.(inexact := a.flags.inexact) == a.flags
    ensures r.flags.inexact <==> a.flags.inexact || (!a.flags.overflow && !a.flags.underflow && r.inexact != 0)
  {
    if a.flags.overflow then Exit(SetMax(prevNeg, precy, emax + 1), 1, a.flags)
    else if a.flags.underflow then Exit(SetMax(prevNeg, precy, eminMin - 2), -1, a.flags)
    else
      var inex := SetTernary(a.tmp, precy, rnd);
      Exit(Set(a.tmp, precy, rnd), inex, a.flags.(inexact := a.flags.inexact || inex != 0))
  }

  /** The normal exit rounds the approximation correctly to y's precision
      (mpfr_set at exp3.c:270). */
  lemma ExitRounds(a: Attempt, precy: nat, rnd: Rnd, prevNeg: bool, emax: int, eminMin: int)
    requires !Retried(a) && precy >= 1 && !a.flags.overflow && !a.flags.underflow && a.tmp.Reg?
    ensures IsRounding(a.tmp.mant, a.tmp.exp - a.tmp.prec, precy, DirOf(rnd, a.tmp.neg),
                       Exits(a, precy, rnd, prevNeg, emax, eminMin).y)
  {
    SetRounds(a.tmp, precy, rnd);
  }

  /** mpfr_exp_3.  The passes run at the Ziv schedule of precisions
      starting from RealPrec; every pass but the last was retried; the last
      one exits on overflow first (ternary 1), then on underflow (ternary
      -1), then when it can be rounded (mpfr_set).  The caller's flags do
      not survive a pass; the exit carries the flags Exits states.  The
      loop is bounded by
      fuel passes; Aborted means the next pass would break an assertion or
      the argument bound of exp_rational. */
  method ExpZiv(x: Num, precy: nat, rnd: Rnd, prevNeg: bool, emax: int, eminMin: int, ops: Ops, fuel: nat)
    returns (res: Exp3Outcome, trace: seq<Attempt>)
    requires x.Reg? && precy >= 1
    ensures |trace| <= fuel
    ensures TraceOk(trace, x, RealPrec(precy, PrecX(x.prec)), precy, rnd, ops)
    ensures AllRetried(trace, |trace| - 1)
    ensures res.Exit? <==> |trace| >= 1 && !Retried(trace[|trace| - 1])
    ensures res.Exit? ==> res == Exits(trace[|trace| - 1], precy, rnd, prevNeg, emax, eminMin)
    ensures res.Aborted? ==> Stuck(x, RealPrecAt(RealPrec(precy, PrecX(x.prec)), |trace|), ops.extract)
    ensures res.OutOfFuel? ==> |trace| == fuel
  {
    var realprec := RealPrec(precy, PrecX(x.prec));
    var z := ZivInit(realprec);
    trace := [];
    res := OutOfFuel;
    while |trace| < fuel
      invariant |trace| <= fuel && res == OutOfFuel
      invariant LoopInv(trace, z, x, realprec, precy, rnd, ops)
    {
      var ok, a := Pass(x, z.prec, precy, rnd, ops);
      if !ok {
        res := Aborted;
        break;
      }
      LoopStep(trace, z, a, x, realprec, precy, rnd, ops);
      trace := trace + [a];
      if !Retried(a) {
        res := Exits(a, precy, rnd, prevNeg, emax, eminMin);
        break;
      }
      z := ZivNext(z);
    }
  }

  /** What the retry loop of mpfr_exp_3 keeps: the Ziv state is the one
      scheduled for the next pass, every pass so far did what PassOk
      says, and each of them asked for a retry. */
  ghost predicate LoopInv(trace: seq<Attempt>, z: Ziv, x: Num, r0: nat, precy: nat, rnd: Rnd, ops: Ops)
    requires x.Reg?
  {
    && r0 >= 1 && z.prec == RealPrecAt(r0, |trace|) && z.prec >= 1
    && z.step == (if |trace| == 0 then LimbBits else z.prec / 2)
    && TraceOk(trace, x, r0, precy, rnd, ops)
    && AllRetried(trace, |trace|)
  }

  lemma LoopStep(trace: seq<Attempt>, z: Ziv, a: Attempt, x: Num, r0: nat, precy: nat, rnd: Rnd, ops: Ops)
    requires x.Reg? && LoopInv(trace, z, x, r0, precy, rnd, ops)
    requires PassOk(a, x, z.prec, precy, rnd, ops)
    ensures z.step >= 1
    ensures TraceOk(trace + [a], x, r0, precy, rnd, ops) && AllRetried(trace + [a], |trace|)
    ensures Retried(a) ==> LoopInv(trace + [a], ZivNext(z), x, r0, precy, rnd, ops)
  {
    RetriedAppend(trace, a);
    TraceAppend(trace, a, x, r0, precy, rnd, ops);
    RealPrecIncreasing(r0, |trace|);
  }
}

=== FILE: floats.dfy ===
/** The value type shared by every core routine: NaN, signed infinities,
    signed zeros and regular numbers (sign, exponent, precision, significand)
    whose value is (-1)^neg * mant * 2^(exp - prec) with a normalised
    significand 2^(prec-1) <= mant < 2^prec.  Also the rounding modes, the
    shared round-up decision and the specification of correct rounding that
    the addition kernel, the exponential and the hyperbolic cosine all meet. */
module Floats {
  import opened Bits

  /** The four rounding-direction attributes of section 4.3 of IEEE 754-2008,
      as GMP_RNDN, GMP_RNDZ, GMP_RNDU and GMP_RNDD. */
  datatype Rnd = RNDN | RNDZ | RNDU | RNDD

  datatype Value =
    | NaN
    | Inf(neg: bool)
    | Zero(neg: bool)
    | Reg(neg: bool, exp: int, prec: nat, mant: nat)

  /** The top bit of a `p`-bit significand is set. */
  predicate Normal(p: nat, m: nat)
  {
    p >= 1 && Pow2(p - 1) <= m < Pow2(p)
  }

  predicate Valid(v: Value)
  {
    v.Reg? ==> Normal(v.prec, v.mant)
  }

  function Negate(v: Value): Value
  {
    match v
    case NaN => NaN
    case Inf(s) => Inf(!s)
    case Zero(s) => Zero(!s)
    case Reg(s, e, p, m) => Reg(!s, e, p, m)
  }

  /** |v|, as mpfr_abs. */
  function AbsValue(v: Value): Value
  {
    match v
    case NaN => NaN
    case Inf(_) => Inf(false)
    case Zero(_) => Zero(false)
    case Reg(_, e, p, m) => Reg(false, e, p, m)
  }

  /** Sticky exception flags, threaded explicitly instead of living in
      process-wide state. */
  datatype Flags = Flags(underflow: bool, overflow: bool, nan: bool, inexact: bool, erange: bool)

  const NoFlags := Flags(false, false, false, false, false)

  /** Where a rounding mode sends a magnitude, once the sign is known. */
  datatype Dir = Nearest | Away | Toward

  function DirOf(rnd: Rnd, neg: bool): Dir
  {
    match rnd
    case RNDN => Nearest
    case RNDZ => Toward
    case RNDU => if neg then Toward else Away
    case RNDD => if neg then Away else Toward
  }

  /** The shared rounding primitive: from the parity of the kept part, the
      first discarded bit (`half`) and whether any later discarded bit is set
      (`sticky`), decide whether one unit in the last place is added. */
  function RoundUp(d: Dir, lsbOdd: bool, half: bool, sticky: bool): bool
  {
    match d
    case Toward => false
    case Away => half || sticky
    case Nearest => half && (sticky || lsbOdd)
  }

  function Dist(a: int, b: int): nat
  {
    Abs(a - b)
  }

  /** Correct rounding of the natural `n` to a multiple `M` of the unit
      `P`: toward zero the largest multiple not above `n`, away from zero the
      smallest not below it, to nearest the closest one with ties going to an
      even multiple of `P`. */
  ghost predicate RoundsToUnit(n: nat, P: nat, d: Dir, M: int)
    requires P >= 1
  {
    && M % P == 0
    && match d
       case Toward => M <= n < M + P
       case Away => M - P < n <= M
       case Nearest =>
         || 2 * Dist(n, M) < P
         || (2 * Dist(n, M) == P && (M / P) % 2 == 0)
  }

  /** Correct rounding of `n` to a multiple of 2^s. */
  ghost predicate RoundsTo(n: nat, s: nat, d: Dir, M: int)
  {
    RoundsToUnit(n, Pow2(s), d, M)
  }

  /** `n` divided by the unit `P` and rounded in direction `d` by the
      shared primitive: the round bit is the first bit below the unit, whose
      weight is the half-unit `h`, and the sticky bit the OR of the bits
      below it. */
  function UnitQuotient(n: nat, P: nat, h: nat, d: Dir): (q: nat)
    requires P >= 1 && h >= 1
    ensures q == n / P || q == n / P + 1
  {
    DivModBounds(n, P);
    var q0 := n / P;
    var rem := n % P;
    if RoundUp(d, q0 % 2 == 1, P > 1 && rem >= h, P > 1 && rem % h != 0) then q0 + 1 else q0
  }

  /** Weight of the round bit below 2^s (1 when nothing is dropped). */
  function HalfUnit(s: nat): (h: nat)
    ensures h >= 1 && (Pow2(s) == 1 || Pow2(s) == 2 * h)
  {
    if s == 0 then 1 else Pow2(s - 1)
  }

  /** `n` divided by 2^s and rounded in direction `d`. */
  function RoundedQuotient(n: nat, s: nat, d: Dir): (q: nat)
    ensures q == n / Pow2(s) || q == n / Pow2(s) + 1
  {
    UnitQuotient(n, Pow2(s), HalfUnit(s), d)
  }

  /** The shared primitive rounds correctly. */
  lemma RoundedQuotientRounds(n: nat, s: nat, d: Dir)
    ensures RoundsTo(n, s, d, RoundedQuotient(n, s, d) * Pow2(s))
  {
    QuotientRounds(n, Pow2(s), HalfUnit(s), d);
  }

  /** Rounding `n` to a multiple of the unit `P`, which is 1 or twice the
      half-unit `h`, by the shared primitive meets `RoundsToUnit`. */
  lemma QuotientRounds(n: nat, P: nat, h: nat, d: Dir)
    requires h >= 1 && (P == 1 || P == 2 * h)
    ensures RoundsToUnit(n, P, d, UnitQuotient(n, P, h, d) * P)
  {
    var q0 := n / P;
    var rem := n % P;
    DivModBounds(n, P);
    var sticky := P > 1 && rem % h != 0;
    StickyOfRem(rem, P, h);
    var up := RoundUp(d, q0 % 2 == 1, P > 1 && rem >= h, sticky);
    var q := if up then q0 + 1 else q0;
    assert UnitQuotient(n, P, h, d) == q;
    QuotientRoundsCore(n, P, h, d, q0, rem, up, q);
  }

  lemma StickyOfRem(rem: nat, P: nat, h: nat)
    requires h >= 1 && (P == 1 || P == 2 * h) && rem < P
    ensures (P > 1 && rem % h != 0) == (P > 1 && rem != 0 && rem != h)
  {
    if P > 1 {
      if rem >= h {
        DivModUnique(rem, h, 1, rem - h);
      } else {
        DivModUnique(rem, h, 0, rem);
      }
    }
  }

  lemma QuotientRoundsCore(n: nat, P: nat, h: nat, d: Dir, q0: nat, rem: nat, up: bool, q: nat)
    requires h >= 1 && (P == 1 || P == 2 * h) && rem < P && n == q0 * P + rem
    requires up == RoundUp(d, q0 % 2 == 1, P > 1 && rem >= h, P > 1 && rem != 0 && rem != h)
    requires q == if up then q0 + 1 else q0
    ensures RoundsToUnit(n, P, d, q * P)
  {
    var base := q0 * P;
    DivMulExact(q, P);
    var M := if up then base + P else base;
    assert q * P == M by {
      if up {
        MulDistrib(q0, 1, P);
      }
    }
    if P == 1 {
      assert rem == 0 && !up;
    } else {
      RoundsToLinear(n, base, rem, P, h, d, up, q0 % 2 == 1, M);
    }
  }

  lemma DivModBounds(n: nat, P: nat)
    requires P >= 1
    ensures n / P >= 0 && 0 <= n % P < P && n == (n / P) * P + n % P
  {
  }

  /** `n` with its low `s` bits dropped. */
  function Shr(n: nat, s: nat): nat
  {
    DivModBounds(n, Pow2(s));
    n / Pow2(s)
  }

  /** x lies in [lo * d, hi * d) exactly when x / d lies in [lo, hi). */
  lemma DivBetween(x: nat, lo: nat, hi: nat, d: nat)
    requires d >= 1 && lo * d <= x < hi * d
    ensures lo <= x / d < hi
  {
    DivMulExact(lo, d);
    DivMonotone(lo * d, x, d);
    DivModBounds(x, d);
    if x / d >= hi {
      MulLeMono(hi, x / d, d);
    }
  }

  /** The linear heart of `RoundedQuotientCorrect`: `n` is `base + rem` and
      the candidate multiple is `base` or the next one, `base + P`. */
  lemma RoundsToLinear(n: int, base: int, rem: int, P: int, h: int, d: Dir, up: bool, odd: bool, M: int)
    requires h >= 1 && P == 2 * h && 0 <= rem < P && n == base + rem
    requires up == RoundUp(d, odd, rem >= h, rem != 0 && rem != h)
    requires M == if up then base + P else base
    ensures d.Toward? ==> M <= n < M + P
    ensures d.Away? ==> M - P < n <= M
    ensures d.Nearest? ==> 2 * Dist(n, M) < P || (2 * Dist(n, M) == P && (up <==> odd))
  {
  }

  /** The result `r` is `n * 2^L` correctly rounded to `p` bits in
      direction `d`: exact when `n` fits in `p` bits, otherwise the
      multiple of the ulp 2^(BitLen(n) - p) that `RoundsTo` selects. */
  ghost predicate IsRounding(n: nat, L: int, p: nat, d: Dir, r: Value)
    requires n > 0 && p >= 1
  {
    && r.Reg?
    && r.prec == p
    && Normal(p, r.mant)
    && var k := BitLen(n);
       if k <= p then
         r.exp == L + k && r.mant == n * Pow2(p - k)
       else
         r.exp - p >= L && RoundsTo(n, k - p, d, r.mant * Pow2(r.exp - p - L))
  }

  /** `neg * n * 2^L` rounded to a `p`-bit regular value. */
  function RoundToPrec(neg: bool, n: nat, L: int, p: nat, rnd: Rnd): (r: Value)
    requires n > 0 && p >= 1
    ensures r.Reg? && r.neg == neg && r.prec == p && Valid(r)
    ensures r.exp == L + BitLen(n) || r.exp == L + BitLen(n) + 1
  {
    var k := BitLen(n);
    if k <= p then
      ExactNormal(n, p);
      Reg(neg, L + k, p, n * Pow2(p - k))
    else
      var q := RoundedQuotient(n, k - p, DirOf(rnd, neg));
      QuotientNormal(n, p, q);
      Carried(neg, L + k, p, q)
  }

  /** A rounded significand of `p` bits, or 2^p after a carry out of the
      rounding, which leaves 1000...0 and one more in the exponent. */
  function Carried(neg: bool, e: int, p: nat, q: nat): (r: Value)
    requires p >= 1 && Pow2(p - 1) <= q <= Pow2(p)
    ensures r.Reg? && r.neg == neg && r.prec == p && Valid(r)
    ensures r.exp == e || r.exp == e + 1
    ensures r.mant * Pow2(r.exp - e) == q
  {
    if q == Pow2(p) then
      Pow2Split(p);
      Reg(neg, e + 1, p, Pow2(p - 1))
    else
      Reg(neg, e, p, q)
  }

  /** `RoundToPrec` rounds correctly in the direction its mode and sign
      select. */
  lemma RoundToPrecCorrect(neg: bool, n: nat, L: int, p: nat, rnd: Rnd)
    requires n > 0 && p >= 1
    ensures IsRounding(n, L, p, DirOf(rnd, neg), RoundToPrec(neg, n, L, p, rnd))
  {
    var k := BitLen(n);
    if k <= p {
      ExactIsRounding(neg, n, L, p, DirOf(rnd, neg));
    } else {
      var q := RoundedQuotient(n, k - p, DirOf(rnd, neg));
      RoundedQuotientRounds(n, k - p, DirOf(rnd, neg));
      QuotientIsRounding(neg, n, L, p, DirOf(rnd, neg), q);
    }
  }

  /** Correct rounding of an `n` wider than `p` bits is a `p`-bit value
      whose multiple of the ulp `RoundsTo` selects. */
  lemma RoundingAt(n: nat, L: int, p: nat, d: Dir, r: Value, u: nat)
    requires n > 0 && p >= 1 && u >= 1 && BitLen(n) == p + u
    requires r.Reg? && r.prec == p && Normal(p, r.mant) && r.exp - p - L >= 0
    requires RoundsTo(n, u, d, r.mant * Pow2(r.exp - p - L))
    ensures IsRounding(n, L, p, d, r)
  {
  }

  lemma ExactNormal(n: nat, p: nat)
    requires n > 0 && p >= 1 && BitLen(n) <= p
    ensures Normal(p, n * Pow2(p - BitLen(n)))
  {
    BitLenBounds(n);
    ScaleNormal(n, BitLen(n), p);
  }

  /** A significand that fits in `p` bits is shifted up and kept exactly. */
  lemma ExactIsRounding(neg: bool, n: nat, L: int, p: nat, d: Dir)
    requires n > 0 && p >= 1 && BitLen(n) <= p
    ensures IsRounding(n, L, p, d, Reg(neg, L + BitLen(n), p, n * Pow2(p - BitLen(n))))
  {
    ExactNormal(n, p);
  }

  /** The rounded quotient is the significand, unless it carried into
      2^p, when the exponent goes up by one and the significand is 2^(p-1). */
  lemma QuotientIsRounding(neg: bool, n: nat, L: int, p: nat, d: Dir, q: nat)
    requires n > 0 && p >= 1 && BitLen(n) > p
    requires q == n / Pow2(BitLen(n) - p) || q == n / Pow2(BitLen(n) - p) + 1
    requires RoundsTo(n, BitLen(n) - p, d, q * Pow2(BitLen(n) - p))
    ensures Pow2(p - 1) <= q <= Pow2(p)
    ensures IsRounding(n, L, p, d, Carried(neg, L + BitLen(n), p, q))
  {
    QuotientNormal(n, p, q);
    var s := BitLen(n) - p;
    var r := Carried(neg, L + BitLen(n), p, q);
    assert r.mant * Pow2(r.exp - p - L) == q * Pow2(s) by {
      if q == Pow2(p) {
        CarryMantissa(p, s);
      }
    }
  }

  /** The rounded quotient has `p` bits, or is 2^p after a carry. */
  lemma QuotientNormal(n: nat, p: nat, q: nat)
    requires n > 0 && p >= 1 && BitLen(n) > p
    requires q == n / Pow2(BitLen(n) - p) || q == n / Pow2(BitLen(n) - p) + 1
    ensures Pow2(p - 1) <= q <= Pow2(p)
  {
    BitLenBounds(n);
    QuotientRange(n, BitLen(n), p);
  }

  lemma ScaleNormal(n: nat, k: nat, p: nat)
    requires k >= 1 && k <= p && Pow2(k - 1) <= n < Pow2(k)
    ensures Normal(p, n * Pow2(p - k))
  {
    var c := Pow2(p - k);
    assert Pow2(k - 1) * c == Pow2(p - 1) by {
      Pow2Add(k - 1, p - k);
    }
    assert Pow2(k) * c == Pow2(p) by {
      Pow2Add(k, p - k);
    }
    ScaleBetween(Pow2(k - 1), n, Pow2(k), c);
  }

  lemma QuotientRange(n: nat, k: nat, p: nat)
    requires 1 <= p < k && Pow2(k - 1) <= n < Pow2(k)
    ensures Pow2(p - 1) <= n / Pow2(k - p) < Pow2(p)
  {
    var S := Pow2(k - p);
    assert Pow2(p - 1) * S <= n < Pow2(p) * S by {
      Pow2Add(p - 1, k - p);
      Pow2Add(p, k - p);
    }
    DivBetween(n, Pow2(p - 1), Pow2(p), S);
  }

  lemma CarryMantissa(p: nat, s: nat)
    requires p >= 1
    ensures Pow2(p - 1) * Pow2(s + 1) == Pow2(p) * Pow2(s)
  {
    Pow2Add(p - 1, s + 1);
    Pow2Add(p, s);
  }

  /** Two multiples that both round `n` in the same direction coincide. */
  lemma RoundsToUnique(n: nat, s: nat, d: Dir, M1: int, M2: int)
    requires RoundsTo(n, s, d, M1) && RoundsTo(n, s, d, M2)
    ensures M1 == M2
  {
    RoundsToUnitUnique(n, Pow2(s), d, M1, M2);
  }

  lemma RoundsToUnitUnique(n: nat, P: nat, d: Dir, M1: int, M2: int)
    requires P >= 1 && RoundsToUnit(n, P, d, M1) && RoundsToUnit(n, P, d, M2)
    ensures M1 == M2
  {
    var a, b := M1 / P, M2 / P;
    ExactMultiple(M1, P);
    ExactMultiple(M2, P);
    if a < b {
      MultiplesApart(a, b, P);
    } else if b < a {
      MultiplesApart(b, a, P);
    }
  }

  lemma ExactMultiple(M: int, P: nat)
    requires P >= 1 && M % P == 0
    ensures M == (M / P) * P
  {
  }

  /** Distinct multiples of `P` are at least `P` apart, and exactly `P`
      apart only when their quotients are consecutive. */
  lemma MultiplesApart(a: int, b: int, P: nat)
    requires a < b
    ensures a * P + P <= b * P
    ensures b > a + 1 ==> a * P + 2 * P <= b * P
  {
    MulLeMono(a + 1, b, P);
    MulDistrib(a, 1, P);
    if b > a + 1 {
      MulLeMono(a + 2, b, P);
      MulDistrib(a, 2, P);
    }
  }

  lemma NormalBitLen(p: nat, m: nat)
    requires Normal(p, m)
    ensures BitLen(m) == p && m > 0
  {
    BitLenUnique(m, p);
  }

  /** Correct rounding determines its result: whatever computes a value
      meeting `IsRounding` computes the same significand and exponent. */
  lemma IsRoundingUnique(n: nat, L: int, p: nat, d: Dir, r1: Value, r2: Value)
    requires n > 0 && p >= 1
    requires IsRounding(n, L, p, d, r1) && IsRounding(n, L, p, d, r2)
    ensures r1.exp == r2.exp && r1.mant == r2.mant && r1.prec == r2.prec
  {
    var k := BitLen(n);
    if k > p {
      var M1 := r1.mant * Pow2(r1.exp - p - L);
      var M2 := r2.mant * Pow2(r2.exp - p - L);
      RoundsToUnique(n, k - p, d, M1, M2);
      ScaledBitLen(p, r1.mant, r1.exp - p - L);
      ScaledBitLen(p, r2.mant, r2.exp - p - L);
      MulCancel(r1.mant, r2.mant, Pow2(r1.exp - p - L));
    }
  }

  /** Correct rounding does not depend on the unit the exact value is
      written in: n * 2^L and N * 2^(L - j), with N = n * 2^j, round to the
      same result. */
  lemma IsRoundingScale(n: nat, L: int, p: nat, d: Dir, r: Value, j: nat, N: nat)
    requires n > 0 && p >= 1 && IsRounding(n, L, p, d, r) && N == n * Pow2(j)
    ensures N > 0 && IsRounding(N, L - j, p, d, r)
  {
    BitLenScale(n, j);
    if BitLen(n) > p {
      WideParts(n, L, p, d, r);
      WideScale(n, L, p, d, r, j, N);
    } else {
      ExactScale(n, L, p, d, r, j, N);
    }
  }

  lemma WideScale(n: nat, L: int, p: nat, d: Dir, r: Value, j: nat, N: nat)
    requires n > 0 && p >= 1 && BitLen(n) > p && N == n * Pow2(j) && N > 0 && BitLen(N) == BitLen(n) + j
    requires r.Reg? && r.prec == p && Normal(p, r.mant) && r.exp - p - L >= 0
    requires RoundsToUnit(n, Pow2(BitLen(n) - p), d, r.mant * Pow2(r.exp - p - L))
    ensures IsRounding(N, L - j, p, d, r)
  {
    var s: nat := BitLen(n) - p;
    var e: nat := r.exp - p - L;
    ScaleUnits(n, s, d, r.mant, e, j, N);
    WideRounding(N, L - j, p, d, r, s + j, e + j);
  }

  /** The wide case of IsRounding, taken apart. */
  lemma WideParts(n: nat, L: int, p: nat, d: Dir, r: Value)
    requires n > 0 && p >= 1 && BitLen(n) > p && IsRounding(n, L, p, d, r)
    ensures r.Reg? && r.prec == p && Normal(p, r.mant) && r.exp - p - L >= 0
    ensures RoundsToUnit(n, Pow2(BitLen(n) - p), d, r.mant * Pow2(r.exp - p - L))
  {
  }

  /** The wide case of IsRounding, assembled from its parts. */
  lemma WideRounding(N: nat, L: int, p: nat, d: Dir, r: Value, s: nat, e: nat)
    requires N > 0 && p >= 1 && s >= 1 && BitLen(N) == p + s
    requires r.Reg? && r.prec == p && Normal(p, r.mant) && e == r.exp - p - L
    requires RoundsToUnit(N, Pow2(s), d, r.mant * Pow2(e))
    ensures IsRounding(N, L, p, d, r)
  {
  }

  /** Multiplying the value and the candidate by 2^j keeps the rounding. */
  lemma ScaleUnits(n: nat, s: nat, d: Dir, m: nat, e: nat, j: nat, N: nat)
    requires RoundsToUnit(n, Pow2(s), d, m * Pow2(e)) && N == n * Pow2(j)
    ensures RoundsToUnit(N, Pow2(s + j), d, m * Pow2(e + j))
  {
    var M := m * Pow2(e);
    Pow2Add(s, j);
    Pow2Add(e, j);
    MulAssoc(m, Pow2(e), Pow2(j));
    ScaleRounding(n, Pow2(s), d, M, Pow2(j), N, Pow2(s + j), m * Pow2(e + j));
  }

  lemma ScaleRounding(n: nat, P: nat, d: Dir, M: int, c: nat, N: nat, P2: nat, M2: int)
    requires P >= 1 && c >= 1 && RoundsToUnit(n, P, d, M)
    requires N == n * c && P2 == P * c && M2 == M * c
    ensures P2 >= 1 && RoundsToUnit(N, P2, d, M2)
  {
    RoundsToUnitScale(n, P, d, M, c);
  }

  /** A value that fits in p bits stays exact in any finer unit. */
  lemma ExactScale(n: nat, L: int, p: nat, d: Dir, r: Value, j: nat, N: nat)
    requires n > 0 && p >= 1 && BitLen(n) <= p && N == n * Pow2(j) && N > 0 && BitLen(N) == BitLen(n) + j
    requires IsRounding(n, L, p, d, r)
    ensures IsRounding(N, L - j, p, d, r)
  {
    var k := BitLen(n);
    assert r.exp == L + k && r.mant == n * Pow2(p - k);
    if k + j <= p {
      Pow2Add(j, p - k - j);
      MulAssoc(n, Pow2(j), Pow2(p - k - j));
      assert r.mant == N * Pow2(p - (k + j));
    } else {
      var s: nat := k + j - p;
      Pow2Add(p - k, s);
      MulAssoc(n, Pow2(p - k), Pow2(s));
      DivMulExact(r.mant, Pow2(s));
      assert r.mant * Pow2(s) == N;
      assert r.exp - p - (L - j) == s;
      ExactRoundsTo(N, Pow2(s), d);
    }
  }

  /** A multiple of the unit rounds to itself. */
  lemma ExactRoundsTo(n: nat, P: nat, d: Dir)
    requires P >= 1 && n % P == 0
    ensures RoundsToUnit(n, P, d, n)
  {
  }

  /** Multiplying the value, the unit and the chosen multiple by the same
      factor keeps a correct rounding correct. */
  lemma RoundsToUnitScale(n: nat, P: nat, d: Dir, M: int, c: nat)
    requires P >= 1 && c >= 1 && RoundsToUnit(n, P, d, M)
    ensures P * c >= 1 && RoundsToUnit(n * c, P * c, d, M * c)
  {
    UnitMultiple(n, P, d, M);
    MultipleScale(M, P, M / P, c);
    match d
    case Nearest => NearestScale(n, P, M, c);
    case Toward => BelowScale(M, n, M + P, c);
    case Away => BelowScale(M - P, n, M, c);
  }

  /** A correct rounding is a non-negative multiple of the unit. */
  lemma UnitMultiple(n: nat, P: nat, d: Dir, M: int)
    requires P >= 1 && RoundsToUnit(n, P, d, M)
    ensures M >= 0 && M / P >= 0 && M == (M / P) * P
  {
    ExactMultiple(M, P);
    if M / P < 0 {
      assert false;
    }
  }

  /** Scaling a multiple of P by c gives the same multiple of P * c. */
  lemma MultipleScale(M: int, P: nat, q: nat, c: nat)
    requires P >= 1 && c >= 1 && M == q * P
    ensures P * c >= 1 && (M * c) % (P * c) == 0 && (M * c) / (P * c) == q
  {
    MulAtLeast(c, P);
    MulAssoc(q, P, c);
    DivMulExact(q, P * c);
  }

  /** lo <= x < hi (or lo < x <= hi) survives scaling by c >= 1. */
  lemma BelowScale(lo: int, x: int, hi: int, c: nat)
    requires c >= 1 && lo <= hi
    ensures (lo <= x < hi) ==> lo * c <= x * c < hi * c
    ensures (lo < x <= hi) ==> lo * c < x * c <= hi * c
    ensures (lo + (hi - lo)) * c == lo * c + (hi - lo) * c
  {
    MulDistrib(lo, hi - lo, c);
    if lo <= x < hi {
      MulLeMono(lo, x, c);
      MulLeMono(x + 1, hi, c);
      MulDistrib(x, 1, c);
    }
    if lo < x <= hi {
      MulLeMono(x, hi, c);
      MulLeMono(lo + 1, x, c);
      MulDistrib(lo, 1, c);
    }
  }

  lemma NearestScale(n: nat, P: nat, M: int, c: nat)
    requires P >= 1 && c >= 1
    ensures 2 * Dist(n * c, M * c) == (2 * Dist(n, M)) * c
    ensures 2 * Dist(n, M) < P ==> 2 * Dist(n * c, M * c) < P * c
    ensures 2 * Dist(n, M) == P ==> 2 * Dist(n * c, M * c) == P * c
  {
    var D: nat := 2 * Dist(n, M);
    var x: int := n - M;
    assert n * c - M * c == x * c by { MulDistrib(n, -M, c); }
    assert 2 * Dist(n * c, M * c) == D * c by { AbsScale(x, c); }
    if D < P {
      MulLeMono(D + 1, P, c);
      MulDistrib(D, 1, c);
    }
  }

  lemma AbsScale(x: int, c: nat)
    ensures 2 * Abs(x * c) == (2 * Abs(x)) * c
  {
    if x < 0 {
      assert x * c == -((-x) * c);
    }
  }

  lemma ScaledBitLen(p: nat, m: nat, t: nat)
    requires Normal(p, m)
    ensures BitLen(m * Pow2(t)) == p + t
  {
    Pow2Add(p - 1, t);
    Pow2Add(p, t);
    ScaleBetween(Pow2(p - 1), m, Pow2(p), Pow2(t));
    BitLenUnique(m * Pow2(t), p + t);
  }

  /** Scaling by a positive factor keeps `lo <= m < hi`. */
  lemma ScaleBetween(lo: nat, m: nat, hi: nat, c: nat)
    requires lo <= m < hi && c >= 1
    ensures lo * c <= m * c < hi * c
  {
    MulLeMono(lo, m, c);
    MulLeMono(m + 1, hi, c);
    MulDistrib(m, 1, c);
  }

  lemma MulCancel(a: nat, b: nat, c: nat)
    requires c > 0 && a * c == b * c
    ensures a == b
  {
    DivMulExact(a, c);
    DivMulExact(b, c);
  }

  /** Toward zero, rounding is truncation of the low bits. */
  lemma RoundToPrecToward(neg: bool, n: nat, L: int, p: nat, rnd: Rnd)
    requires n > 0 && p >= 1 && DirOf(rnd, neg) == Toward && BitLen(n) > p
    ensures RoundToPrec(neg, n, L, p, rnd) == Reg(neg, L + BitLen(n), p, Shr(n, BitLen(n) - p))
  {
    TowardAt(neg, n, L, p, rnd, BitLen(n));
  }

  lemma TowardAt(neg: bool, n: nat, L: int, p: nat, rnd: Rnd, k: nat)
    requires n > 0 && 1 <= p < k && k == BitLen(n) && DirOf(rnd, neg) == Toward
    ensures RoundToPrec(neg, n, L, p, rnd) == Reg(neg, L + k, p, Shr(n, k - p))
  {
    RoundToPrecAbove(neg, n, L, p, rnd);
    TowardQuotient(n, p, k);
  }

  lemma TowardQuotient(n: nat, p: nat, k: nat)
    requires n > 0 && 1 <= p < k && k == BitLen(n)
    ensures var q := RoundedQuotient(n, k - p, Toward);
            q == Shr(n, k - p) && q < Pow2(p)
  {
    QuotientToward(n, k - p);
    BitLenBounds(n);
    QuotientRange(n, k, p);
  }

  lemma RoundToPrecAbove(neg: bool, n: nat, L: int, p: nat, rnd: Rnd)
    requires n > 0 && p >= 1 && BitLen(n) > p
    ensures var q := RoundedQuotient(n, BitLen(n) - p, DirOf(rnd, neg));
            && Pow2(p - 1) <= q <= Pow2(p)
            && RoundToPrec(neg, n, L, p, rnd) == Carried(neg, L + BitLen(n), p, q)
  {
    QuotientNormal(n, p, RoundedQuotient(n, BitLen(n) - p, DirOf(rnd, neg)));
  }

  /** Toward zero the shared primitive never adds the unit. */
  lemma QuotientToward(n: nat, s: nat)
    ensures RoundedQuotient(n, s, Toward) == n / Pow2(s)
  {
    assert !RoundUp(Toward, false, false, false);
  }

  lemma BitLenShift(n: nat, j: nat)
    requires j < BitLen(n)
    ensures Shr(n, j) > 0
    ensures BitLen(Shr(n, j)) == BitLen(n) - j
  {
    var k := BitLen(n);
    var A, J := Pow2(k - 1 - j), Pow2(j);
    assert Pow2(k - j) == 2 * A by {
      Pow2Split(k - j);
    }
    assert A * J <= n < (2 * A) * J by {
      BitLenBounds(n);
      Pow2Add(k - 1 - j, j);
      Pow2Add(k - j, j);
    }
    DivBetween(n, A, 2 * A, J);
    BitLenUnique(n / J, k - j);
  }

  lemma BitLenScale(n: nat, t: nat)
    requires n > 0
    ensures BitLen(n * Pow2(t)) == BitLen(n) + t
  {
    var k := BitLen(n);
    var T := Pow2(t);
    assert Pow2(k + t - 1) <= n * T < Pow2(k + t) by {
      BitLenBounds(n);
      Pow2Add(k - 1, t);
      Pow2Add(k, t);
      ScaleBetween(Pow2(k - 1), n, Pow2(k), T);
    }
    BitLenUnique(n * T, k + t);
  }

  /** A significand that fits is kept exactly. */
  lemma RoundToPrecExact(neg: bool, n: nat, L: int, p: nat, rnd: Rnd)
    requires n > 0 && p >= 1 && BitLen(n) <= p
    ensures RoundToPrec(neg, n, L, p, rnd) == Reg(neg, L + BitLen(n), p, n * Pow2(p - BitLen(n)))
  {
  }

  /** Dropping bits that lie below the final ulp before a toward-zero
      rounding does not change its result. */
  lemma TowardAfterFloor(neg: bool, n: nat, L: int, p: nat, rnd: Rnd, j: nat)
    requires n > 0 && p >= 1 && DirOf(rnd, neg) == Toward && j + p <= BitLen(n)
    ensures Shr(n, j) > 0
    ensures RoundToPrec(neg, Shr(n, j), L + j, p, rnd) == RoundToPrec(neg, n, L, p, rnd)
  {
    var k := BitLen(n);
    BitLenShift(n, j);
    if j == 0 {
      assert Shr(n, j) == n;
    } else if k - j == p {
      TowardFloorAtUlp(neg, n, L, p, rnd, j);
    } else {
      TowardFloorBelowUlp(neg, n, L, p, rnd, j);
    }
  }

  lemma TowardFloorAtUlp(neg: bool, n: nat, L: int, p: nat, rnd: Rnd, j: nat)
    requires n > 0 && p >= 1 && DirOf(rnd, neg) == Toward && j >= 1 && j + p == BitLen(n)
    requires Shr(n, j) > 0 && BitLen(Shr(n, j)) == p
    ensures RoundToPrec(neg, Shr(n, j), L + j, p, rnd) == RoundToPrec(neg, n, L, p, rnd)
  {
    RoundToPrecToward(neg, n, L, p, rnd);
    RoundToPrecExact(neg, Shr(n, j), L + j, p, rnd);
  }

  lemma TowardFloorBelowUlp(neg: bool, n: nat, L: int, p: nat, rnd: Rnd, j: nat)
    requires n > 0 && p >= 1 && DirOf(rnd, neg) == Toward && j + p < BitLen(n)
    requires Shr(n, j) > 0 && BitLen(Shr(n, j)) == BitLen(n) - j
    ensures RoundToPrec(neg, Shr(n, j), L + j, p, rnd) == RoundToPrec(neg, n, L, p, rnd)
  {
    var k := BitLen(n);
    assert Shr(Shr(n, j), k - j - p) == Shr(n, k - p) by {
      DivDivPow2(n, j, k - j - p);
    }
    RoundToPrecToward(neg, Shr(n, j), L + j, p, rnd);
    RoundToPrecToward(neg, n, L, p, rnd);
  }

  /** The significand of `v` expressed in units of 2^B. */
  function Scaled(v: Value, B: int): nat
    requires v.Reg? && v.exp - v.prec >= B
  {
    v.mant * Pow2(v.exp - v.prec - B)
  }

  /** A valid significand in units of 2^B has as many bits as the value
      has above 2^B. */
  lemma ScaledRange(v: Value, B: int)
    requires v.Reg? && Valid(v) && B <= v.exp - v.prec
    ensures Pow2(v.exp - B - 1) <= Scaled(v, B) < Pow2(v.exp - B)
  {
    ScaledBetween(v.prec, v.mant, v.exp - v.prec - B);
  }

  lemma ScaledBetween(p: nat, m: nat, t: nat)
    requires Normal(p, m)
    ensures Pow2(p + t - 1) <= m * Pow2(t) < Pow2(p + t)
  {
    Pow2Add(p - 1, t);
    Pow2Add(p, t);
    ScaleBetween(Pow2(p - 1), m, Pow2(p), Pow2(t));
  }

  /** Three-way comparison of the magnitudes of two regular values. */
  function CmpMag(a: Value, b: Value): (c: int)
    requires a.Reg? && b.Reg?
    ensures -1 <= c <= 1
  {
    var B := Min(a.exp - a.prec, b.exp - b.prec);
    var x := Scaled(a, B);
    var y := Scaled(b, B);
    if x < y then -1 else if x == y then 0 else 1
  }

  /** Comparing at any finer common unit gives the same answer. */
  lemma CmpMagAnyBase(a: Value, b: Value, B: int)
    requires a.Reg? && b.Reg? && B <= a.exp - a.prec && B <= b.exp - b.prec
    ensures CmpMag(a, b) == (if Scaled(a, B) < Scaled(b, B) then -1
                             else if Scaled(a, B) == Scaled(b, B) then 0 else 1)
  {
    var B0 := Min(a.exp - a.prec, b.exp - b.prec);
    RescaleBy(a, B0, B);
    RescaleBy(b, B0, B);
    CompareScaled(Scaled(a, B0), Scaled(b, B0), Pow2(B0 - B));
  }

  /** Scaling both sides by a positive factor keeps their order. */
  lemma CompareScaled(x: nat, y: nat, c: nat)
    requires c >= 1
    ensures (x * c < y * c) == (x < y) && (x * c == y * c) == (x == y)
  {
    if x < y {
      ScaleBetween(x, x, y, c);
    } else if y < x {
      ScaleBetween(y, y, x, c);
    }
  }

  lemma RescaleBy(v: Value, B0: int, B: int)
    requires v.Reg? && B <= B0 <= v.exp - v.prec
    ensures Scaled(v, B) == Scaled(v, B0) * Pow2(B0 - B)
  {
    Pow2Add(v.exp - v.prec - B0, B0 - B);
    assert v.exp - v.prec - B == (v.exp - v.prec - B0) + (B0 - B);
  }

  /** mpfr_set: `v` rounded to precision `p`; singular values are copied. */
  function Set(v: Value, p: nat, rnd: Rnd): (r: Value)
    requires Valid(v) && p >= 1
    ensures Valid(r)
    ensures !v.Reg? ==> r == v
    ensures v.Reg? ==> r.Reg? && r.neg == v.neg && r.prec == p
  {
    match v
    case Reg(neg, e, q, m) =>
      NormalBitLen(q, m);
      RoundToPrec(neg, m, e - q, p, rnd)
    case _ => v
  }

  /** mpfr_set of a regular number is its correct rounding to p bits. */
  lemma SetRounds(v: Value, p: nat, rnd: Rnd)
    requires Valid(v) && p >= 1 && v.Reg?
    ensures IsRounding(v.mant, v.exp - v.prec, p, DirOf(rnd, v.neg), Set(v, p, rnd))
  {
    NormalBitLen(v.prec, v.mant);
    RoundToPrecCorrect(v.neg, v.mant, v.exp - v.prec, p, rnd);
  }

  /** A regular value in units of 2^B, with its sign. */
  function SignedScaled(v: Value, B: int): int
    requires v.Reg? && v.exp - v.prec >= B
  {
    var s: int := Scaled(v, B);
    if v.neg then -s else s
  }

  /** The ternary value of a rounding: the sign of (rounded - exact),
      positive when the rounded value lies above the exact one and negative
      when it lies below. */
  function Ternary(exact: Value, rounded: Value): (t: int)
    requires exact.Reg? && rounded.Reg? && exact.neg == rounded.neg
    ensures -1 <= t <= 1
    ensures t == 0 <==> CmpMag(rounded, exact) == 0
    ensures var B := Min(exact.exp - exact.prec, rounded.exp - rounded.prec);
            && (t > 0 <==> SignedScaled(rounded, B) > SignedScaled(exact, B))
            && (t < 0 <==> SignedScaled(rounded, B) < SignedScaled(exact, B))
  {
    if exact.neg then -CmpMag(rounded, exact) else CmpMag(rounded, exact)
  }

  /** The direction of the ternary value does not depend on the unit the
      two values are compared in. */
  lemma TernaryAt(exact: Value, rounded: Value, B: int)
    requires exact.Reg? && rounded.Reg? && exact.neg == rounded.neg
    requires B <= exact.exp - exact.prec && B <= rounded.exp - rounded.prec
    ensures Ternary(exact, rounded) > 0 <==> SignedScaled(rounded, B) > SignedScaled(exact, B)
    ensures Ternary(exact, rounded) < 0 <==> SignedScaled(rounded, B) < SignedScaled(exact, B)
  {
    CmpMagAnyBase(rounded, exact, B);
  }

  /** mpfr_set together with its ternary value. */
  function SetTernary(v: Value, p: nat, rnd: Rnd): (t: int)
    requires Valid(v) && p >= 1
    ensures -1 <= t <= 1
    ensures !v.Reg? ==> t == 0
  {
    if v.Reg? then Ternary(v, Set(v, p, rnd)) else 0
  }

  /** A correct rounding toward zero is no larger in magnitude than the
      exact value, and one away from zero no smaller. */
  lemma RoundingSide(v: Value, p: nat, d: Dir, r: Value)
    requires v.Reg? && Valid(v) && p >= 1
    requires IsRounding(v.mant, v.exp - v.prec, p, d, r)
    ensures d == Toward ==> CmpMag(r, v) <= 0
    ensures d == Away ==> CmpMag(r, v) >= 0
  {
    var L := v.exp - v.prec;
    var k := BitLen(v.mant);
    if k <= p {
      CmpMagAnyBase(r, v, r.exp - p);
      assert Scaled(v, r.exp - p) == r.mant;
    } else {
      CmpMagAnyBase(r, v, L);
      assert Scaled(v, L) == v.mant;
    }
  }

  /** The ternary value of mpfr_set points the way the mode rounds:
      never negative under RNDU, never positive under RNDD, and under RNDZ
      zero or of the sign opposite to the value's. */
  lemma SetTernaryDirection(v: Value, p: nat)
    requires Valid(v) && p >= 1
    ensures SetTernary(v, p, RNDU) >= 0
    ensures SetTernary(v, p, RNDD) <= 0
    ensures v.Reg? && v.neg ==> SetTernary(v, p, RNDZ) >= 0
    ensures v.Reg? && !v.neg ==> SetTernary(v, p, RNDZ) <= 0
  {
    if v.Reg? {
      SetRounds(v, p, RNDU);
      RoundingSide(v, p, DirOf(RNDU, v.neg), Set(v, p, RNDU));
      SetRounds(v, p, RNDD);
      RoundingSide(v, p, DirOf(RNDD, v.neg), Set(v, p, RNDD));
      SetRounds(v, p, RNDZ);
      RoundingSide(v, p, Toward, Set(v, p, RNDZ));
    }
  }

  /** The value 1 at precision p: 0.1b * 2^1, as mpfr_set_ui(y, 1, rnd). */
  function One(p: nat): (r: Value)
    requires p >= 1
    ensures Valid(r) && r.Reg? && !r.neg && r.prec == p
    ensures Scaled(r, r.exp - r.prec) == Pow2(r.prec - 1) && r.exp == 1
  {
    Reg(false, 1, p, Pow2(p - 1))
  }
}

=== FILE: outcomes.dfy ===
/** Optional values and fallible results, for the error paths of the
    format-string parser and the printers. */
module Outcomes {

  datatype Option<T> = None | Some(value: T)

  /** Either a value or the reason why none could be produced. */
  datatype Result<T, E> = Ok(value: T) | Fail(error: E)
  {
    predicate IsFailure()
    {
      Fail?
    }
  }
}

=== FILE: print_raw.dfy ===
/** mpfr_get_str_raw and mpfr_print_raw (print_raw.c): the raw binary form
    "[-]0.bbb[bbb]E<exp>" of a number, listing every stored bit of the
    significand limbs with '[' after the last significant one, and the
    reader that takes that form back to the number. */
module PrintRaw {
  import opened Bits
  import opened Floats
  import opened Outcomes
  import opened Text
  import Add

  predicate IsBitChar(c: char)
  {
    c == '0' || c == '1'
  }

  predicate AllBits(s: string)
  {
    forall i :: 0 <= i < |s| ==> IsBitChar(s[i])
  }

  function BitChar(b: nat): (c: char)
    ensures IsBitChar(c)
  {
    if b == 1 then '1' else '0'
  }

  /** Bits n-1 down to 0 of S, most significant first. */
  function BitString(S: nat, n: nat): (s: string)
    ensures |s| == n
  {
    if n == 0 then [] else [BitChar(Bit(S, n - 1))] + BitString(S, n - 1)
  }

  lemma {:induction false} BitStringBits(S: nat, n: nat)
    ensures AllBits(BitString(S, n))
  {
    if n > 0 {
      BitStringBits(S, n - 1);
      var s := BitString(S, n);
      assert forall i :: 1 <= i < n ==> s[i] == BitString(S, n - 1)[i - 1];
    }
  }

  /** The number a string of bit characters spells, most significant
      first. */
  function BitsValue(s: string): nat
  {
    if |s| == 0 then 0 else (if s[0] == '1' then Pow2(|s| - 1) else 0) + BitsValue(s[1..])
  }

  /** The stored significand: sx = 1 + (p-1)/64 limbs with the p bits of
      the significand at the top and zero padding below (print_raw.c:48). */
  function StoredBits(x: Value): (n: nat)
    requires x.Reg? && x.prec >= 1
    ensures n == Add.Limbs(x.prec) * LimbBits
  {
    Add.Limbs(x.prec) * LimbBits
  }

  /** The first `p` characters, then '[', then the rest. */
  function Marked(t: string, p: nat): string
  {
    if |t| < p then t else t[..p] + "[" + t[p..]
  }

  function SignPrefix(neg: bool): string
  {
    if neg then "-0." else "0."
  }

  /** print_raw.c:45-63: the sign, "0.", every stored bit most significant
      first with '[' after the p-th, then "]E" and the exponent in
      decimal. */
  function RawString(x: Value): (s: string)
    requires x.Reg? && x.prec >= 1
  {
    SignPrefix(x.neg) + Marked(BitString(Add.Stored(x.mant, x.prec), StoredBits(x)), x.prec)
      + "]E" + IntToDecimal(x.exp)
  }

  /** mpfr_get_str_raw.  The two limb loops of print_raw.c:49-62 visit the
      bit positions 64*k + l from the top of the stored significand down;
      here they are one loop over that position. */
  method GetStrRaw(x: Value) returns (s: string)
    requires x.Reg? && x.prec >= 1
    ensures s == RawString(x)
  {
    var S := Add.Stored(x.mant, x.prec);
    var n := StoredBits(x);
    var p: int := x.prec;
    s := SignPrefix(x.neg);
    ghost var head := s;
    var j := n;
    while j > 0
      invariant 0 <= j <= n
      invariant RawInv(s, head, S, n, j, p, x.prec)
    {
      RawStep(s, head, S, n, j, p, x.prec);
      j := j - 1;
      s := s + [BitChar(Bit(S, j))];
      p := p - 1;
      if p == 0 {
        s := s + "[";
      }
    }
    RawDone(s, head, S, n, p, x);
    s := s + "]E" + IntToDecimal(x.exp);
  }

  /** After the bits from the top of the n stored ones down to position j:
      p counts down the significant bits still to come, and s holds the
      visited bits with '[' after the P-th. */
  ghost predicate RawInv(s: string, head: string, S: nat, n: nat, j: nat, p: int, P: nat)
  {
    j <= n && p == P - (n - j) && s == head + Marked(BitString(S, n)[..n - j], P)
  }

  lemma RawStep(s: string, head: string, S: nat, n: nat, j: nat, p: int, P: nat)
    requires 0 < j && P >= 1 && RawInv(s, head, S, n, j, p, P)
    ensures p - 1 == 0 ==> RawInv(s + [BitChar(Bit(S, j - 1))] + "[", head, S, n, j - 1, p - 1, P)
    ensures p - 1 != 0 ==> RawInv(s + [BitChar(Bit(S, j - 1))], head, S, n, j - 1, p - 1, P)
  {
    var B := BitString(S, n);
    var i := n - j;
    var c := BitChar(Bit(S, j - 1));
    BitStringAt(S, n, i);
    var t := B[..i];
    assert B[..i + 1] == t + [c];
    MarkedSnoc(t, P, c);
    if p - 1 == 0 {
      assert s + [c] + "[" == head + (Marked(t, P) + [c] + "[");
    } else {
      assert s + [c] == head + (Marked(t, P) + [c]);
    }
  }

  lemma RawDone(s: string, head: string, S: nat, n: nat, p: int, x: Value)
    requires x.Reg? && x.prec >= 1 && head == SignPrefix(x.neg)
    requires S == Add.Stored(x.mant, x.prec) && n == StoredBits(x)
    requires RawInv(s, head, S, n, 0, p, x.prec)
    ensures s + "]E" + IntToDecimal(x.exp) == RawString(x)
  {
    var B := BitString(S, n);
    assert B[..n] == B;
  }

  lemma {:induction false} BitStringAt(S: nat, n: nat, i: nat)
    requires i < n
    ensures BitString(S, n)[i] == BitChar(Bit(S, n - 1 - i))
  {
    if i > 0 {
      BitStringAt(S, n - 1, i - 1);
    }
  }

  /** Appending one character to the marked string puts '[' after it
      exactly when it is the p-th. */
  lemma MarkedSnoc(t: string, p: nat, c: char)
    requires p >= 1
    ensures |t| + 1 == p ==> Marked(t + [c], p) == Marked(t, p) + [c] + "["
    ensures |t| + 1 != p ==> Marked(t + [c], p) == Marked(t, p) + [c]
  {
    var u := t + [c];
    if |t| >= p {
      assert u[..p] == t[..p];
      assert u[p..] == t[p..] + [c];
    } else if |t| + 1 == p {
      assert u[..p] == u;
      assert u[p..] == [];
    }
  }

  /** mpfr_print_raw (print_raw.c:76-80): NaN, the infinities and zero get
      fixed spellings; everything else goes through mpfr_get_str_raw. */
  method PrintRaw(x: Value) returns (s: string)
    requires Valid(x)
    ensures x.NaN? ==> s == "NaN"
    ensures x.Inf? ==> s == (if x.neg then "-Inf" else "Inf")
    ensures x.Zero? ==> s == "0"
    ensures x.Reg? ==> s == RawString(x)
  {
    match x
    case NaN => s := "NaN";
    case Inf(neg) => s := if neg then "-Inf" else "Inf";
    case Zero(_) => s := "0";
    case Reg(_, _, _, _) => s := GetStrRaw(x);
  }

  /** The shape of the raw form, position by position: '-' first exactly
      for negative numbers, then "0.", then sx*64 bit characters with '['
      after the p-th, then "]E" and the decimal exponent. */
  lemma RawShape(x: Value)
    requires x.Reg? && x.prec >= 1
    ensures var s := RawString(x);
            var h := |SignPrefix(x.neg)|;
            var n := StoredBits(x);
            && |s| == h + n + 3 + |IntToDecimal(x.exp)|
            && (s[0] == '-' <==> x.neg)
            && s[h - 2..h] == "0."
            && s[h + x.prec] == '['
            && (forall i :: h <= i < h + n + 1 && i != h + x.prec ==> IsBitChar(s[i]))
            && s[h + n + 1..h + n + 3] == "]E"
            && s[h + n + 3..] == IntToDecimal(x.exp)
  {
    var B := BitString(Add.Stored(x.mant, x.prec), StoredBits(x));
    BitStringBits(Add.Stored(x.mant, x.prec), StoredBits(x));
    var h := |SignPrefix(x.neg)|;
    var M := Marked(B, x.prec);
    assert M == B[..x.prec] + "[" + B[x.prec..];
    var s := RawString(x);
    assert s == SignPrefix(x.neg) + M + "]E" + IntToDecimal(x.exp);
    forall i | h <= i < h + |M| && i != h + x.prec
      ensures IsBitChar(s[i])
    {
      assert s[i] == M[i - h];
      if i < h + x.prec {
        assert M[i - h] == B[i - h];
      } else {
        assert M[i - h] == B[i - h - 1];
      }
    }
  }

  /** Length of the run of bit characters at the start of s. */
  function LeadingBits(s: string): (k: nat)
    ensures k <= |s| && AllBits(s[..k])
    ensures k < |s| ==> !IsBitChar(s[k])
  {
    if |s| == 0 || !IsBitChar(s[0]) then 0
    else
      var k := 1 + LeadingBits(s[1..]);
      assert s[..k] == [s[0]] + s[1..][..k - 1];
      k
  }

  lemma {:induction false} LeadingBitsOf(b: string, rest: string)
    requires AllBits(b) && (|rest| == 0 || !IsBitChar(rest[0]))
    ensures LeadingBits(b + rest) == |b|
  {
    if |b| > 0 {
      assert (b + rest)[1..] == b[1..] + rest;
      LeadingBitsOf(b[1..], rest);
    }
  }

  /** Reads an optionally negative decimal exponent. */
  function ReadExponent(s: string): Option<int>
  {
    if |s| >= 1 && AllDigits(if s[0] == '-' || s[0] == '+' then s[1..] else s) then Some(ParseSigned(s))
    else None
  }

  /** Reads "<bits>]E<exponent>": the bits and the exponent. */
  function ReadTail(v: string): Option<(string, int)>
  {
    var q := LeadingBits(v);
    if q + 2 > |v| || v[q..q + 2] != "]E" then None
    else
      match ReadExponent(v[q + 2..])
      case None => None
      case Some(e) => Some((v[..q], e))
  }

  /** Reads "<bits>[<bits>]E<exponent>": the bits before '[', the bits
      after it and the exponent. */
  function ReadBody(u: string): Option<(string, string, int)>
  {
    var p := LeadingBits(u);
    if p == 0 || p == |u| || u[p] != '[' then None
    else
      match ReadTail(u[p + 1..])
      case None => None
      case Some((lo, e)) => Some((u[..p], lo, e))
  }

  /** The regular form "[-]0.<body>". */
  function ReadNumber(s: string): (r: Option<Value>)
    ensures r.Some? ==> r.value.Reg? && r.value.prec >= 1
  {
    var neg := |s| >= 1 && s[0] == '-';
    var t := if neg then s[1..] else s;
    if |t| < 2 || t[..2] != "0." then None
    else
      match ReadBody(t[2..])
      case None => None
      case Some((hi, lo, e)) => Some(Reg(neg, e, |hi|, Shr(BitsValue(hi + lo), |lo|)))
  }

  /** Reads the raw form back: the fixed spellings, or the sign, then the
      bits before '[' give the precision, all the bits give the stored
      significand, and dropping the padding bits after '[' gives the
      significand.  Zero reads back as +0, since "0" carries no sign. */
  function ReadRaw(s: string): (r: Option<Value>)
    ensures r.Some? && r.value.Reg? ==> r.value.prec >= 1
  {
    if s == "NaN" then Some(NaN)
    else if s == "Inf" then Some(Inf(false))
    else if s == "-Inf" then Some(Inf(true))
    else if s == "0" then Some(Zero(false))
    else ReadNumber(s)
  }

  lemma ReadTailOf(lo: string, E: string, e: int)
    requires AllBits(lo) && E == IntToDecimal(e)
    ensures ReadTail(lo + "]E" + E) == Some((lo, e))
  {
    var v := lo + "]E" + E;
    assert v == lo + ("]E" + E);
    LeadingBitsOf(lo, "]E" + E);
    assert v[|lo|..|lo| + 2] == "]E";
    assert v[|lo| + 2..] == E;
    assert v[..|lo|] == lo;
    ReadExponentOf(e);
  }

  lemma ReadBodyOf(hi: string, lo: string, E: string, e: int)
    requires |hi| >= 1 && AllBits(hi) && AllBits(lo) && E == IntToDecimal(e)
    ensures ReadBody(hi + "[" + lo + "]E" + E) == Some((hi, lo, e))
  {
    var tail := lo + "]E" + E;
    var u := hi + "[" + lo + "]E" + E;
    assert u == hi + ("[" + tail);
    LeadingBitsOf(hi, "[" + tail);
    assert u[|hi|] == '[' && u[|hi| + 1..] == tail && u[..|hi|] == hi;
    ReadTailOf(lo, E, e);
  }

  /** "%ld" of e reads back as e. */
  lemma ReadExponentOf(e: int)
    ensures ReadExponent(IntToDecimal(e)) == Some(e)
  {
    IntToDecimalRoundTrip(e);
  }

  lemma ReadNumberOf(neg: bool, body: string)
    ensures ReadNumber(SignPrefix(neg) + body) ==
            match ReadBody(body)
            case None => None
            case Some((hi, lo, e)) => Some(Reg(neg, e, |hi|, Shr(BitsValue(hi + lo), |lo|)))
  {
    var s := SignPrefix(neg) + body;
    var t := "0." + body;
    if neg {
      assert s == "-" + t && s[1..] == t;
    } else {
      assert s == t;
    }
    assert t[..2] == "0." && t[2..] == body;
  }

  /** A regular form is none of the fixed spellings. */
  lemma NotSingular(neg: bool, body: string)
    ensures ReadRaw(SignPrefix(neg) + body) == ReadNumber(SignPrefix(neg) + body)
  {
    var s := SignPrefix(neg) + body;
    var c := if neg then '0' else '.';
    assert |s| >= 2 && s[1] == c;
    assert "NaN"[1] != c && "Inf"[1] != c && "-Inf"[1] != c && |"0"| < 2;
  }

  lemma ReadRawOf(neg: bool, hi: string, lo: string, E: string, e: int)
    requires |hi| >= 1 && AllBits(hi) && AllBits(lo) && E == IntToDecimal(e)
    ensures ReadRaw(SignPrefix(neg) + (hi + "[" + lo + "]E" + E))
            == Some(Reg(neg, e, |hi|, Shr(BitsValue(hi + lo), |lo|)))
  {
    var body := hi + "[" + lo + "]E" + E;
    NotSingular(neg, body);
    ReadNumberOf(neg, body);
    ReadBodyOf(hi, lo, E, e);
  }

  /** The bit string of S spells S mod 2^n. */
  lemma {:induction false} BitsValueOf(S: nat, n: nat)
    ensures BitsValue(BitString(S, n)) == S % Pow2(n)
  {
    if n > 0 {
      var s := BitString(S, n);
      var b := Bit(S, n - 1);
      assert s[1..] == BitString(S, n - 1);
      BitsValueOf(S, n - 1);
      ModSplit(S, n - 1);
      assert b == 0 || b == 1;
      assert (if s[0] == '1' then Pow2(n - 1) else 0) == b * Pow2(n - 1);
    }
  }

  /** S mod 2^(k+1) is bit k of S above S mod 2^k. */
  lemma ModSplit(S: nat, k: nat)
    ensures S % Pow2(k + 1) == Bit(S, k) * Pow2(k) + S % Pow2(k)
  {
    var P := Pow2(k);
    assert Pow2(k + 1) == 2 * P;
    var q := S / P;
    var r := S % P;
    assert S == q * P + r;
    assert q == 2 * (q / 2) + q % 2;
    assert S == (q / 2) * (2 * P) + ((q % 2) * P + r);
    assert (q % 2) * P + r < 2 * P by {
      MulLeMono(q % 2, 1, P);
    }
    DivModUnique(S, 2 * P, q / 2, (q % 2) * P + r);
  }

  /** The stored bits of a normal significand, with the padding dropped,
      give back the significand. */
  lemma StoredRoundTrip(m: nat, p: nat, B: string)
    requires Normal(p, m)
    requires B == BitString(Add.Stored(m, p), Add.Limbs(p) * LimbBits)
    ensures |B| == p + Add.Padding(p)
    ensures Shr(BitsValue(B[..p] + B[p..]), |B[p..]|) == m
  {
    var sh := Add.Padding(p);
    var S := Add.Stored(m, p);
    var n := p + sh;
    Pow2Add(p, sh);
    var P := Pow2(sh);
    assert S == m * P;
    assert S < Pow2(n) by {
      MulLeMono(m + 1, Pow2(p), P);
      MulDistrib(m, 1, P);
    }
    assert B[..p] + B[p..] == B;
    BitsValueOf(S, n);
    DivModUnique(S, Pow2(n), 0, S);
    MulDivCancel(m, Pow2(sh), 1);
  }

  /** print_raw.c:45-63 against the reader: the raw form of every regular
      number reads back as that number. */
  lemma RawRoundTrip(x: Value)
    requires x.Reg? && Valid(x)
    ensures ReadRaw(RawString(x)) == Some(x)
  {
    var p := x.prec;
    var B := BitString(Add.Stored(x.mant, p), StoredBits(x));
    var E := IntToDecimal(x.exp);
    StoredRoundTrip(x.mant, p, B);
    BitStringBits(Add.Stored(x.mant, p), StoredBits(x));
    assert AllBits(B[..p]) && AllBits(B[p..]);
    assert RawString(x) == SignPrefix(x.neg) + (B[..p] + "[" + B[p..] + "]E" + E);
    ReadRawOf(x.neg, B[..p], B[p..], E, x.exp);
  }
}

=== FILE: printf_hex.dfy ===
/** The one hexadecimal digit that "%.0Ra" prints for a regular number
    (regular_ab, vasprintf.c:619-698), and the exponent that follows it
    (vasprintf.c:766-796).  A regular x is printed as d * 2^e with d
    the value's first hexadecimal digit rounded to 4 bits, so that d is
    in [8, 15] when x has at least 4 bits. */
module PrintfHex {
  import opened Bits
  import opened Floats
  import opened Text

  /** The digit and the radix-2 exponent printed after it. */
  datatype HexLead = HexLead(digit: nat, exp: int)

  /** The top 4 bits of a significand of p bits: the significand itself,
      shifted up, when p < 4. */
  function TopDigit(m: nat, p: nat): nat
  {
    if p <= 4 then m * Pow2(4 - p) else Shr(m, p - 4)
  }

  /** The increment of the digit, with the carry into a fifth bit turned
      into one more in the exponent (vasprintf.c:677-688). */
  function Bump(d: nat, e: int, away: bool): HexLead
  {
    if !away then HexLead(d, e)
    else if d + 1 > 15 then HexLead((d + 1) / 2, e + 1)
    else HexLead(d + 1, e)
  }

  /** regular_ab's digit as written.  Directed modes decide the direction
      by the sign alone and add one even when the discarded bits are all
      zero; to nearest, the round bit is looked at first, and then the
      sticky scan masks MPFR_LIMB_MASK(shift) of the top limb, whose top
      bit is the round bit itself, so the tie case is never reached. */
  function HexLeadAsWritten(x: Value, rnd: Rnd): HexLead
    requires x.Reg? && Valid(x)
  {
    var p := x.prec;
    var d := TopDigit(x.mant, p);
    var e := x.exp - 4;
    if p <= 4 then HexLead(d, e)
    else
      var u := p - 4;
      var rem := x.mant % Pow2(u);
      var rb := rem >= Pow2(u - 1);
      var stickyScan := rem != 0;
      var away := match rnd
                  case RNDD => x.neg
                  case RNDU => !x.neg
                  case RNDZ => false
                  case RNDN => rb && (stickyScan || d % 2 == 1);
      Bump(d, e, away)
  }

  /** The digit with the round bit and the bits below it separated, and
      directed rounding away from zero only when something was dropped:
      the shared rounding primitive of the library. */
  function HexLeadOf(x: Value, rnd: Rnd): HexLead
    requires x.Reg? && Valid(x)
  {
    var p := x.prec;
    var d := TopDigit(x.mant, p);
    var e := x.exp - 4;
    if p <= 4 then HexLead(d, e)
    else
      var u := p - 4;
      var rem := x.mant % Pow2(u);
      var h := Pow2(u - 1);
      Bump(d, e, RoundUp(DirOf(rnd, x.neg), d % 2 == 1, rem >= h, rem % h != 0))
  }

  /** The corrected digit is x rounded to 4 bits in the direction its mode
      selects: d * 2^e is RoundToPrec's 4-bit result, so it is a correct
      rounding of x (RoundToPrecCorrect), and d is a 4-bit digit with its
      top bit set. */
  lemma HexLeadRounds(x: Value, rnd: Rnd)
    requires x.Reg? && Valid(x)
    ensures var r := RoundToPrec(x.neg, x.mant, x.exp - x.prec, 4, rnd);
            HexLeadOf(x, rnd) == HexLead(r.mant, r.exp - 4)
    ensures 8 <= HexLeadOf(x, rnd).digit <= 15
  {
    var p := x.prec;
    var m := x.mant;
    NormalBitLen(p, m);
    var r := RoundToPrec(x.neg, m, x.exp - p, 4, rnd);
    if p > 4 {
      var u := p - 4;
      var d := Shr(m, u);
      var dir := DirOf(rnd, x.neg);
      var up := RoundUp(dir, d % 2 == 1, m % Pow2(u) >= Pow2(u - 1), (m % Pow2(u)) % Pow2(u - 1) != 0);
      assert HexLeadOf(x, rnd) == Bump(d, x.exp - 4, up);
      QuotientStep(m, u, dir);
      DigitRange(m, p);
      assert r == Carried(x.neg, x.exp, 4, if up then d + 1 else d);
      BumpCarried(x.neg, x.exp, d, up);
    } else {
      assert r == Reg(x.neg, x.exp, 4, m * Pow2(4 - p));
      assert HexLeadOf(x, rnd) == HexLead(m * Pow2(4 - p), x.exp - 4);
      ScaledDigit(m, p);
    }
  }

  /** The shared rounding of m / 2^u in the terms regular_ab uses. */
  lemma QuotientStep(m: nat, u: nat, dir: Dir)
    requires u >= 1
    ensures var d := Shr(m, u);
            var rem := m % Pow2(u);
            RoundedQuotient(m, u, dir)
              == if RoundUp(dir, d % 2 == 1, rem >= Pow2(u - 1), rem % Pow2(u - 1) != 0) then d + 1 else d
  {
    Pow2Split(u);
    assert HalfUnit(u) == Pow2(u - 1);
  }

  /** The top 4 bits of a significand of more than 4 bits. */
  lemma DigitRange(m: nat, p: nat)
    requires p > 4 && Normal(p, m)
    ensures 8 <= Shr(m, p - 4) <= 15
  {
    var u := p - 4;
    Pow2Add(3, u);
    Pow2Add(4, u);
    assert Pow2(3) == 8 && Pow2(4) == 16;
    assert p - 1 == 3 + u;
    DivBetween(m, 8, 16, Pow2(u));
  }

  /** Carried's carry into a fifth bit is Bump's halving. */
  lemma BumpCarried(neg: bool, E: int, d: nat, up: bool)
    requires 8 <= d <= 15
    ensures var q := if up then d + 1 else d;
            Pow2(3) <= q <= Pow2(4) &&
            var r := Carried(neg, E, 4, q);
            Bump(d, E - 4, up) == HexLead(r.mant, r.exp - 4)
  {
    assert Pow2(3) == 8 && Pow2(4) == 16;
  }

  /** A significand of p <= 4 bits shifted up to 4 bits has its top bit
      set. */
  lemma ScaledDigit(m: nat, p: nat)
    requires 1 <= p <= 4 && Normal(p, m)
    ensures 8 <= m * Pow2(4 - p) <= 15
  {
    Pow2Add(p - 1, 4 - p);
    Pow2Add(p, 4 - p);
    MulLeMono(Pow2(p - 1), m, Pow2(4 - p));
    MulLeMono(m + 1, Pow2(p), Pow2(4 - p));
    MulDistrib(m, 1, Pow2(4 - p));
    assert Pow2(3) == 8 && Pow2(4) == 16;
  }

  /** Both definitions agree whenever the rounding is not one of the two
      cases they disagree on. */
  lemma HexLeadAgrees(x: Value, rnd: Rnd)
    requires x.Reg? && Valid(x)
    requires x.prec > 4
    requires var u := x.prec - 4;
             var rem := x.mant % Pow2(u);
             rem % Pow2(u - 1) != 0 || (rem == 0 && DirOf(rnd, x.neg) != Away)
    ensures HexLeadAsWritten(x, rnd) == HexLeadOf(x, rnd)
  {
  }

  /** A tie to nearest: 17/16, which is 0x11p-4, lies halfway between
      0x8p-3 and 0x9p-3.  As written the digit is 9; ties to even give 8. */
  lemma HexTieAsWritten()
    ensures HexLeadAsWritten(Reg(false, 1, 5, 17), RNDN) == HexLead(9, -3)
    ensures HexLeadOf(Reg(false, 1, 5, 17), RNDN) == HexLead(8, -3)
  {
    assert Pow2(1) == 2 && Pow2(0) == 1 && Pow2(4) == 16;
    assert Shr(17, 1) == 8;
  }

  /** An exact value rounded upward: 1 at precision 8 is exactly 0x8p-3.
      As written the digit is 9, printing 1.125. */
  lemma HexExactAsWritten()
    ensures HexLeadAsWritten(Reg(false, 1, 8, 128), RNDU) == HexLead(9, -3)
    ensures HexLeadOf(Reg(false, 1, 8, 128), RNDU) == HexLead(8, -3)
  {
    assert Pow2(4) == 16 && Pow2(3) == 8 && Pow2(7) == 128 && Pow2(8) == 256;
    assert Shr(128, 4) == 8;
  }

  // ---------------------------------------------------------------- the exponent

  /** The exponent part: 'p' or 'P', then the exponent as "%+.1ld". */
  function ExpText(e: int, upper: bool): string
  {
    [if upper then 'P' else 'p'] + SignedDecimal(e)
  }

  /** The size regular_ab reserves for the exponent part
      (vasprintf.c:774-784): 3 for the letter, the sign and one digit,
      and one more for each further decimal digit of |e|.  It is the
      length of the text that sprintf writes. */
  method ExpSize(e: int) returns (size: nat)
    ensures size == |ExpText(e, false)| && size == |ExpText(e, true)|
  {
    var x: nat := Abs(e);
    size := 3;
    while x > 9
      invariant size + |NatToDecimal(x)| == 3 + |NatToDecimal(Abs(e))|
      decreases x
    {
      assert |NatToDecimal(x)| == |NatToDecimal(x / 10)| + 1;
      size := size + 1;
      x := x / 10;
    }
  }
}

=== FILE: printf_layout.dfy ===
/** How mpfr_vasprintf lays out one floating-point conversion
    (vasprintf.c): partition_number splits the output into parts and
    totals their sizes, and sprnt_fp writes the parts in order with the
    padding the flags ask for. */
module PrintfLayout {
  import opened Bits
  import opened Floats
  import opened Outcomes
  import opened PrintfParse
  import opened PrintfHex
  import opened Text

  /** enum pad_t: where the padding characters go. */
  datatype PadType = PadLeft | LeadingZeros | PadRight

  /** struct number_parts, each pointer and size replaced by the string
      it designates; '\0' marks an absent sign or decimal point. */
  datatype Parts = Parts(padType: PadType, padSize: nat, sign: char, prefix: string, ip: string,
                         ipTrailingZeros: nat, point: char, fpLeadingZeros: nat, fp: string,
                         fpTrailingZeros: nat, exp: string)

  /** MPFR_DECIMAL_POINT in the "C" locale. */
  const DecimalPoint: char := '.'

  /** Left adjustment pads on the right; otherwise the '0' flag pads
      with leading zeros and the default pads with spaces on the left
      (vasprintf.c:1271). */
  function PadTypeOf(f: FlagSet): PadType
  {
    if f.left then PadRight else if f.pad == '0' then LeadingZeros else PadLeft
  }

  /** The parts before partition_number fills any in (vasprintf.c:1271-1291). */
  function NoParts(sp: Spec): Parts
  {
    Parts(PadTypeOf(sp.flags), 0, '\0', "", "", 0, '\0', 0, "", 0, "")
  }

  predicate Upper(conv: char)
  {
    conv == 'A' || conv == 'E' || conv == 'F' || conv == 'G'
  }

  predicate HexConv(conv: char)
  {
    conv == 'a' || conv == 'A'
  }

  /** The sign of a zero or regular number: '-' when negative, else '+'
      for the '+' flag, else ' ' for the space flag, else none. */
  function SignChar(neg: bool, f: FlagSet): char
  {
    if neg then '-' else if f.showsign then '+' else if f.space then ' ' else '\0'
  }

  /** "0x" or "0X". */
  function HexPrefix(upper: bool): string
  {
    ['0', if upper then 'X' else 'x']
  }

  /** The parts of NaN, an infinity or a zero (vasprintf.c:1296-1376).
      NaN and infinities never get leading zeros; an infinity is signed
      only when negative; a zero is written "0", with a point and
      `prec` zeros after it when the precision is positive, and with the
      exponent "e+00" or "p+0" of its conversion. */
  function SingularParts(x: Value, sp: Spec): (np: Parts)
    requires !x.Reg?
    ensures np.padSize == 0
    ensures (x.NaN? || x.Inf?) ==> np.padType != LeadingZeros
  {
    var np0 := NoParts(sp);
    var up := Upper(sp.conv);
    var noZeros := if np0.padType == LeadingZeros then PadLeft else np0.padType;
    if x.NaN? then
      np0.(padType := noZeros, ip := if up then "NAN" else "nan")
    else if x.Inf? then
      np0.(padType := noZeros, sign := if x.neg then '-' else '\0', ip := if up then "INF" else "inf")
    else
      np0.(sign := SignChar(x.neg, sp.flags),
           prefix := if HexConv(sp.conv) then HexPrefix(up) else "",
           ip := "0",
           point := if sp.prec > 0 || sp.flags.alt then DecimalPoint else '\0',
           fpTrailingZeros := if sp.prec > 0 then sp.prec else 0,
           exp := if sp.conv == 'e' || sp.conv == 'E' then (if up then "E+00" else "e+00")
                  else if HexConv(sp.conv) || sp.conv == 'b' then (if up then "P+0" else "p+0")
                  else "")
  }

  /** num_to_text, upper-cased for "%A". */
  function HexChar(d: nat, upper: bool): char
    requires d < 16
  {
    if upper then "0123456789ABCDEF"[d] else "0123456789abcdef"[d]
  }

  /** The parts of "%.0Ra" and "%.0RA" for a regular number
      (vasprintf.c:568-585, 619-698, 766-797): sign, "0x", one digit
      rounded to 4 bits, a point only for the '#' flag, then the
      exponent. */
  function HexParts(x: Value, sp: Spec): (np: Parts)
    requires x.Reg? && Valid(x) && sp.prec == 0 && HexConv(sp.conv)
    ensures np.padSize == 0 && np.padType == PadTypeOf(sp.flags)
    ensures np.sign == SignChar(x.neg, sp.flags) && np.prefix == HexPrefix(sp.conv == 'A')
    ensures var r := RoundToPrec(x.neg, x.mant, x.exp - x.prec, 4, sp.rnd);
            && 8 <= r.mant < 16
            && np.ip == [HexChar(r.mant, sp.conv == 'A')]
            && np.exp == ExpText(r.exp - 4, sp.conv == 'A')
    ensures np.ipTrailingZeros == 0 && np.fpLeadingZeros == 0 && np.fp == [] && np.fpTrailingZeros == 0
    ensures np.point != '\0' <==> sp.flags.alt
  {
    var up := sp.conv == 'A';
    var lead := HexLeadOf(x, sp.rnd);
    HexLeadRounds(x, sp.rnd);
    NoParts(sp).(sign := SignChar(x.neg, sp.flags), prefix := HexPrefix(up),
                 ip := [HexChar(lead.digit, up)],
                 point := if sp.flags.alt then DecimalPoint else '\0',
                 exp := ExpText(lead.exp, up))
  }

  /** The parts partition_number builds (vasprintf.c:1292-1510).  The
      regular cases other than the one-digit hexadecimal one come from
      `others`, which stands for mpfr_get_str through regular_ab,
      regular_fg and regular_eg; None is their error return. */
  function NumberParts(x: Value, sp: Spec, others: (Value, Spec) -> Option<Parts>): (r: Option<Parts>)
    requires Valid(x)
    ensures r.None? <==> x.Reg? && !(HexConv(sp.conv) && sp.prec == 0) && others(x, sp).None?
    ensures r.Some? ==> r.value.padSize == 0
    ensures r.Some? && x.Reg? ==> r.value.padType == PadTypeOf(sp.flags)
    ensures r.Some? && (x.NaN? || x.Inf?) ==> r.value.padType != LeadingZeros
  {
    if !x.Reg? then Some(SingularParts(x, sp))
    else if HexConv(sp.conv) && sp.prec == 0 then Some(HexParts(x, sp))
    else
      match others(x, sp)
      case None => None
      case Some(np) => Some(np.(padType := PadTypeOf(sp.flags), padSize := 0))
  }

  // ---------------------------------------------------------------- the total

  function Present(c: char): nat
  {
    if c == '\0' then 0 else 1
  }

  /** The number of characters the parts take, padding aside. */
  function PartsLength(np: Parts): nat
  {
    Present(np.sign) + |np.prefix| + |np.ip| + np.ipTrailingZeros + Present(np.point)
      + np.fpLeadingZeros + |np.fp| + np.fpTrailingZeros + |np.exp|
  }

  /** The running total of vasprintf.c:1513-1533, checked against INT_MAX
      after each group of parts: -1 as soon as one partial sum is too
      large.  The parts being non-negative, that is when the whole sum
      is. */
  function CheckedTotal(np: Parts): (t: int)
    ensures t == -1 <==> PartsLength(np) > IntMax
    ensures t != -1 ==> t == PartsLength(np)
  {
    var t1 := Present(np.sign) + |np.prefix| + |np.ip|;
    if t1 > IntMax then -1 else
    var t2 := t1 + np.ipTrailingZeros;
    if t2 > IntMax then -1 else
    var t3 := t2 + Present(np.point) + np.fpLeadingZeros;
    if t3 > IntMax then -1 else
    var t4 := t3 + |np.fp|;
    if t4 > IntMax then -1 else
    var t5 := t4 + np.fpTrailingZeros;
    if t5 > IntMax then -1 else
    var t6 := t5 + |np.exp|;
    if t6 > IntMax then -1 else t6
  }

  /** The end of partition_number (vasprintf.c:1513-1543): the checked
      total, then padding up to the field width.  Returns the number of
      characters sprnt_fp writes, or -1, and the parts with the padding
      size set. */
  function Partition(np: Parts, width: int): (r: (int, Parts))
    requires np.padSize == 0
    ensures r.0 == -1 <==> PartsLength(np) > IntMax
    ensures r.0 != -1 ==> r.0 == Max(width, PartsLength(np)) && r.1 == np.(padSize := r.0 - PartsLength(np))
  {
    var t := CheckedTotal(np);
    if t == -1 then (-1, np)
    else if width > t then (width, np.(padSize := width - t))
    else (t, np)
  }

  // ---------------------------------------------------------------- writing the parts

  function Rep(c: char, n: nat): (s: string)
    ensures |s| == n && forall i :: 0 <= i < n ==> s[i] == c
  {
    seq(n, _ => c)
  }

  function OptChar(c: char): string
  {
    if c == '\0' then "" else [c]
  }

  /** sprnt_fp (vasprintf.c:1569-1615): left spaces, sign, prefix, leading
      zeros, integral digits and their trailing zeros, point, fraction
      leading zeros, fraction digits and trailing zeros, exponent, right
      spaces. */
  function Render(np: Parts): string
  {
    (if np.padType == PadLeft then Rep(' ', np.padSize) else "")
      + OptChar(np.sign) + np.prefix
      + (if np.padType == LeadingZeros then Rep('0', np.padSize) else "")
      + Body(np)
      + (if np.padType == PadRight then Rep(' ', np.padSize) else "")
  }

  /** The parts from the integral digits to the exponent. */
  function Body(np: Parts): string
  {
    np.ip + Rep('0', np.ipTrailingZeros) + OptChar(np.point) + Rep('0', np.fpLeadingZeros)
      + np.fp + Rep('0', np.fpTrailingZeros) + np.exp
  }

  /** sprnt_fp writes exactly the number of characters partition_number
      counted. */
  lemma RenderLength(np: Parts)
    ensures |Render(np)| == PartsLength(np) + np.padSize
  {
  }

  /** Where the padding goes: all of it on one side of the unpadded text,
      or, for leading zeros, between the sign and prefix and the
      digits. */
  lemma RenderPadding(np: Parts)
    ensures var plain := Render(np.(padSize := 0));
            var head := OptChar(np.sign) + np.prefix;
            && plain == head + Body(np)
            && (np.padType == PadLeft ==> Render(np) == Rep(' ', np.padSize) + plain)
            && (np.padType == PadRight ==> Render(np) == plain + Rep(' ', np.padSize))
            && (np.padType == LeadingZeros ==> Render(np) == head + Rep('0', np.padSize) + Body(np))
  {
    assert Rep(' ', 0) == [] && Rep('0', 0) == [];
  }

  /** mpfr_vasprintf's output for one floating-point conversion: None
      when partition_number returns -1. */
  function SprntFp(x: Value, sp: Spec, others: (Value, Spec) -> Option<Parts>): (r: Option<string>)
    requires Valid(x) && sp.width <= IntMax
    ensures r.Some? ==> sp.width <= |r.value| <= IntMax
  {
    match NumberParts(x, sp, others)
    case None => None
    case Some(np) =>
      var (t, np') := Partition(np, sp.width);
      if t < 0 then None
      else
        RenderLength(np');
        Some(Render(np'))
  }

  // ---------------------------------------------------------------- what gets printed

  /** NaN prints as "nan" ("NAN" for the upper-case conversions), padded
      with spaces to the width on the side the '-' flag selects, even when
      the '0' flag is given. */
  lemma NaNText(sp: Spec, others: (Value, Spec) -> Option<Parts>)
    requires sp.width <= IntMax
    ensures var name := if Upper(sp.conv) then "NAN" else "nan";
            var pad := Rep(' ', Max(sp.width, 3) - 3);
            SprntFp(NaN, sp, others) == Some(if sp.flags.left then name + pad else pad + name)
  {
    var np := SingularParts(NaN, sp);
    assert PartsLength(np) == 3;
    var np' := Partition(np, sp.width).1;
    RenderPadding(np');
    var name := if Upper(sp.conv) then "NAN" else "nan";
    assert Body(np') == name + [] + [] + [] + [] + [] + [];
    assert OptChar(np'.sign) + np'.prefix == [];
    assert Render(np'.(padSize := 0)) == name;
  }

  /** Unpadded parts are written sign, prefix, body. */
  lemma RenderPlain(np: Parts)
    requires np.padSize == 0
    ensures Render(np) == OptChar(np.sign) + np.prefix + Body(np)
  {
    RenderPadding(np);
    assert np.(padSize := 0) == np;
  }

  /** "%.<p>Ra" of +0 with no flags and no width is "0x0." then p zeros
      then "p+0". */
  lemma ZeroHexText(p: nat, rnd: Rnd, others: (Value, Spec) -> Option<Parts>)
    requires 0 < p <= 1000
    ensures SprntFp(Zero(false), Spec(NoFlagSet, 0, p, MpfrArg, rnd, 'a'), others)
              == Some("0x0." + Rep('0', p) + "p+0")
  {
    var sp := Spec(NoFlagSet, 0, p, MpfrArg, rnd, 'a');
    var np := SingularParts(Zero(false), sp);
    assert NumberParts(Zero(false), sp, others) == Some(np);
    assert PartsLength(np) == 7 + p;
    assert Partition(np, 0) == (7 + p, np);
    assert SprntFp(Zero(false), sp, others) == Some(Render(np));
    RenderPlain(np);
    var R := Rep('0', p);
    assert Rep('0', 0) == [];
    assert Body(np) == "0" + [] + "." + [] + [] + R + "p+0";
    assert Render(np) == [] + "0x" + ("0" + [] + "." + [] + [] + R + "p+0");
    assert [] + "0x" + ("0" + [] + "." + [] + [] + R + "p+0") == "0x" + ("0" + "." + R + "p+0");
    assert "0x" + ("0" + "." + R + "p+0") == "0x0." + R + "p+0";
  }

  /** "%.0Ra" of a regular number with no flags and no width: the sign,
      "0x", the digit and exponent of the 4-bit rounding of x
      (HexLeadRounds). */
  lemma HexText(x: Value, rnd: Rnd, others: (Value, Spec) -> Option<Parts>)
    requires x.Reg? && Valid(x) && -1000 < x.exp < 1000
    ensures HexLeadOf(x, rnd).digit < 16
    ensures var lead := HexLeadOf(x, rnd);
            SprntFp(x, Spec(NoFlagSet, 0, 0, MpfrArg, rnd, 'a'), others)
              == Some(OptChar(if x.neg then '-' else '\0') + "0x" + [HexChar(lead.digit, false)] + ExpText(lead.exp, false))
  {
    var sp := Spec(NoFlagSet, 0, 0, MpfrArg, rnd, 'a');
    var lead := HexLeadOf(x, rnd);
    assert 8 <= lead.digit <= 15 && lead.exp <= x.exp - 3 && lead.exp >= x.exp - 4 by {
      HexLeadRounds(x, rnd);
    }
    var np := HexParts(x, sp);
    assert NumberParts(x, sp, others) == Some(np);
    DecimalLength(Abs(lead.exp));
    assert PartsLength(np) <= IntMax;
    assert Partition(np, 0) == (PartsLength(np), np);
    assert SprntFp(x, sp, others) == Some(Render(np));
    RenderPlain(np);
    assert Rep('0', 0) == [];
    var D := [HexChar(lead.digit, false)];
    assert Body(np) == D + np.exp;
    assert OptChar(np.sign) + np.prefix + (D + np.exp) == OptChar(np.sign) + "0x" + D + np.exp;
  }

  /** The decimal spelling of n has at most n + 1 digits. */
  lemma {:induction false} DecimalLength(n: nat)
    ensures |NatToDecimal(n)| <= n + 1
  {
    if n >= 10 {
      DecimalLength(n / 10);
    }
  }
}

=== FILE: printf_parse.dfy ===
/** The conversion-specification parser of mpfr_vasprintf (vasprintf.c):
    flags, field width, precision, type modifier and the rounding-mode
    letter that follows 'R', as in the fprintf grammar of section 7.19.6.1
    of ISO/IEC 9899:1999 extended with GMP's and MPFR's modifiers.  The
    parser reads a suffix of the format string and returns the suffix it
    stops at; reading past the end reads the terminating NUL. */
module PrintfParse {
  import opened Bits
  import opened Floats
  import opened Outcomes
  import opened Text

  /** enum arg_t: what the type modifier says the argument is. */
  datatype ArgType =
    | NoArg | CharArg | ShortArg | LongArg | LongLongArg | IntmaxArg | SizeArg | PtrdiffArg
    | LongDoubleArg | MpfArg | MpqArg | MpLimbArg | MpLimbArrayArg | MpzArg | MpfrPrecArg | MpfrArg

  /** The flag fields of struct printf_spec, with the padding character
      the '0' flag selects. */
  datatype FlagSet = FlagSet(alt: bool, space: bool, left: bool, showsign: bool, group: bool, pad: char)

  /** struct printf_spec. */
  datatype Spec = Spec(flags: FlagSet, width: int, prec: int, argType: ArgType, rnd: Rnd, conv: char)

  const NoFlagSet := FlagSet(false, false, false, false, false, ' ')

  /** specinfo_init. */
  const SpecInit := Spec(NoFlagSet, 0, 0, NoArg, RNDN, 'i')

  /** The MPFR_ASSERTN checks of the parser that abort the program. */
  datatype ParseError = IntOverflow | WidthOverflow

  /** The character the C pointer sees: the terminating NUL past the end. */
  function Head(s: string): char
  {
    if |s| == 0 then '\0' else s[0]
  }

  /** The pointer one character on; it never moves past the NUL. */
  function Tail(s: string): (t: string)
    ensures |s| > 0 ==> t == s[1..]
  {
    if |s| == 0 then s else s[1..]
  }

  /** t is a suffix of s. */
  predicate SuffixOf(t: string, s: string)
  {
    |t| <= |s| && t == s[|s| - |t|..]
  }

  /** The characters between s and its suffix t. */
  function Consumed(s: string, t: string): string
    requires SuffixOf(t, s)
  {
    s[..|s| - |t|]
  }

  // ---------------------------------------------------------------- flags

  predicate IsFlag(c: char)
  {
    c == '0' || c == '#' || c == '+' || c == ' ' || c == '-' || c == '\''
  }

  /** What one flag character does; the thousands-separator flag is
      skipped without setting `group`. */
  function SetFlag(f: FlagSet, c: char): FlagSet
  {
    match c
    case '0' => f.(pad := '0')
    case '#' => f.(alt := true)
    case '+' => f.(showsign := true)
    case ' ' => f.(space := true)
    case '-' => f.(left := true)
    case _ => f
  }

  /** parse_flags (vasprintf.c:163-199).  It stops at the first character
      that is not a flag. */
  function ParseFlags(s: string, f: FlagSet): (r: (string, FlagSet))
    ensures SuffixOf(r.0, s) && !IsFlag(Head(r.0))
  {
    if |s| > 0 && IsFlag(s[0]) then ParseFlags(s[1..], SetFlag(f, s[0]))
    else (s, f)
  }

  /** parse_flags reads nothing but flags. */
  lemma {:induction false} ParseFlagsReadsFlags(s: string, f: FlagSet)
    ensures var t := ParseFlags(s, f).0;
            forall k :: 0 <= k < |s| - |t| ==> IsFlag(s[k])
    decreases |s|
  {
    if |s| > 0 && IsFlag(s[0]) {
      ParseFlagsReadsFlags(s[1..], SetFlag(f, s[0]));
    }
  }

  /** The fields after reading the flags in c, starting from f. */
  function FlagsAfter(f: FlagSet, c: string): FlagSet
  {
    FlagSet(f.alt || '#' in c, f.space || ' ' in c, f.left || '-' in c,
            f.showsign || '+' in c, f.group, if '0' in c then '0' else f.pad)
  }

  /** A flag sets its field whatever its position among the flags, and
      repeating one changes nothing; the thousands-separator flag sets
      nothing, so `group` keeps its value. */
  lemma {:induction false} ParseFlagsSets(s: string, f: FlagSet)
    ensures var r := ParseFlags(s, f);
            r.1 == FlagsAfter(f, Consumed(s, r.0))
    decreases |s|
  {
    var r := ParseFlags(s, f);
    if |s| > 0 && IsFlag(s[0]) {
      ParseFlagsSets(s[1..], SetFlag(f, s[0]));
      ConsumedCons(s, r.0);
      FlagStep(f, s[0], Consumed(s[1..], r.0));
    } else {
      assert Consumed(s, r.0) == [];
    }
  }

  /** What was consumed of s is its first character and what was consumed
      of the rest. */
  lemma ConsumedCons(s: string, t: string)
    requires |s| > 0 && SuffixOf(t, s[1..])
    ensures SuffixOf(t, s) && Consumed(s, t) == [s[0]] + Consumed(s[1..], t)
  {
    assert s[1..][|s| - 1 - |t|..] == s[|s| - |t|..];
  }

  /** One more flag in front of the ones already read. */
  lemma FlagStep(f: FlagSet, x: char, c: string)
    ensures FlagsAfter(SetFlag(f, x), c) == FlagsAfter(f, [x] + c)
  {
    var g := [x] + c;
    assert g[0] == x && g[1..] == c;
    assert ('#' in g) == (x == '#' || '#' in c);
    assert (' ' in g) == (x == ' ' || ' ' in c);
    assert ('-' in g) == (x == '-' || '-' in c);
    assert ('+' in g) == (x == '+' || '+' in c);
    assert ('0' in g) == (x == '0' || '0' in c);
  }

  // ---------------------------------------------------------------- READ_INT

  /** The largest value READ_INT accepts is one below this: the first
      assertion needs the field below INT_MAX / 10 before each digit. */
  const ReadIntLimit: nat := 2147483640

  /** Length of the run of decimal digits at the start of s. */
  function DigitRun(s: string): (n: nat)
    ensures n <= |s| && AllDigits(s[..n]) && !IsDigit(Head(s[n..]))
  {
    if |s| > 0 && IsDigit(s[0]) then
      var n := 1 + DigitRun(s[1..]);
      assert s[..n] == [s[0]] + s[1..][..n - 1];
      assert s[n..] == s[1..][n - 1..];
      n
    else 0
  }

  /** The loop of READ_INT (vasprintf.c:71-100) with the field value
      read so far: each digit is accumulated under the two overflow
      assertions; '*' replaces the field by the next int argument and
      ends the field; anything else ends it. */
  function ReadIntFrom(s: string, field: int, star: int): (r: Result<(string, int), ParseError>)
    ensures r.Ok? ==> SuffixOf(r.value.0, s)
  {
    if |s| > 0 && IsDigit(s[0]) then
      if field >= IntMax / 10 then Fail(IntOverflow)
      else if field * 10 >= IntMax - DigitValue(s[0]) then Fail(IntOverflow)
      else ReadIntFrom(s[1..], field * 10 + DigitValue(s[0]), star)
    else if |s| > 0 && s[0] == '*' then Ok((s[1..], star))
    else Ok((s, field))
  }

  /** READ_INT on a field that specinfo_init set to 0. */
  function ReadInt(s: string, star: int): Result<(string, int), ParseError>
  {
    ReadIntFrom(s, 0, star)
  }

  /** READ_INT reads the whole leading digit run and aborts exactly when
      its value reaches ReadIntLimit; a '*' right after the digits
      replaces the value by the int argument and is consumed too. */
  lemma ReadIntCorrect(s: string, star: int)
    ensures var n := DigitRun(s);
            var v := DecimalValue(s[..n]);
            && (ReadInt(s, star).Fail? <==> v >= ReadIntLimit)
            && (v < ReadIntLimit ==>
                  ReadInt(s, star) == (if Head(s[n..]) == '*' then Ok((s[n + 1..], star)) else Ok((s[n..], v))))
  {
    var n := DigitRun(s);
    assert s[..0] == [];
    ReadIntFromCorrect([], s, star);
    assert [] + s[..n] == s[..n];
  }

  /** The loop invariant of READ_INT: after the digits `pre`, the field
      holds their value. */
  lemma {:induction false} ReadIntFromCorrect(pre: string, s: string, star: int)
    requires AllDigits(pre) && DecimalValue(pre) < ReadIntLimit
    ensures var n := DigitRun(s);
            var w := pre + s[..n];
            AllDigits(w) &&
            var v := DecimalValue(w);
            && (ReadIntFrom(s, DecimalValue(pre), star).Fail? <==> v >= ReadIntLimit)
            && (v < ReadIntLimit ==>
                  ReadIntFrom(s, DecimalValue(pre), star)
                    == (if Head(s[n..]) == '*' then Ok((s[n + 1..], star)) else Ok((s[n..], v))))
    decreases |s|
  {
    var n := DigitRun(s);
    if n == 0 {
      assert pre + s[..n] == pre;
      assert s[n..] == s;
    } else {
      var pre' := ReadIntPush(pre, s);
      if DecimalValue(pre') < ReadIntLimit {
        ReadIntFromCorrect(pre', s[1..], star);
        ReadIntShift(pre, s, star);
      } else {
        ReadIntOverflow(pre, s, star);
      }
    }
  }

  /** The field after one more digit, and the digit run it leaves. */
  lemma ReadIntPush(pre: string, s: string) returns (pre': string)
    requires AllDigits(pre) && |s| > 0 && IsDigit(s[0])
    ensures pre' == pre + [s[0]] && AllDigits(pre')
    ensures DecimalValue(pre') == 10 * DecimalValue(pre) + DigitValue(s[0])
    ensures DigitRun(s) == 1 + DigitRun(s[1..])
    ensures pre' + s[1..][..DigitRun(s[1..])] == pre + s[..DigitRun(s)]
    ensures s[1..][DigitRun(s[1..])..] == s[DigitRun(s)..]
  {
    pre' := pre + [s[0]];
    var n := DigitRun(s);
    assert pre'[..|pre'| - 1] == pre;
    assert s[1..][..n - 1] == s[1..n];
    assert AllDigits(pre') by {
      assert forall k :: 0 <= k < |pre| ==> pre'[k] == pre[k];
    }
  }

  /** READ_INT's result after a digit that keeps the field in range is its
      result on the rest of the input. */
  lemma ReadIntShift(pre: string, s: string, star: int)
    requires AllDigits(pre) && |s| > 0 && IsDigit(s[0])
    requires AllDigits(pre + [s[0]]) && DecimalValue(pre + [s[0]]) == 10 * DecimalValue(pre) + DigitValue(s[0])
    requires DecimalValue(pre + [s[0]]) < ReadIntLimit && DigitRun(s) == 1 + DigitRun(s[1..])
    requires pre + [s[0]] + s[1..][..DigitRun(s[1..])] == pre + s[..DigitRun(s)]
    requires s[1..][DigitRun(s[1..])..] == s[DigitRun(s)..]
    ensures ReadIntFrom(s, DecimalValue(pre), star) == ReadIntFrom(s[1..], DecimalValue(pre + [s[0]]), star)
  {
    ReadIntDigit(s, DecimalValue(pre), star);
  }

  /** A digit that takes the field to ReadIntLimit or beyond aborts READ_INT,
      and the whole digit run's value is at least as large. */
  lemma ReadIntOverflow(pre: string, s: string, star: int)
    requires AllDigits(pre) && |s| > 0 && IsDigit(s[0]) && DigitRun(s) >= 1
    requires AllDigits(pre + [s[0]]) && DecimalValue(pre + [s[0]]) == 10 * DecimalValue(pre) + DigitValue(s[0])
    requires DecimalValue(pre + [s[0]]) >= ReadIntLimit
    requires pre + [s[0]] + s[1..DigitRun(s)] == pre + s[..DigitRun(s)]
    ensures AllDigits(pre + s[..DigitRun(s)]) && DecimalValue(pre + s[..DigitRun(s)]) >= ReadIntLimit
    ensures ReadIntFrom(s, DecimalValue(pre), star) == Fail(IntOverflow)
  {
    ReadIntDigit(s, DecimalValue(pre), star);
    PrefixValueBelow(pre + [s[0]], s[1..DigitRun(s)]);
  }

  /** One digit of READ_INT: the two overflow assertions together fire
      exactly when the new field value reaches ReadIntLimit. */
  lemma ReadIntDigit(s: string, field: nat, star: int)
    requires |s| > 0 && IsDigit(s[0])
    ensures var v := field * 10 + DigitValue(s[0]);
            ReadIntFrom(s, field, star) == if v >= ReadIntLimit then Fail(IntOverflow) else ReadIntFrom(s[1..], v, star)
  {
  }

  lemma AllDigitsConcat(a: string, b: string)
    requires AllDigits(a) && AllDigits(b)
    ensures AllDigits(a + b)
  {
    assert forall k :: 0 <= k < |a + b| ==> (a + b)[k] == (if k < |a| then a[k] else b[k - |a|]);
  }

  /** More digits never make a smaller number. */
  lemma {:induction false} PrefixValueBelow(a: string, b: string)
    requires AllDigits(a) && AllDigits(b)
    ensures AllDigits(a + b) && DecimalValue(a) <= DecimalValue(a + b)
    decreases |b|
  {
    AllDigitsConcat(a, b);
    if |b| > 0 {
      var b' := b[..|b| - 1];
      assert (a + b)[..|a + b| - 1] == a + b';
      PrefixValueBelow(a, b');
      assert DecimalValue(a + b) >= 10 * DecimalValue(a + b');
    } else {
      assert a + b == a;
    }
  }

  // ---------------------------------------------------------------- type modifier

  /** The modifiers of one letter (vasprintf.c:227-276); "q" is a second
      spelling of LONG_LONG_ARG. */
  function LetterModifier(c: char): ArgType
  {
    match c
    case 'q' => LongLongArg
    case 'j' => IntmaxArg
    case 'z' => SizeArg
    case 't' => PtrdiffArg
    case 'L' => LongDoubleArg
    case 'F' => MpfArg
    case 'Q' => MpqArg
    case 'M' => MpLimbArg
    case 'N' => MpLimbArrayArg
    case 'Z' => MpzArg
    case 'P' => MpfrPrecArg
    case 'R' => MpfrArg
    case _ => NoArg
  }

  predicate IsModifier(c: char)
  {
    c == 'h' || c == 'l' || LetterModifier(c) != NoArg
  }

  /** parse_arg_type (vasprintf.c:201-282): "hh", "h", "ll", "l" and the
      one-letter modifiers; anything else is no modifier and is not
      consumed. */
  function ParseArgType(s: string): (r: (string, ArgType))
    ensures SuffixOf(r.0, s) && |s| - |r.0| <= 2
    ensures r.1 == NoArg <==> r.0 == s
    ensures r.1 == NoArg <==> !IsModifier(Head(s))
  {
    var c := Head(s);
    if c == 'h' then (if Head(s[1..]) == 'h' then (s[2..], CharArg) else (s[1..], ShortArg))
    else if c == 'l' then (if Head(s[1..]) == 'l' then (s[2..], LongLongArg) else (s[1..], LongArg))
    else if LetterModifier(c) == NoArg then (s, NoArg)
    else (s[1..], LetterModifier(c))
  }

  /** The letter of each one-letter modifier. */
  function ModifierLetter(t: ArgType): (c: char)
    requires t !in {NoArg, CharArg, ShortArg, LongArg}
    ensures LetterModifier(c) == t
  {
    match t
    case LongLongArg => 'q'
    case IntmaxArg => 'j'
    case SizeArg => 'z'
    case PtrdiffArg => 't'
    case LongDoubleArg => 'L'
    case MpfArg => 'F'
    case MpqArg => 'Q'
    case MpLimbArg => 'M'
    case MpLimbArrayArg => 'N'
    case MpzArg => 'Z'
    case MpfrPrecArg => 'P'
    case MpfrArg => 'R'
  }

  /** A spelling of each modifier: the doubled letters for the C types
      that have them, the one letter otherwise. */
  function ModifierText(t: ArgType): (m: string)
    ensures t == NoArg <==> m == []
  {
    match t
    case NoArg => ""
    case CharArg => "hh"
    case ShortArg => "h"
    case LongArg => "l"
    case _ => [ModifierLetter(t)]
  }

  /** Every modifier reads back as itself, as long as what follows a
      single 'h' or 'l' is not a second one. */
  lemma ParseArgTypeOfText(t: ArgType, rest: string)
    requires t == NoArg ==> !IsModifier(Head(rest))
    requires t == ShortArg ==> Head(rest) != 'h'
    requires t == LongArg ==> Head(rest) != 'l'
    ensures ParseArgType(ModifierText(t) + rest) == (rest, t)
  {
    var m := ModifierText(t);
    var s := m + rest;
    if t == NoArg {
      assert s == rest;
    } else if |m| == 2 {
      assert s[0] == m[0] && s[1..] == [m[1]] + rest && s[2..] == rest;
    } else {
      assert s[0] == m[0] && s[1..] == rest;
    }
  }

  // ---------------------------------------------------------------- rounding letter

  /** The rounding mode after 'R' (vasprintf.c:1683-1710): '*' takes the
      next argument, 'D', 'U' and 'Z' select their mode, 'N' selects
      round-to-nearest; each of these is consumed.  Any other character,
      the NUL included, leaves round-to-nearest and is not consumed. */
  function ParseRnd(s: string, star: Rnd): (r: (string, Rnd))
    ensures SuffixOf(r.0, s)
    ensures r.0 == s <==> !(Head(s) in "*DUZN")
    ensures r.0 == s ==> r.1 == RNDN
  {
    match Head(s)
    case '*' => (s[1..], star)
    case 'D' => (s[1..], RNDD)
    case 'U' => (s[1..], RNDU)
    case 'Z' => (s[1..], RNDZ)
    case 'N' => (s[1..], RNDN)
    case _ => (s, RNDN)
  }

  function RndLetter(rnd: Rnd): char
  {
    match rnd
    case RNDN => 'N'
    case RNDZ => 'Z'
    case RNDU => 'U'
    case RNDD => 'D'
  }

  /** Each mode's letter reads back as that mode. */
  lemma ParseRndOfLetter(rnd: Rnd, rest: string, star: Rnd)
    ensures ParseRnd([RndLetter(rnd)] + rest, star) == (rest, rnd)
  {
    assert ([RndLetter(rnd)] + rest)[1..] == rest;
  }

  // ---------------------------------------------------------------- the specification

  const IntMin: int := -0x8000_0000

  /** C's int negation on a two's-complement machine: -INT_MIN wraps to
      INT_MIN. */
  function NegInt(w: int): int
  {
    if w == IntMin then IntMin else -w
  }

  /** vasprintf.c:1665-1672: a negative width means left adjustment and
      its absolute value; a width that becomes INT_MAX fails the
      assertion. */
  function AdjustWidth(sp: Spec): (r: Result<Spec, ParseError>)
    ensures sp.width >= 0 ==> r == Ok(sp)
    ensures IntMin < sp.width < 0 ==> (r.Ok? <==> -sp.width < IntMax)
    ensures r.Ok? && IntMin < sp.width ==>
              && r.value.width == Abs(sp.width)
              && r.value.flags == sp.flags.(left := sp.flags.left || sp.width < 0)
              && r.value.(width := sp.width, flags := sp.flags) == sp
  {
    if sp.width < 0 then
      var w := NegInt(sp.width);
      if w < IntMax then Ok(sp.(flags := sp.flags.(left := true), width := w)) else Fail(WidthOverflow)
    else Ok(sp)
  }

  /** The precision (vasprintf.c:1673-1680): after '.', READ_INT; a '.'
      followed by neither a digit nor '*', or no '.' at all, gives -1. */
  function ParsePrec(s: string, star: int): (r: Result<(string, int), ParseError>)
    ensures r.Ok? ==> SuffixOf(r.value.0, s)
  {
    if Head(s) == '.' then
      match ReadInt(s[1..], star)
      case Fail(e) => Fail(e)
      case Ok((t, p)) => Ok((t, if |t| == |s| - 1 then -1 else p))
    else Ok((s, -1))
  }

  /** Flags and field width (vasprintf.c:1661-1672). */
  function ParseWidth(s: string, star: int): (r: Result<(string, Spec), ParseError>)
  {
    var (s1, f) := ParseFlags(s, NoFlagSet);
    match ReadInt(s1, star)
    case Fail(e) => Fail(e)
    case Ok((s2, w)) =>
      match AdjustWidth(SpecInit.(flags := f, width := w))
      case Fail(e) => Fail(e)
      case Ok(sp) => Ok((s2, sp))
  }

  /** Type modifier, rounding letter and conversion character
      (vasprintf.c:1681-1716); the conversion character is consumed
      unless it is the NUL. */
  function ParseConv(s: string, sp: Spec, rndStar: Rnd): (r: (string, Spec))
  {
    var (s4, t) := ParseArgType(s);
    var (s5, rnd) := if t == MpfrArg then ParseRnd(s4, rndStar) else (s4, RNDN);
    (Tail(s5), sp.(argType := t, rnd := rnd, conv := Head(s5)))
  }

  /** The parse of one conversion specification, from the character after
      '%' (vasprintf.c:1661-1716).  widthStar, precStar and rndStar are
      the arguments a '*' would take. */
  function ParseSpec(s: string, widthStar: int, precStar: int, rndStar: Rnd): Result<(string, Spec), ParseError>
  {
    match ParseWidth(s, widthStar)
    case Fail(e) => Fail(e)
    case Ok((s2, sp)) =>
      match ParsePrec(s2, precStar)
      case Fail(e) => Fail(e)
      case Ok((s3, p)) => Ok(ParseConv(s3, sp.(prec := p), rndStar))
  }

  /** "*.*R*": the width, precision and rounding mode all come from the
      arguments, and a negative width turns into left adjustment. */
  lemma ParseSpecStars(widthStar: int, precStar: int, rndStar: Rnd, rest: string)
    requires IntMin < widthStar && -widthStar < IntMax
    ensures ParseSpec("*.*R*" + rest, widthStar, precStar, rndStar)
              == Ok((Tail(rest), Spec(NoFlagSet.(left := widthStar < 0), Abs(widthStar), precStar,
                                      MpfrArg, rndStar, Head(rest))))
  {
    var s4 := ['*'] + rest;
    var s3 := ['R'] + s4;
    var s2 := ['.'] + (['*'] + s3);
    assert "*.*R*" + rest == ['*'] + s2;
    StarWidth(s2, widthStar);
    StarPrec(s3, precStar);
    StarConv(rest, SpecInit.(flags := NoFlagSet.(left := widthStar < 0), width := Abs(widthStar), prec := precStar), rndStar);
  }

  lemma StarWidth(s2: string, widthStar: int)
    requires IntMin < widthStar && -widthStar < IntMax
    ensures ParseWidth(['*'] + s2, widthStar)
              == Ok((s2, SpecInit.(flags := NoFlagSet.(left := widthStar < 0), width := Abs(widthStar))))
  {
    var s := ['*'] + s2;
    Cons('*', s2);
    assert ParseFlags(s, NoFlagSet) == (s, NoFlagSet);
    assert ReadInt(s, widthStar) == Ok((s2, widthStar));
  }

  lemma StarPrec(s3: string, precStar: int)
    ensures ParsePrec(['.'] + (['*'] + s3), precStar) == Ok((s3, precStar))
  {
    Cons('.', ['*'] + s3);
    Cons('*', s3);
  }

  lemma StarConv(rest: string, sp: Spec, rndStar: Rnd)
    ensures ParseConv(['R'] + (['*'] + rest), sp, rndStar)
              == (Tail(rest), sp.(argType := MpfrArg, rnd := rndStar, conv := Head(rest)))
  {
    Cons('R', ['*'] + rest);
    Cons('*', rest);
    assert ParseArgType(['R'] + (['*'] + rest)) == (['*'] + rest, MpfrArg);
    assert ParseRnd(['*'] + rest, rndStar) == (rest, rndStar);
  }

  lemma Cons(c: char, t: string)
    ensures Head([c] + t) == c && ([c] + t)[1..] == t
  {
  }

  /** A '.' that neither a digit nor '*' follows gives precision -1. */
  lemma ParsePrecDotAlone(rest: string, star: int)
    requires !IsDigit(Head(rest)) && Head(rest) != '*'
    ensures ParsePrec("." + rest, star) == Ok((rest, -1))
  {
    assert ("." + rest)[1..] == rest;
    assert ReadInt(rest, star) == Ok((rest, 0));
  }

  // ---------------------------------------------------------------- printing a spec back

  /** Specifications the parser can produce from digits alone (no '*'):
      width and precision in READ_INT's range, no group flag, pad ' ' or
      '0', the round-to-nearest default unless the type is mpfr_t, and a
      conversion character that cannot be read as part of an earlier
      field. */
  predicate Canonical(sp: Spec)
  {
    && 0 <= sp.width < ReadIntLimit
    && -1 <= sp.prec < ReadIntLimit
    && !sp.flags.group
    && (sp.flags.pad == ' ' || sp.flags.pad == '0')
    && (sp.argType != MpfrArg ==> sp.rnd == RNDN)
    && sp.conv != '\0' && !IsFlag(sp.conv) && !IsDigit(sp.conv) && sp.conv != '.' && sp.conv != '*'
    && (sp.argType == NoArg ==> !IsModifier(sp.conv))
    && (sp.argType == ShortArg ==> sp.conv != 'h')
    && (sp.argType == LongArg ==> sp.conv != 'l')
  }

  function Opt(b: bool, c: char): string
  {
    if b then [c] else []
  }

  function FlagText(f: FlagSet): string
  {
    Opt(f.left, '-') + (Opt(f.showsign, '+') + (Opt(f.space, ' ') + (Opt(f.alt, '#') + Opt(f.pad == '0', '0'))))
  }

  function WidthText(sp: Spec): string
  {
    if sp.width > 0 then NatToDecimal(sp.width) else ""
  }

  function PrecText(sp: Spec): string
    requires sp.prec >= -1
  {
    if sp.prec >= 0 then "." + NatToDecimal(sp.prec) else ""
  }

  function ConvText(sp: Spec): string
  {
    ModifierText(sp.argType) + ((if sp.argType == MpfrArg then [RndLetter(sp.rnd)] else "") + [sp.conv])
  }

  /** The text that spells sp, from the character after '%'. */
  function SpecText(sp: Spec): string
    requires Canonical(sp)
  {
    FlagText(sp.flags) + (WidthText(sp) + (PrecText(sp) + ConvText(sp)))
  }

  /** The parser inverts SpecText: a canonical spec written out and
      followed by anything reads back as itself, consuming exactly its
      text. */
  lemma ParseSpecText(sp: Spec, rest: string, widthStar: int, precStar: int, rndStar: Rnd)
    requires Canonical(sp)
    ensures ParseSpec(SpecText(sp) + rest, widthStar, precStar, rndStar) == Ok((rest, sp))
  {
    var tail3 := ConvText(sp) + rest;
    var tail2 := PrecText(sp) + tail3;
    assert SpecText(sp) + rest == FlagText(sp.flags) + (WidthText(sp) + tail2);
    ConvHead(sp, rest);
    PrecHead(sp, tail3);
    WidthOfText(sp, tail2, widthStar);
    PrecOfText(sp, tail3, precStar);
    ConvOfText(sp, rest, rndStar);
  }

  /** What can follow the precision: a modifier or the conversion. */
  lemma ConvHead(sp: Spec, rest: string)
    requires Canonical(sp)
    ensures var h := Head(ConvText(sp) + rest);
            !IsDigit(h) && h != '*' && h != '.' && !IsFlag(h)
  {
    var t := ConvText(sp) + rest;
    if sp.argType != NoArg {
      assert t[0] == ModifierText(sp.argType)[0];
    } else {
      assert t[0] == sp.conv;
    }
  }

  /** What can follow the width. */
  lemma PrecHead(sp: Spec, tail: string)
    requires Canonical(sp)
    requires var h := Head(tail); !IsDigit(h) && h != '*' && h != '.' && !IsFlag(h)
    ensures var h := Head(PrecText(sp) + tail); !IsDigit(h) && h != '*' && !IsFlag(h)
  {
    if sp.prec >= 0 {
      assert (PrecText(sp) + tail)[0] == '.';
    } else {
      assert PrecText(sp) + tail == tail;
    }
  }

  /** Flags and width read back. */
  lemma WidthOfText(sp: Spec, tail: string, star: int)
    requires Canonical(sp)
    requires var h := Head(tail); !IsDigit(h) && h != '*' && !IsFlag(h)
    ensures ParseWidth(FlagText(sp.flags) + (WidthText(sp) + tail), star)
              == Ok((tail, SpecInit.(flags := sp.flags, width := sp.width)))
  {
    var W := WidthText(sp);
    var t1 := W + tail;
    WidthHead(sp, tail);
    FlagsOfText(sp.flags, t1);
    if sp.width > 0 {
      NatToDecimalValue(sp.width);
    } else {
      assert DecimalValue(W) == 0;
    }
    ReadDigitsThen(W, tail, star);
    assert ReadInt(t1, star) == Ok((tail, sp.width));
    assert AdjustWidth(SpecInit.(flags := sp.flags, width := sp.width)) == Ok(SpecInit.(flags := sp.flags, width := sp.width));
  }

  lemma WidthHead(sp: Spec, tail: string)
    requires Canonical(sp)
    requires !IsFlag(Head(tail))
    ensures !IsFlag(Head(WidthText(sp) + tail))
  {
    var W := WidthText(sp);
    if sp.width > 0 {
      assert (W + tail)[0] == W[0];
      if |W| == 1 {
        assert W[0] == DigitChar(sp.width);
      }
    } else {
      assert W + tail == tail;
    }
  }

  /** Each optional flag character steps parse_flags once. */
  lemma OptStep(b: bool, c: char, x: string, f: FlagSet)
    requires IsFlag(c)
    ensures ParseFlags(Opt(b, c) + x, f) == ParseFlags(x, if b then SetFlag(f, c) else f)
  {
    if b {
      assert (Opt(b, c) + x)[1..] == x;
    } else {
      assert Opt(b, c) + x == x;
    }
  }

  lemma FlagsOfText(f: FlagSet, tail: string)
    requires !f.group && (f.pad == ' ' || f.pad == '0') && !IsFlag(Head(tail))
    ensures ParseFlags(FlagText(f) + tail, NoFlagSet) == (tail, f)
  {
    var x4 := Opt(f.pad == '0', '0') + tail;
    var x3 := Opt(f.alt, '#') + x4;
    var x2 := Opt(f.space, ' ') + x3;
    var x1 := Opt(f.showsign, '+') + x2;
    assert FlagText(f) + tail == Opt(f.left, '-') + x1;
    var s0 := NoFlagSet;
    var s1 := if f.left then SetFlag(s0, '-') else s0;
    var s2 := if f.showsign then SetFlag(s1, '+') else s1;
    var s3 := if f.space then SetFlag(s2, ' ') else s2;
    var s4 := if f.alt then SetFlag(s3, '#') else s3;
    OptStep(f.left, '-', x1, s0);
    OptStep(f.showsign, '+', x2, s1);
    OptStep(f.space, ' ', x3, s2);
    OptStep(f.alt, '#', x4, s3);
    OptStep(f.pad == '0', '0', tail, s4);
  }

  /** READ_INT over a digit string with a value in range that a non-digit,
      non-'*' character follows. */
  lemma ReadDigitsThen(d: string, tail: string, star: int)
    requires AllDigits(d) && DecimalValue(d) < ReadIntLimit
    requires !IsDigit(Head(tail)) && Head(tail) != '*'
    ensures ReadInt(d + tail, star) == Ok((tail, DecimalValue(d)))
  {
    var s := d + tail;
    DigitRunOf(d, tail);
    assert s[..|d|] == d && s[|d|..] == tail;
    ReadIntCorrect(s, star);
  }

  lemma {:induction false} DigitRunOf(d: string, tail: string)
    requires AllDigits(d) && !IsDigit(Head(tail))
    ensures DigitRun(d + tail) == |d|
  {
    if |d| > 0 {
      assert (d + tail)[1..] == d[1..] + tail;
      DigitRunOf(d[1..], tail);
    } else {
      assert d + tail == tail;
    }
  }

  lemma PrecOfText(sp: Spec, tail: string, star: int)
    requires Canonical(sp)
    requires var h := Head(tail); !IsDigit(h) && h != '*' && h != '.'
    ensures ParsePrec(PrecText(sp) + tail, star) == Ok((tail, sp.prec))
  {
    var P := PrecText(sp);
    if sp.prec >= 0 {
      var D := NatToDecimal(sp.prec);
      NatToDecimalValue(sp.prec);
      assert (P + tail)[1..] == D + tail;
      ReadDigitsThen(D, tail, star);
    } else {
      assert P + tail == tail;
    }
  }

  /** Modifier, rounding letter and conversion read back. */
  lemma ConvOfText(sp: Spec, rest: string, star: Rnd)
    requires Canonical(sp)
    ensures forall sp0 :: ParseConv(ConvText(sp) + rest, sp0, star)
                            == (rest, sp0.(argType := sp.argType, rnd := sp.rnd, conv := sp.conv))
  {
    var L := if sp.argType == MpfrArg then [RndLetter(sp.rnd)] else "";
    var t4 := L + [sp.conv] + rest;
    assert ConvText(sp) + rest == ModifierText(sp.argType) + t4;
    if sp.argType == MpfrArg {
      assert t4 == [RndLetter(sp.rnd)] + ([sp.conv] + rest);
      ParseRndOfLetter(sp.rnd, [sp.conv] + rest, star);
    } else {
      assert t4 == [sp.conv] + rest;
    }
    ParseArgTypeOfText(sp.argType, t4);
    assert ([sp.conv] + rest)[1..] == rest;
  }

  // ---------------------------------------------------------------- finding the next specification

  /** The search loop of mpfr_vasprintf (vasprintf.c:1645-1656), as
      written: skip to the next '%'; on "%%" continue the search from the
      second '%'.  Returns the text after the '%' that starts a
      specification, or None at the end of the format. */
  function NextSpecAsWritten(s: string): (r: Option<string>)
    ensures r.Some? ==> |r.value| < |s|
    decreases |s|
  {
    if |s| == 0 || s[0] == '\0' then None
    else if s[0] != '%' then NextSpecAsWritten(s[1..])
    else if Head(s[1..]) == '%' then NextSpecAsWritten(s[1..])
    else Some(s[1..])
  }

  /** The search with "%%" skipped as a whole, as section 7.19.6.1 of
      ISO/IEC 9899:1999 reads it: "%%" is an escaped '%' and starts no
      specification. */
  function NextSpec(s: string): (r: Option<string>)
    ensures r.Some? ==> |r.value| < |s|
    decreases |s|
  {
    if |s| == 0 || s[0] == '\0' then None
    else if s[0] != '%' then NextSpec(s[1..])
    else if Head(s[1..]) == '%' then NextSpec(s[2..])
    else Some(s[1..])
  }

  /** Literal text: no NUL, and every '%' belongs to a "%%" pair. */
  predicate Literal(s: string)
    decreases |s|
  {
    |s| == 0 ||
    (s[0] != '\0' && s[0] != '%' && Literal(s[1..])) ||
    (|s| >= 2 && s[0] == '%' && s[1] == '%' && Literal(s[2..]))
  }

  /** A specification NextSpec finds starts right after a lone '%', and
      the text before that '%' is literal. */
  lemma {:induction false} NextSpecFound(s: string)
    requires NextSpec(s).Some?
    ensures var t := NextSpec(s).value;
            var k := |s| - |t|;
            k >= 1 && t == s[k..] && s[k - 1] == '%' && Head(t) != '%' && Literal(s[..k - 1])
    decreases |s|
  {
    var t := NextSpec(s).value;
    var k := |s| - |t|;
    if s[0] != '%' {
      NextSpecFound(s[1..]);
      assert s[1..][..k - 2] == s[1..k - 1];
      LiteralPrepend(s, 1, k - 1);
    } else if Head(s[1..]) == '%' {
      NextSpecFound(s[2..]);
      assert s[2..][..k - 3] == s[2..k - 1];
      LiteralPrepend(s, 2, k - 1);
    } else {
      assert s[..0] == [];
    }
  }

  /** An ordinary character, or a "%%" pair, in front of literal text. */
  lemma LiteralPrepend(s: string, j: nat, e: nat)
    requires j <= e <= |s| && Literal(s[j..e])
    requires (j == 1 && s[0] != '\0' && s[0] != '%') || (j == 2 && s[0] == '%' && s[1] == '%')
    ensures Literal(s[..e])
  {
    assert s[..e][j..] == s[j..e];
  }

  /** When NextSpec finds none, the format up to its end or NUL is
      literal. */
  lemma {:induction false} NextSpecNone(s: string)
    requires NextSpec(s).None?
    ensures exists k :: 0 <= k <= |s| && Literal(s[..k]) && Head(s[k..]) == '\0'
    decreases |s|
  {
    if |s| == 0 || s[0] == '\0' {
      assert s[..0] == [] && s[0..] == s;
    } else if s[0] != '%' {
      NextSpecNone(s[1..]);
      var k :| 0 <= k <= |s[1..]| && Literal(s[1..][..k]) && Head(s[1..][k..]) == '\0';
      assert s[..k + 1][1..] == s[1..][..k];
      assert s[k + 1..] == s[1..][k..];
    } else {
      NextSpecNone(s[2..]);
      var k :| 0 <= k <= |s[2..]| && Literal(s[2..][..k]) && Head(s[2..][k..]) == '\0';
      assert s[..k + 2][2..] == s[2..][..k];
      assert s[k + 2..] == s[2..][k..];
    }
  }

  /** The search as written finds a specification in "%%d": the second
      '%' is read again as the start of one, whose conversion is 'd'. */
  lemma EscapedPercentAsWritten()
    ensures NextSpecAsWritten("%%d") == Some("d")
    ensures NextSpec("%%d") == None
  {
    assert "%%d"[1..] == "%d";
    assert "%d"[1..] == "d";
    assert "%%d"[2..] == "d";
    assert "d"[1..] == [];
  }
}

=== FILE: sgn.dfy ===
/** mpfr_sgn (src/sgn.c): the sign of a number as -1, 0 or 1, raising the
    erange flag when the number is NaN. */
module Sign {
  import opened Bits
  import opened Floats

  /** The signed significand of a regular number: the integer whose sign
      is the sign of the value (-1)^neg * mant * 2^(exp - prec). */
  function SignedMant(v: Value): int
    requires v.Reg?
  {
    if v.neg then -(v.mant as int) else v.mant as int
  }

  /** mpfr_sgn: the sign and the flags after the call. */
  function Sgn(a: Value, flags: Flags): (r: (int, Flags))
    ensures -1 <= r.0 <= 1
    ensures r.0 == 0 <==> a.NaN? || a.Zero?
    ensures a.NaN? ==> r.1 == flags.(erange := true)
    ensures !a.NaN? ==> r.1 == flags
  {
    if a.Zero? then (0, flags)
    else if a.NaN? then (0, flags.(erange := true))
    else (if a.neg then -1 else 1, flags)
  }

  /** The sign of a regular number is the sign of its value. */
  lemma SgnOfRegular(a: Value, flags: Flags)
    requires a.Reg? && Valid(a)
    ensures Sgn(a, flags).0 > 0 <==> SignedMant(a) > 0
    ensures Sgn(a, flags).0 < 0 <==> SignedMant(a) < 0
  {
    assert a.mant >= Pow2(a.prec - 1) >= 1;
  }

  /** An infinity has the sign of its direction. */
  lemma SgnOfInfinity(neg: bool, flags: Flags)
    ensures Sgn(Inf(neg), flags).0 == (if neg then -1 else 1)
  {
  }

  /** The sign is odd in its argument: negating a number negates its sign
      and raises the same flags. */
  lemma SgnNegate(a: Value, flags: Flags)
    ensures Sgn(Negate(a), flags).0 == -Sgn(a, flags).0
    ensures Sgn(Negate(a), flags).1 == Sgn(a, flags).1
  {
  }
}

=== FILE: text.dfy ===
/** Decimal rendering of machine integers, as the C library's "%ld" and
    "%+ld" conversions produce them, with the parser that reads them back. */
module Text {
  import opened Bits

  predicate IsDigit(c: char)
  {
    '0' <= c <= '9'
  }

  predicate AllDigits(s: string)
  {
    forall i :: 0 <= i < |s| ==> IsDigit(s[i])
  }

  function DigitChar(d: nat): (c: char)
    requires d < 10
    ensures IsDigit(c)
  {
    ('0' as int + d) as char
  }

  function DigitValue(c: char): (d: nat)
    requires IsDigit(c)
    ensures d < 10
  {
    c as int - '0' as int
  }

  /** Value of a run of decimal digits, most significant first. */
  function DecimalValue(s: string): nat
    requires AllDigits(s)
  {
    if |s| == 0 then 0 else 10 * DecimalValue(s[..|s| - 1]) + DigitValue(s[|s| - 1])
  }

  /** The shortest decimal spelling of `n`. */
  function NatToDecimal(n: nat): (s: string)
    ensures |s| >= 1 && AllDigits(s)
    ensures |s| > 1 ==> s[0] != '0'
  {
    if n < 10 then [DigitChar(n)] else NatToDecimal(n / 10) + [DigitChar(n % 10)]
  }

  lemma {:induction false} NatToDecimalValue(n: nat)
    ensures DecimalValue(NatToDecimal(n)) == n
  {
    if n >= 10 {
      var s := NatToDecimal(n);
      assert s[..|s| - 1] == NatToDecimal(n / 10);
      NatToDecimalValue(n / 10);
    }
  }

  /** "%ld": a minus sign for negative values, then the digits. */
  function IntToDecimal(i: int): (s: string)
    ensures |s| >= 1
    ensures s[0] == '-' <==> i < 0
  {
    if i < 0 then "-" + NatToDecimal(-i) else NatToDecimal(i)
  }

  /** "%+ld": the sign is always written. */
  function SignedDecimal(i: int): (s: string)
    ensures |s| >= 2 && (s[0] == '-' || s[0] == '+')
    ensures s[0] == '-' <==> i < 0
  {
    (if i < 0 then "-" else "+") + NatToDecimal(Abs(i))
  }

  /** Reads an optionally signed decimal integer back. */
  function ParseSigned(s: string): int
    requires |s| >= 1
    requires AllDigits(if s[0] == '-' || s[0] == '+' then s[1..] else s)
  {
    if s[0] == '-' then -(DecimalValue(s[1..]) as int)
    else if s[0] == '+' then DecimalValue(s[1..])
    else DecimalValue(s)
  }

  lemma IntToDecimalRoundTrip(i: int)
    ensures var s := IntToDecimal(i);
            AllDigits(if s[0] == '-' || s[0] == '+' then s[1..] else s) && ParseSigned(s) == i
  {
    var s := IntToDecimal(i);
    NatToDecimalValue(Abs(i));
    if i < 0 {
      assert s[1..] == NatToDecimal(-i);
    }
  }

  lemma SignedDecimalRoundTrip(i: int)
    ensures var s := SignedDecimal(i);
            AllDigits(s[1..]) && ParseSigned(s) == i
  {
    var s := SignedDecimal(i);
    NatToDecimalValue(Abs(i));
    assert s[1..] == NatToDecimal(Abs(i));
  }
}
